=== FILE: README.md ===
# termsweeper in Dafny

A model of the game logic of termsweeper, a terminal Minesweeper, and of
its leaderboard file and keyboard handler, with proofs of what the program
promises.

The model follows the program's own structure:

- `Tiles` (tiles.dfy): difficulties and their mine counts, the cell
  (`Tile`, `DefaultTile`), the grid as a sequence of columns indexed
  `[x][y]`, and the predicates the proofs share: exact neighbour counts
  (`WellCounted`), the set of mines, the set of closed cells, and
  "only cells were opened" (`RevealsOnly`).
- `Around` (around.dfy): `do_around`, the walker over the up-to-eight
  neighbours of a cell, with its callback as a function
  `Tile -> (bool, Tile)`.
- `Presets` (presets.dfy): `check_compatible` and `get_compatible_sizes`,
  the choice of board dimensions for the drawing area.
- `Generate` (generate.dfy): `gen_tiles`, with the random source replaced
  by the sequence of coordinates it would draw.
- `Flood` (flood.dfy): `flood_fill`, the work-list reveal.
- `Game` (game.dfy): the board and the moves made on it: `Board::new`,
  `left_click` (with the regenerate-until-safe loop), `do_control_click`
  (the chord), `right_click` with the win check `check_all_mine_state`,
  `middle_click` and `set_max_board_size`.
- `Animation` (animation.dfy): `circle_points`, `clear_fire`,
  `do_game_over_animation_tile` and one frame of `do_game_over_animation`.
- `Text` and `Ledger` (text.dfy, ledger.dfy): `Score::as_string`,
  `parse_line`, `read_leaderboard` and the merge that `write_leaderboard`
  performs (append, sort, drop repeats).
- `Storage` (storage.dfy): the leaderboard file as text: how
  `BufRead::lines` splits it (at every '\n', dropping a '\r' only just
  before a '\n', and keeping an unterminated last line as it is), how the
  merged lines are written, and what writing over an existing file
  without truncating it does.
- `Keys` (keys.dfy): `handle_keys`.

Timestamps (`Option<Instant>`) become booleans: `firstMove` is "the
first-move time is set", `gameOver` is "the game-over time is set". Every
random draw and every regeneration is a parameter: `GenTiles` takes the
drawn coordinates, and a left click that needs a new grid takes the grid
the regeneration loop stops at (`reroll`) together with the promise that
it is freshly generated and safe at the clicked cell. The panics of
`get_compatible_sizes`, `Board::new` and `set_max_board_size` become
`None` in the model; the others become preconditions, listed under
"## Left out".

## Model

| member | source | states |
|---|---|---|
| Around.DoAround | src/types.rs:175-246 | the callback runs on exactly the in-grid neighbours (never on the cell itself); every other cell is unchanged; the reported coordinates are exactly the in-grid neighbours where the callback answered true, without repeats, at most eight |
| Around.MatchingCount | src/types.rs:175-246 | the number of reported coordinates equals the number of in-grid neighbours on which the callback answers true |
| Presets.CompatibleSizes | src/types.rs:327-370 | None (the panic) exactly when neither 10x8 nor 8x10 fits; Easy is 10x8 when that fits and 8x10 otherwise, and it fits; Medium and Hard are (0, 0) exactly when no candidate fits in either orientation, and otherwise are the last listed candidate that fits, as listed when that fits and swapped otherwise, so they fit the area with 252 and 480 cells |
| Presets.Pick | src/types.rs:346-367 | (0, 0) exactly when no candidate fits in either orientation; otherwise the last listed candidate that fits, as listed when that fits and swapped otherwise, with the candidates' area |
| Presets.FirstFit | src/types.rs:346-367 | the search from the back returns the last candidate that fits in either orientation, and None exactly when none does |
| Presets.PresetSize | src/types.rs:301-306 | a preset that fits has positive dimensions that fit the area, and 80, 252 or 480 cells |
| Presets.LargeTerminalFitsAll | src/types.rs:335-370 | a drawing area of at least 84 by 62 fits all three presets |
| Generate.GenTiles | src/types.rs:301-325 | the grid is a rectangle of the preset's size, every cell hidden and unlit, every neighbour count exact, and the mines are exactly the distinct drawn cells, as many as the preset asks for; None exactly when the draws hold too few distinct cells |
| Generate.PlaceMineStep | src/types.rs:313-322 | placing a mine on a mine-free cell and counting it in every neighbour keeps every count exact and adds exactly that cell to the mines |
| Game.NewBoard | src/types.rs:383-394 | None (the panic) exactly when the preset does not fit; otherwise a valid board before its first move, holding the generated grid |
| Game.Reveal | src/types.rs:447-464 | a flagged or outside cell changes nothing; a mine, a cell with a count, or an open cell changes that one cell to open and nothing else; otherwise the cell is opened, the game ends exactly on a mine, only cells are opened, a mine-free zero opens all its neighbours, every mine-free zero the click opens has all its neighbours open (the cascade), and on exact counts no other mine is opened |
| Game.RevealReach | src/types.rs:447-461 | every cell the click opens, other than the clicked one, touches a mine-free zero the click opened, and every such zero is joined to the clicked cell by a chain of adjacent opened zeros: nothing outside the clicked cell's zero region and its border is opened |
| Game.LeftClick | src/types.rs:428-465 | a finished game is left as it is; otherwise the first move is made, the game ends exactly when the clicked cell of the grid after regeneration is an unflagged mine, only cells are opened, the loss position is kept while the game goes on, and a clickable cell brings the game strictly closer to its end |
| Game.LeftClickLoses | src/types.rs:448-464 | a click that ends the game records the clicked cell as the loss position, and that cell is an open mine |
| Game.LeftClickCells | src/types.rs:447-461 | an unflagged in-grid cell is opened; a flagged or outside one leaves the grid as it was; a mine, a counted cell or an open cell changes only itself; a mine-free zero opens all its neighbours, and so does every mine-free zero opened in the cascade; every other cell opened touches an opened mine-free zero, and those zeros are joined to the clicked cell by chains of adjacent opened zeros |
| Game.LeftClickSparesMines | src/types.rs:447-464 | on exact counts, no mine other than the clicked cell is opened |
| Game.LeftClickValid | src/types.rs:428-465 | a valid board stays valid: counts exact, the preset's number of mines |
| Game.FirstClickSafe | src/types.rs:432-461 | the first click inside the grid of a valid board opens a cell that is neither a mine nor next to one, so the game goes on |
| Flood.FloodVisit | src/types.rs:593-602 | the callback leaves every cell it visits Visible (flags and question marks included) and matches exactly the cells that were closed and are mine-free zeros |
| Flood.FloodFill | src/types.rs:590-605 | the fill only opens cells |
| Flood.FloodOnlyRegion | src/types.rs:590-605 | every cell the fill opens touches a work entry or a mine-free zero the fill opened, and every mine-free zero it opens is joined to a work entry by a chain of adjacent opened zeros, so nothing beyond the border of the zero regions around the work entries is opened |
| Flood.FloodCascade | src/types.rs:590-605 | when the fill is over, every cell that was closed, is a mine-free zero and was opened has all its in-grid neighbours open: the whole zero region is open together with its border |
| Flood.FloodStep | src/types.rs:591-604 | one pop never closes a cell and opens one whenever it pushes any, so the fill terminates |
| Flood.FloodSparesMines | src/types.rs:590-605 | on exact counts, a fill seeded with zero cells opens no mine |
| Flood.FloodOpensAround | src/types.rs:590-605 | when the fill is over every in-grid neighbour of every cell it was seeded with is open |
| Game.ChordTargets | src/types.rs:513-531 | the targets are clickable neighbours, without repeats; there are none unless the count equals the number of flagged neighbours, and when it does every clickable neighbour is a target |
| Game.MarkedCount | src/types.rs:520-525 | the walker's count of flagged neighbours is the number of flagged in-grid neighbours |
| Game.ControlClickOpens | src/types.rs:513-536 | on a valid board or once the first move is made, every chord target ends open unless the game is lost on the way |
| Game.ChordNestedOpens | src/types.rs:532-535 | after the left click on a target, every cell the nested chord from that target left-clicks ends open on the final board, unless the game is lost on the way |
| Game.ControlClick | src/types.rs:513-536 | no targets means no change; otherwise the chord never moves the game away from its end, keeps the difficulty and area, never undoes the first move or the end of the game, only opens cells once the first move is made, keeps a board valid, and when it ends the game the recorded loss position is an open mine (while the game goes on the position is kept) |
| Game.ChordEach | src/types.rs:532-535 | the loop of left click then chord over the targets has the same guarantees as the chord, and every target from the current one on whose cell is inside and unflagged ends open unless the game is lost |
| Game.ChordRound | src/types.rs:533-534 | one round (left click on a target, then the chord from it) has the chord's guarantees, makes the first move or ends the game, lands strictly below the loop's measure, and opens a pending target while keeping the later ones pending unless it loses |
| Game.LeftClickFollows | src/types.rs:428-465 | a left click has the guarantees every chord step keeps: settings, first move, loss on an open mine at the recorded position, only cells opened, measure never grows |
| Game.ChordSafe | src/types.rs:513-536 | once the first move is made, on a board with exact counts where every flag stands on a mine, a chord never ends the game, and the board stays that way |
| Game.ChordReach | src/types.rs:513-536 | once the first move is made, every cell a chord opens touches the chord's centre or a cell it opened that is no mine and had no more mines than flags around it before the chord: the chord spreads only through cells whose own chord fires and through the zero regions its clicks open |
| Game.LeftClickOpensTarget | src/types.rs:428-461 | a left click on a pending chord target opens it unless it ends the game, and keeps the later targets pending, also when it is the first move and the grid is regenerated |
| Game.AllMinesInState | src/types.rs:564-570 | true exactly when every mine of the grid is in the given state |
| Game.RightClick | src/types.rs:538-562 | only states change: mines, counts and the fire highlight of every cell are kept; a finished game is left alone; the game is won exactly when every mine is flagged after the flag step; without a win only the clicked cell changes, by the flag cycle; a win opens every cell that is not a mine; the first move is made when the cell is inside |
| Game.RightClickTwice | src/types.rs:547-554 | right-clicking a hidden cell twice gives the grid back, when neither click wins |
| Game.RightClickValid | src/types.rs:538-562 | a valid board stays valid |
| Game.MiddleClick | src/types.rs:572-588 | a finished game or an outside cell changes nothing; otherwise only the clicked cell changes, by the question-mark cycle, open cells never change, and the first move is made |
| Game.MiddleClickTwice | src/types.rs:581-586 | middle-clicking a hidden cell twice gives the grid back |
| Game.MiddleClickValid | src/types.rs:572-588 | a valid board stays valid |
| Game.SetMaxBoardSize | src/types.rs:404-409 | the area is recorded; after the first move the grid is kept; before it the grid is the one generated for the new area, and None (the panic) exactly when the preset does not fit it; a valid board stays valid |
| Animation.CirclePoints | src/types.rs:250-276 | 4 axis points when x is 0, plus 4 when x equals y and 8 when x is below y, each at squared distance x*x + y*y from the center |
| Animation.CirclePointsAreOrbit | src/types.rs:250-276 | for 0 <= x <= y the points are exactly the eight reflections of (x, y) around the center |
| Animation.ClearFire | src/types.rs:467-471 | every highlight is put out and nothing else changes |
| Animation.AnimateTile | src/types.rs:473-484 | reports true exactly when the cell is inside; an inside mine is opened, any other inside cell lit; nothing else changes |
| Animation.AnimatePoints | src/types.rs:493-502 | the cells on the ring are burnt and only they; reports whether any ring point was inside the grid |
| Animation.GameOverAnimation | src/types.rs:487-511 | mines and counts are kept; a cell that is not a mine keeps its state and is lit exactly when on the ring; a mine is never lit and is open exactly when it was, when it is on the ring, or when no ring point is inside the grid |
| Ledger.DifficultyName | src/types.rs:19-25 | a difficulty's name holds no ':', so a written line splits at the separator after it |
| Ledger.AsString | src/types.rs:625-631 | the line splits at its first ": " into the difficulty's name and the decimal whole seconds |
| Ledger.ParseLine | src/io.rs:24-42 | a parsed line is a difficulty name, ": " and a 64-bit decimal number, with no nanoseconds |
| Ledger.ParseLineComplete | src/io.rs:24-42 | every line made of a difficulty name, ": " and a 64-bit number parses to that score |
| Ledger.ParseAsString | src/types.rs:625-631 | a score written by `as_string` parses back to its difficulty and whole seconds |
| Text.ParseU64 | src/io.rs:32 | a number parses exactly when it is an optional '+' then decimal digits of a value below 2^64 |
| Text.ParseNatToString | src/types.rs:625-631 | the decimal form of every 64-bit value parses back to it |
| Text.SplitOnce | src/io.rs:25 | the line is the head, ": " and the tail, and the head holds no earlier separator; None exactly when there is no separator |
| Ledger.ReadLeaderboard | src/io.rs:44-63 | None exactly when no line parses; otherwise the scores of the lines that parse, in file order |
| Ledger.PresentExactly | src/io.rs:51-56 | every score kept comes from a line, and every line that parses is kept |
| Ledger.PresentAppend | src/io.rs:51-56 | reading two parts of a file gives the scores of the first part then those of the second |
| Ledger.Merge | src/io.rs:65-79 | the written lines are strictly sorted and are exactly the lines of the old and new scores |
| Ledger.Sort | src/io.rs:78 | the result is a sorted permutation of the input |
| Ledger.SortIsTheSortedPermutation | src/io.rs:78 | any sorted permutation equals the sort's result, so the unstable sort of the program gives the same lines |
| Ledger.Dedup | src/io.rs:79 | repeats are dropped: the same strings remain, and a sorted input becomes strictly sorted |
| Text.LessTotal | src/io.rs:78 | the string order is total; with irreflexivity and transitivity it is a strict total order |
| Ledger.ReadWritten | src/io.rs:44-63 | scores with whole seconds, written one per line, read back as themselves, in order |
| Ledger.MergeIdempotent | src/io.rs:65-79 | reading the merged lines back and merging them again with no new scores gives the same lines |
| Storage.SplitLines | src/io.rs:51 | no more lines than characters; partners `Storage.SplitJoin`, `Storage.SplitLinesNoBreak` and `Storage.UnterminatedReturnUnread` |
| Storage.SplitLinesNoBreak | src/io.rs:51 | no line read from a file holds a '\n' |
| Storage.UnterminatedReturnUnread | src/io.rs:51 | a last line with no '\n' keeps its final '\r', so a file "Easy: 5\r" holds no score |
| Storage.Join | src/io.rs:91-95 | at least one character per line; partner `Storage.SplitJoin` |
| Storage.Overwrite | src/io.rs:87-95 | the new content is written from the start; a longer old content keeps its tail after it, so the length is the larger of the two |
| Storage.SplitJoin | src/io.rs:91-95 | lines without line breaks, each written followed by a newline, are read back by the line reader as the same lines |
| Storage.WriteLeaderboard | src/io.rs:65-98 | with the file truncated, the file reads back as exactly the merged lines |
| Storage.WriteLeaderboardStable | src/io.rs:65-98 | the scores read back from the written file write as the merged lines, and writing the file again with no new scores leaves it as it is |
| Storage.WriteLeaderboardAsWritten | src/io.rs:87-95 | without truncation the merged lines are written at the start of the file and the tail of a longer old file stays |
| Storage.StaleTailAddsScore | src/io.rs:87-95 | an old file "########Hard: 7\n" holds no score, yet after writing one Easy score of 1 second it reads back as Easy 1 and Hard 7 |
| Keys.HandleKeys | src/term/update.rs:6-44 | r and R ask for a new game and nothing else does; quitting is never undone, and only starts on Esc or q with the picker closed, or on c with exactly Control held; the difficulty changes only with the picker open: Down moves to the next of Easy, Medium, Hard (wrapping to Easy) and Up to the previous one; the picker opens only on c without exactly Control |
| Keys.DownCycles | src/term/update.rs:33-41 | with the picker open, Down three times returns to the start after showing all three difficulties, from Easy in the order Medium, Hard |
| Keys.UpUndoesDown | src/term/update.rs:24-41 | with the picker open, Up and Down undo each other |
| Keys.ArrowsNeedPicker | src/term/update.rs:24-41 | with the picker closed Up and Down change nothing |
| Keys.PickerToggleTwice | src/term/update.rs:15-21 | c without exactly Control toggles the picker, and twice changes nothing |
| Keys.ControlCQuits | src/term/update.rs:15-21 | c quits exactly when the modifiers are exactly Control (or the application was already quitting) |
| Keys.QuitKeyBacksOut | src/term/update.rs:8-14 | Esc and q close the picker when it is open and quit when it is closed, never changing the difficulty |
| Keys.EnterClosesPicker | src/term/update.rs:22 | Enter closes the picker and changes nothing else |
| Keys.OtherKeysIgnored | src/term/update.rs:42 | keys the handler does not list change nothing |

## Left out

- Rendering (`Tile::as_span`, `num_as_span`, `Board::to_widget`, `Score::as_list_item`, `Difficulty::as_span`, the ui module): drawing only, no game logic.
- `circle_perimeter` and the game-over frame counter: they run on floating point; the animation takes the ring points of a frame as input, and only the integer step `circle_points` is modelled.
- `thread_rng` and `Instant::now`: randomness and clocks become parameters (the drawn coordinates, the regenerated grid) and booleans.
- Generate.GenTiles: the program draws until every mine is placed, without end if the random source never produces enough distinct cells; the model takes a finite sequence of draws and returns None when it runs out. A preset size of (0, 0), which makes the program's `gen_range(0..0)` panic, is excluded by the precondition; `Fits` is what the callers check before generating.
- Finding the leaderboard path, `create_dir_all` and `File::create`: file-system effects; the model works on the file's content as text.
- Lines that are not valid UTF-8 (which `read_leaderboard` skips through `.ok()`): the file is modelled as characters; `ReadLeaderboard` still takes each line as optional text, so an unreadable line is a None entry.
- Storage.WriteLeaderboardAsWritten: the program overwrites bytes while the model overwrites characters; the two agree on the ASCII text the program writes and on any old file whose leftover tail starts on a character boundary.
- The event loop of main.rs, `handle_mouse` and the `App` type of app.rs: they only dispatch to the modelled operations. Starting a new game (`App::new_game`) is reported by `Keys.HandleKeys` as a flag rather than performed.
- `get_board_size`, `first_move_time`, `last_move_time`: plain accessors.
- Animation.GameOverAnimation: the `assert!` that the game is over, a panic in the program, is the precondition that the game is over rather than a None result.
- Game.ControlClickOpens: before the first move, the promise holds only for a valid board, because a regenerated grid of another size could leave a target outside it; every board the program builds is valid.
- Game.ChordSafe: stated only once the first move is made (any flag makes it); before it the chord's first left click may regenerate the grid, and the flags and counts the promise rests on belong to the old grid.
- Game.ChordReach: stated only once the first move is made, for the same reason: a regenerated grid has other zeros and counts than the board the chord started on. It bounds each opened cell by a nearby centre but does not state that the centres are chained back to (x, y), as `Game.RevealReach` does for a single click.
- Coordinates are unbounded integers: `x - 1` on a `usize` of 0 wraps to the largest word in the program, which no grid reaches, so both readings are "outside the grid".

## Findings

| source | as written | input that shows it | evidently intended | confidence | as-written member | corrected member |
|---|---|---|---|---|---|---|
| src/io.rs:87-95 | an existing leaderboard file is opened with `OpenOptions::new().write(true)` and no truncation, so when the merged lines are shorter than the old content the old tail stays in the file | old file "########Hard: 7\n" (no line parses, so no old score); writing one Easy score of 1 second leaves "Easy: 1\nHard: 7\n", which reads back with a Hard score of 7 seconds that was never recorded | open with `.truncate(true)` so the file holds exactly the merged lines | not executed | Storage.StaleTailAddsScore | Storage.WriteLeaderboardStable |

=== FILE: animation.dfy ===
/**
 * The loss animation: a ring of cells around the mine that went off is lit
 * each frame, mines on the ring are opened, and once the ring lies wholly
 * outside the grid every mine is opened.
 *
 * The ring itself comes from the midpoint circle algorithm, which runs on
 * floating point; only its per-octant step `circle_points` is modelled,
 * and the animation takes the ring as a list of points.
 */
module Animation {
  import opened Tiles
  import opened Game

  function Sq(n: int): nat
  {
    n * n
  }

  /** The eight reflections of the offset (x, y) across the axes and the diagonals. */
  function Orbit(x: int, y: int): set<(int, int)>
  {
    {(x, y), (-x, y), (x, -y), (-x, -y), (y, x), (-y, x), (y, -x), (-y, -x)}
  }

  function Shift(center: (nat, nat), d: (int, int)): (int, int)
  {
    (center.0 + d.0, center.1 + d.1)
  }

  /**
   * `circle_points`: the points of the circle around `center` that the
   * step (x, y) of the midpoint algorithm stands for, in the program's order.
   */
  function CirclePoints(center: (nat, nat), x: int, y: int): (r: seq<(int, int)>)
    ensures |r| == (if x == 0 then 4 else 0) + (if x == y then 4 else if x < y then 8 else 0)
    ensures forall i :: 0 <= i < |r| ==> Sq(r[i].0 - center.0) + Sq(r[i].1 - center.1) == Sq(x) + Sq(y)
  {
    var cx, cy := center.0, center.1;
    var axis := if x == 0 then [(cx, cy + y), (cx, cy - y), (cx + y, cy), (cx - y, cy)] else [];
    var diagonal := [(cx + x, cy + y), (cx - x, cy + y), (cx + x, cy - y), (cx - x, cy - y)];
    var swapped := [(cx + y, cy + x), (cx - y, cy + x), (cx + y, cy - x), (cx - y, cy - x)];
    axis + (if x == y then diagonal else if x < y then diagonal + swapped else [])
  }

  /**
   * For a step of the first octant (0 <= x <= y) the points are exactly the
   * eight reflections of (x, y) around the center, so the octant steps
   * together draw the whole circle.
   */
  lemma CirclePointsAreOrbit(center: (nat, nat), x: int, y: int)
    requires 0 <= x <= y
    ensures (set i | 0 <= i < |CirclePoints(center, x, y)| :: CirclePoints(center, x, y)[i])
            == set d | d in Orbit(x, y) :: Shift(center, d)
  {
    var r := CirclePoints(center, x, y);
    var lhs := set i | 0 <= i < |r| :: r[i];
    var rhs := set d | d in Orbit(x, y) :: Shift(center, d);
    forall p | p in lhs
      ensures p in rhs
    {
      var i :| 0 <= i < |r| && r[i] == p;
      var d := (p.0 - center.0, p.1 - center.1);
      assert d in Orbit(x, y);
      assert p == Shift(center, d);
    }
    forall d | d in Orbit(x, y)
      ensures Shift(center, d) in lhs
    {
      assert Shift(center, d) in r;
      var k :| 0 <= k < |r| && r[k] == Shift(center, d);
    }
  }

  /** `clear_fire`: put out every highlight. */
  function ClearFire(g: Grid): (r: Grid)
    ensures SameShape(r, g)
    ensures forall a, b :: InBounds(g, a, b) ==> r[a][b] == g[a][b].(fire := false)
  {
    seq(|g|, i requires 0 <= i < |g| =>
      seq(|g[i]|, j requires 0 <= j < |g[i]| => g[i][j].(fire := false)))
  }

  /** What one lit ring cell becomes: a mine opens, anything else catches fire. */
  function Burn(t: Tile): Tile
  {
    if t.isMine then t.(state := Visible) else t.(fire := true)
  }

  datatype Animated = Animated(grid: Grid, updated: bool)

  /** `do_game_over_animation_tile`: burn (x, y) if it is in the grid, and say whether it was. */
  function AnimateTile(g: Grid, x: int, y: int): (r: Animated)
    ensures SameShape(r.grid, g)
    ensures r.updated <==> InBounds(g, x, y)
    ensures forall a, b :: InBounds(g, a, b) ==>
              r.grid[a][b] == if a == x && b == y then Burn(g[a][b]) else g[a][b]
  {
    if InBounds(g, x, y) then Animated(SetTile(g, x, y, Burn(g[x][y])), true)
    else Animated(g, false)
  }

  /** Is (a, b) one of the ring points? */
  predicate OnRing(pts: seq<(int, int)>, a: int, b: int)
  {
    exists i :: 0 <= i < |pts| && pts[i] == (a, b)
  }

  /** The loop over the ring: points with a negative coordinate are skipped, the rest are burnt. */
  function AnimatePoints(g: Grid, pts: seq<(int, int)>): (r: Animated)
    ensures SameShape(r.grid, g)
    ensures r.updated <==> exists i :: 0 <= i < |pts| && InBounds(g, pts[i].0, pts[i].1)
    ensures forall a, b :: InBounds(g, a, b) ==>
              r.grid[a][b] == if OnRing(pts, a, b) then Burn(g[a][b]) else g[a][b]
    decreases |pts|
  {
    if |pts| == 0 then Animated(g, false)
    else
      var n := |pts| - 1;
      var prev := AnimatePoints(g, pts[..n]);
      var p := pts[n];
      var r := if p.0 < 0 || p.1 < 0 then prev
               else
                 var t := AnimateTile(prev.grid, p.0, p.1);
                 Animated(t.grid, prev.updated || t.updated);
      RingGrows(g, pts);
      r
  }

  /** How the ring and its in-grid points grow by one point. */
  lemma RingGrows(g: Grid, pts: seq<(int, int)>)
    requires |pts| > 0
    ensures var n := |pts| - 1;
      forall a, b :: OnRing(pts, a, b) <==> OnRing(pts[..n], a, b) || pts[n] == (a, b)
    ensures var n := |pts| - 1;
      (exists i :: 0 <= i < |pts| && InBounds(g, pts[i].0, pts[i].1))
      <==> (exists i :: 0 <= i < n && InBounds(g, pts[..n][i].0, pts[..n][i].1)) || InBounds(g, pts[n].0, pts[n].1)
  {
    var n := |pts| - 1;
    forall a, b | OnRing(pts, a, b)
      ensures OnRing(pts[..n], a, b) || pts[n] == (a, b)
    {
      var i :| 0 <= i < |pts| && pts[i] == (a, b);
      if i < n {
        assert pts[..n][i] == (a, b);
      }
    }
    forall a, b | OnRing(pts[..n], a, b)
      ensures OnRing(pts, a, b)
    {
      var i :| 0 <= i < n && pts[..n][i] == (a, b);
      assert pts[i] == (a, b);
    }
    assert OnRing(pts, pts[n].0, pts[n].1) by {
      assert pts[n] == (pts[n].0, pts[n].1);
    }
    if exists i :: 0 <= i < |pts| && InBounds(g, pts[i].0, pts[i].1) {
      var i :| 0 <= i < |pts| && InBounds(g, pts[i].0, pts[i].1);
      if i < n {
        assert pts[..n][i] == pts[i];
      }
    }
    if exists i :: 0 <= i < n && InBounds(g, pts[..n][i].0, pts[..n][i].1) {
      var i :| 0 <= i < n && InBounds(g, pts[..n][i].0, pts[..n][i].1);
      assert pts[..n][i] == pts[i];
    }
  }

  /** The last frame: every mine opened. */
  function OpenMines(g: Grid): (r: Grid)
    ensures SameShape(r, g)
    ensures forall a, b :: InBounds(g, a, b) ==>
              r[a][b] == if g[a][b].isMine then g[a][b].(state := Visible) else g[a][b]
  {
    seq(|g|, i requires 0 <= i < |g| =>
      seq(|g[i]|, j requires 0 <= j < |g[i]| =>
        if g[i][j].isMine then g[i][j].(state := Visible) else g[i][j]))
  }

  /**
   * `do_game_over_animation`, one frame, on the ring `pts`: highlights
   * are cleared, the ring is burnt, and when no ring point was in the grid
   * every mine is opened. The frame counter is not modelled.
   */
  function GameOverAnimation(b: Board, pts: seq<(int, int)>): (r: Board)
    requires b.gameOver
    ensures r == b.(tiles := r.tiles)
    ensures SameField(b.tiles, r.tiles)
    ensures forall a, c :: InBounds(b.tiles, a, c) && !b.tiles[a][c].isMine ==>
              r.tiles[a][c].state == b.tiles[a][c].state && (r.tiles[a][c].fire <==> OnRing(pts, a, c))
    ensures forall a, c :: InBounds(b.tiles, a, c) && b.tiles[a][c].isMine ==>
              !r.tiles[a][c].fire
              && (r.tiles[a][c].state == Visible <==>
                    b.tiles[a][c].state == Visible || OnRing(pts, a, c)
                    || !exists i :: 0 <= i < |pts| && InBounds(b.tiles, pts[i].0, pts[i].1))
              && (r.tiles[a][c].state != Visible ==> r.tiles[a][c].state == b.tiles[a][c].state)
  {
    var v := BurnRing(b.tiles, pts);
    if v.updated then b.(tiles := v.grid) else b.(tiles := OpenMines(v.grid))
  }

  /** The frame's highlights cleared and the ring burnt, stated against the grid before the frame. */
  function BurnRing(g: Grid, pts: seq<(int, int)>): (r: Animated)
    ensures r.updated <==> exists i :: 0 <= i < |pts| && InBounds(g, pts[i].0, pts[i].1)
    ensures SameField(g, r.grid)
    ensures forall a, c :: InBounds(g, a, c) ==>
              r.grid[a][c] == if OnRing(pts, a, c) then Burn(g[a][c].(fire := false)) else g[a][c].(fire := false)
  {
    var cleared := ClearFire(g);
    assert forall a, c :: InBounds(g, a, c) <==> InBounds(cleared, a, c);
    AnimatePoints(cleared, pts)
  }
}

=== FILE: around.dfy ===
/**
 * The neighbourhood walker: visits the up-to-eight cells around (x, y),
 * lets a callback inspect and update each of them, and reports the
 * coordinates for which the callback answered true.
 */
module Around {
  import opened Tiles

  /** What a callback does to one cell: its verdict and the cell as it leaves it. */
  type Visitor = Tile -> (bool, Tile)

  datatype Visited = Visited(grid: Grid, matching: seq<(int, int)>)

  /**
   * The cells around (x, y) in the walker's fixed order: above, below,
   * left, right, then (+1,+1), (-1,+1), (+1,-1), (-1,-1).
   */
  function Neighbours(x: int, y: int): seq<(int, int)>
  {
    [(x, y - 1), (x, y + 1), (x - 1, y), (x + 1, y),
     (x + 1, y + 1), (x - 1, y + 1), (x + 1, y - 1), (x - 1, y - 1)]
  }

  ghost predicate Distinct<T>(s: seq<T>)
  {
    forall i, j :: 0 <= i < j < |s| ==> s[i] != s[j]
  }

  lemma NeighboursAreAdjacent(x: int, y: int)
    ensures Distinct(Neighbours(x, y))
    ensures forall a, b :: (a, b) in Neighbours(x, y) <==> Adjacent(x, y, a, b)
  {
    var n := Neighbours(x, y);
    forall a, b | Adjacent(x, y, a, b)
      ensures (a, b) in n
    {
      if a == x && b == y - 1 { assert n[0] == (a, b); }
      else if a == x && b == y + 1 { assert n[1] == (a, b); }
      else if a == x - 1 && b == y { assert n[2] == (a, b); }
      else if a == x + 1 && b == y { assert n[3] == (a, b); }
      else if a == x + 1 && b == y + 1 { assert n[4] == (a, b); }
      else if a == x - 1 && b == y + 1 { assert n[5] == (a, b); }
      else if a == x + 1 && b == y - 1 { assert n[6] == (a, b); }
      else { assert n[7] == (a, b); }
    }
  }

  /** The walk over the cells still to visit, in order. */
  function Walk(g: Grid, f: Visitor, todo: seq<(int, int)>): (r: Visited)
    requires Distinct(todo)
    decreases |todo|
    ensures SameShape(r.grid, g)
    ensures forall a, b :: InBounds(g, a, b) ==>
              r.grid[a][b] == (if (a, b) in todo then f(g[a][b]).1 else g[a][b])
    ensures forall i :: 0 <= i < |r.matching| ==>
              var p := r.matching[i];
              InBounds(g, p.0, p.1) && p in todo && f(g[p.0][p.1]).0
    ensures forall a, b :: InBounds(g, a, b) && (a, b) in todo && f(g[a][b]).0 ==> (a, b) in r.matching
    ensures Distinct(r.matching)
    ensures |r.matching| <= |todo|
  {
    if |todo| == 0 then Visited(g, [])
    else
      var p := todo[0];
      assert todo == [p] + todo[1..];
      assert p !in todo[1..];
      if InBounds(g, p.0, p.1) then
        var v := f(g[p.0][p.1]);
        var rest := Walk(SetTile(g, p.0, p.1, v.1), f, todo[1..]);
        Visited(rest.grid, if v.0 then [p] + rest.matching else rest.matching)
      else
        Walk(g, f, todo[1..])
  }

  /**
   * `do_around`: the callback runs once on every in-grid neighbour, and
   * the coordinates where it answered true come back in visiting order.
   */
  function DoAround(x: int, y: int, g: Grid, f: Visitor): (r: Visited)
    ensures SameShape(r.grid, g)
    ensures forall a, b :: InBounds(g, a, b) ==>
              r.grid[a][b] == (if Adjacent(x, y, a, b) then f(g[a][b]).1 else g[a][b])
    ensures forall i :: 0 <= i < |r.matching| ==>
              var p := r.matching[i];
              InBounds(g, p.0, p.1) && Adjacent(x, y, p.0, p.1) && f(g[p.0][p.1]).0
    ensures forall a, b :: InBounds(g, a, b) && Adjacent(x, y, a, b) && f(g[a][b]).0 ==>
              (a, b) in r.matching
    ensures Distinct(r.matching)
    ensures |r.matching| <= 8
  {
    NeighboursAreAdjacent(x, y);
    Walk(g, f, Neighbours(x, y))
  }

  /** The number of in-grid neighbours for which `P` holds equals the number the walker reports. */
  lemma MatchingCount(x: int, y: int, g: Grid, f: Visitor)
    ensures var r := DoAround(x, y, g, f);
      |r.matching| == |set a, b | x - 1 <= a <= x + 1 && y - 1 <= b <= y + 1 && Adjacent(x, y, a, b)
                                  && InBounds(g, a, b) && f(g[a][b]).0 :: (a, b)|
  {
    var r := DoAround(x, y, g, f);
    var s := set a, b | x - 1 <= a <= x + 1 && y - 1 <= b <= y + 1 && Adjacent(x, y, a, b)
                        && InBounds(g, a, b) && f(g[a][b]).0 :: (a, b);
    DistinctCard(r.matching);
    assert s == set i | 0 <= i < |r.matching| :: r.matching[i];
  }

  /** A sequence without repeats has as many distinct elements as entries. */
  lemma {:induction false} DistinctCard<T>(s: seq<T>)
    requires Distinct(s)
    ensures |set i | 0 <= i < |s| :: s[i]| == |s|
  {
    if |s| > 0 {
      var n := |s| - 1;
      DistinctCard(s[..n]);
      var front := set i | 0 <= i < n :: s[..n][i];
      assert (set i | 0 <= i < |s| :: s[i]) == front + {s[n]};
      assert s[n] !in front;
    }
  }
}

=== FILE: flood.dfy ===
/**
 * `flood_fill`: a work-list reveal. Each popped cell opens all of its
 * neighbours that are not Visible yet, Marked and Question ones included,
 * and pushes the ones that are mine-free zeros.
 */
module Flood {
  import opened Tiles
  import opened Around

  /** The flood callback: already Visible cells are left alone; everything else is opened, and matches when it is a mine-free zero. */
  function FloodVisit(t: Tile): (r: (bool, Tile))
    ensures r.1 == t.(state := Visible)
    ensures r.0 <==> t.state != Visible && t.bombsNear == 0 && !t.isMine
  {
    if t.state == Visible then (false, t)
    else if t.bombsNear == 0 && !t.isMine then (true, t.(state := Visible))
    else (false, t.(state := Visible))
  }

  /** One pop of the work list opens cells only. */
  lemma FloodPopReveals(g: Grid, x: int, y: int)
    ensures RevealsOnly(g, DoAround(x, y, g, FloodVisit).grid)
  {
    var h := DoAround(x, y, g, FloodVisit).grid;
    forall a, b | InBounds(g, a, b)
      ensures h[a][b] == g[a][b] || h[a][b] == g[a][b].(state := Visible)
    {
      var t := g[a][b];
      assert FloodVisit(t).1 == t || FloodVisit(t).1 == t.(state := Visible);
    }
  }

  /** One pop never closes a cell, and it opens one whenever it pushes any. */
  lemma FloodStep(g: Grid, x: int, y: int)
    ensures var v := DoAround(x, y, g, FloodVisit);
      && Unrevealed(v.grid) <= Unrevealed(g)
      && (|v.matching| > 0 ==> Unrevealed(v.grid) < Unrevealed(g))
  {
    var v := DoAround(x, y, g, FloodVisit);
    FloodPopReveals(g, x, y);
    RevealsOnlyShrinks(g, v.grid);
    if |v.matching| > 0 {
      PushedIsOpened(g, x, y);
    }
  }

  /** A pushed cell was closed before the pop and is open after it. */
  lemma PushedIsOpened(g: Grid, x: int, y: int)
    requires |DoAround(x, y, g, FloodVisit).matching| > 0
    ensures var v := DoAround(x, y, g, FloodVisit);
      v.matching[0] in Unrevealed(g) && v.matching[0] !in Unrevealed(v.grid)
  {
    var v := DoAround(x, y, g, FloodVisit);
    var p := v.matching[0];
    var t := g[p.0][p.1];
    assert FloodVisit(t).0;
    assert v.grid[p.0][p.1] == FloodVisit(t).1;
  }

  /**
   * The work list is a stack: the last entry is popped, its matching
   * neighbours are appended. Each round either opens a cell or shortens
   * the list, so the fill terminates.
   */
  function FloodFill(g: Grid, work: seq<(int, int)>): (r: Grid)
    ensures RevealsOnly(g, r)
    decreases Unrevealed(g), |work|
  {
    if |work| == 0 then g
    else
      var p := work[|work| - 1];
      var v := DoAround(p.0, p.1, g, FloodVisit);
      FloodStep(g, p.0, p.1);
      FloodPopReveals(g, p.0, p.1);
      RevealsOnlyTransitive(g, v.grid, FloodFill(v.grid, work[..|work| - 1] + v.matching));
      FloodFill(v.grid, work[..|work| - 1] + v.matching)
  }

  /** Work entries the fill may expand safely: inside the grid and with no mine around. */
  ghost predicate SafeWork(g: Grid, work: seq<(int, int)>)
  {
    forall i :: 0 <= i < |work| ==> InBounds(g, work[i].0, work[i].1) && g[work[i].0][work[i].1].bombsNear == 0
  }

  /** Every cell the flood callback matches is a mine-free zero. */
  lemma FloodMatchesAreZeros(g: Grid, x: int, y: int)
    ensures var v := DoAround(x, y, g, FloodVisit);
      forall i :: 0 <= i < |v.matching| ==>
        InBounds(g, v.matching[i].0, v.matching[i].1) && g[v.matching[i].0][v.matching[i].1].bombsNear == 0
  {
    var v := DoAround(x, y, g, FloodVisit);
    forall i | 0 <= i < |v.matching|
      ensures InBounds(g, v.matching[i].0, v.matching[i].1) && g[v.matching[i].0][v.matching[i].1].bombsNear == 0
    {
      var q := v.matching[i];
      assert FloodVisit(g[q.0][q.1]).0;
    }
  }

  /** The work list after one pop is still safe. */
  lemma SafeWorkStep(g: Grid, work: seq<(int, int)>)
    requires SafeWork(g, work) && |work| > 0
    ensures var p := work[|work| - 1];
      var v := DoAround(p.0, p.1, g, FloodVisit);
      SafeWork(v.grid, work[..|work| - 1] + v.matching)
  {
    var p := work[|work| - 1];
    var v := DoAround(p.0, p.1, g, FloodVisit);
    var n := |work| - 1;
    var next := work[..n] + v.matching;
    FloodMatchesAreZeros(g, p.0, p.1);
    FloodPopReveals(g, p.0, p.1);
    forall i | 0 <= i < |next|
      ensures InBounds(g, next[i].0, next[i].1) && g[next[i].0][next[i].1].bombsNear == 0
    {
      if i < n {
        assert next[i] == work[i];
      } else {
        assert next[i] == v.matching[i - n];
      }
    }
    forall i | 0 <= i < |next|
      ensures InBounds(v.grid, next[i].0, next[i].1) && v.grid[next[i].0][next[i].1].bombsNear == 0
    {
      var q := next[i];
      assert InBounds(g, q.0, q.1);
    }
  }

  /** Around a zero cell of a grid with exact counts, no neighbour is a mine, so one pop opens no mine. */
  lemma ZeroPopSparesMines(g: Grid, x: int, y: int)
    requires WellCounted(g) && InBounds(g, x, y) && g[x][y].bombsNear == 0
    ensures var v := DoAround(x, y, g, FloodVisit);
      forall a, b :: InBounds(g, a, b) && g[a][b].isMine ==> v.grid[a][b] == g[a][b]
  {
    assert |MinesAround(g, x, y)| == 0;
    forall a, b | InBounds(g, a, b) && Adjacent(x, y, a, b)
      ensures !g[a][b].isMine
    {
      assert (a, b) !in MinesAround(g, x, y);
    }
  }

  /** On a grid whose counts are exact, a fill seeded at zero cells never opens a mine. */
  lemma {:induction false} FloodSparesMines(g: Grid, work: seq<(int, int)>)
    requires WellCounted(g) && SafeWork(g, work)
    ensures forall a, b :: InBounds(g, a, b) && g[a][b].isMine ==> FloodFill(g, work)[a][b] == g[a][b]
    decreases Unrevealed(g), |work|
  {
    if |work| > 0 {
      var p := work[|work| - 1];
      var v := DoAround(p.0, p.1, g, FloodVisit);
      FloodStep(g, p.0, p.1);
      FloodPopReveals(g, p.0, p.1);
      var next := work[..|work| - 1] + v.matching;
      ZeroPopSparesMines(g, p.0, p.1);
      RevealsOnlyIsSameField(g, v.grid);
      SameFieldKeepsCounts(g, v.grid);
      SafeWorkStep(g, work);
      FloodSparesMines(v.grid, next);
      FloodFillPop(g, work);
    }
  }

  /** Every in-grid neighbour of (x, y) is Visible. */
  ghost predicate OpenAround(g: Grid, x: int, y: int)
  {
    forall a, b :: InBounds(g, a, b) && Adjacent(x, y, a, b) ==> g[a][b].state == Visible
  }

  lemma OpenAroundStays(g: Grid, h: Grid, x: int, y: int)
    requires RevealsOnly(g, h) && OpenAround(g, x, y)
    ensures OpenAround(h, x, y)
  {
  }

  /** One pop leaves every neighbour of the popped cell Visible. */
  lemma PopOpensAround(g: Grid, x: int, y: int)
    ensures OpenAround(DoAround(x, y, g, FloodVisit).grid, x, y)
  {
  }

  lemma OpenAroundPrefix(r: Grid, work: seq<(int, int)>, next: seq<(int, int)>, n: nat)
    requires n < |work| && n <= |next| && next[..n] == work[..n]
    requires forall i :: 0 <= i < |next| ==> OpenAround(r, next[i].0, next[i].1)
    requires OpenAround(r, work[n].0, work[n].1) && n == |work| - 1
    ensures forall i :: 0 <= i < |work| ==> OpenAround(r, work[i].0, work[i].1)
  {
    forall i | 0 <= i < |work|
      ensures OpenAround(r, work[i].0, work[i].1)
    {
      if i < n {
        assert work[i] == work[..n][i] == next[i];
      }
    }
  }

  /** Unfolding one round of the fill. */
  lemma FloodFillPop(g: Grid, work: seq<(int, int)>)
    requires |work| > 0
    ensures var p := work[|work| - 1];
      var v := DoAround(p.0, p.1, g, FloodVisit);
      FloodFill(g, work) == FloodFill(v.grid, work[..|work| - 1] + v.matching)
  {
  }

  /** Every neighbour of every work entry is Visible once the fill is over. */
  lemma {:induction false} FloodOpensAround(g: Grid, work: seq<(int, int)>)
    ensures forall i :: 0 <= i < |work| ==> OpenAround(FloodFill(g, work), work[i].0, work[i].1)
    decreases Unrevealed(g), |work|
  {
    if |work| > 0 {
      var n := |work| - 1;
      var p := work[n];
      var v := DoAround(p.0, p.1, g, FloodVisit);
      var next := work[..n] + v.matching;
      FloodStep(g, p.0, p.1);
      FloodOpensAround(v.grid, next);
      FloodFillPop(g, work);
      var r: Grid := FloodFill(v.grid, next);
      assert OpenAround(r, p.0, p.1) by {
        FloodPopReveals(g, p.0, p.1);
        PopOpensAround(g, p.0, p.1);
        OpenAroundStays(v.grid, r, p.0, p.1);
      }
      OpenAroundPrefix(r, work, next, n);
    }
  }

  // ---------------------------------------------------------------------
  // The cascade

  /** (a, b) was closed in `g0`, is a mine-free zero, and is open in `g`: the fill owes it its neighbours. */
  ghost predicate Owed(g0: Grid, g: Grid, a: int, b: int)
  {
    && InBounds(g0, a, b) && g0[a][b].state != Visible && !g0[a][b].isMine && g0[a][b].bombsNear == 0
    && InBounds(g, a, b) && g[a][b].state == Visible
  }

  /** Every mine-free zero opened since `g0` has all its neighbours open in `g`. */
  ghost predicate Cascaded(g0: Grid, g: Grid)
  {
    forall a, b :: Owed(g0, g, a, b) ==> OpenAround(g, a, b)
  }

  /** While the fill runs, every owed cell is either settled or still on the work list. */
  ghost predicate CascadePending(g0: Grid, g: Grid, work: seq<(int, int)>)
  {
    forall a, b :: Owed(g0, g, a, b) ==> OpenAround(g, a, b) || (a, b) in work
  }

  /** One pop keeps every owed cell settled or pending: a zero it opens is the one it pushes. */
  lemma CascadeStep(g0: Grid, g: Grid, work: seq<(int, int)>)
    requires RevealsOnly(g0, g) && CascadePending(g0, g, work) && |work| > 0
    ensures var p := work[|work| - 1];
      var v := DoAround(p.0, p.1, g, FloodVisit);
      CascadePending(g0, v.grid, work[..|work| - 1] + v.matching)
  {
    var n := |work| - 1;
    var p := work[n];
    var v := DoAround(p.0, p.1, g, FloodVisit);
    var next := work[..n] + v.matching;
    FloodPopReveals(g, p.0, p.1);
    PopOpensAround(g, p.0, p.1);
    forall a, b | Owed(g0, v.grid, a, b)
      ensures OpenAround(v.grid, a, b) || (a, b) in next
    {
      assert InBounds(g, a, b);
      if g[a][b].state == Visible {
        assert Owed(g0, g, a, b);
        if OpenAround(g, a, b) {
          OpenAroundStays(g, v.grid, a, b);
        } else if (a, b) != p {
          var i :| 0 <= i < |work| && work[i] == (a, b);
          assert i < n && next[i] == work[i];
        }
      } else {
        assert Adjacent(p.0, p.1, a, b);
        assert FloodVisit(g[a][b]).0;
      }
    }
  }

  lemma {:induction false} FloodCascadeFrom(g0: Grid, g: Grid, work: seq<(int, int)>)
    requires RevealsOnly(g0, g) && CascadePending(g0, g, work)
    ensures Cascaded(g0, FloodFill(g, work))
    decreases Unrevealed(g), |work|
  {
    if |work| > 0 {
      var p := work[|work| - 1];
      var v := DoAround(p.0, p.1, g, FloodVisit);
      FloodStep(g, p.0, p.1);
      FloodPopReveals(g, p.0, p.1);
      RevealsOnlyTransitive(g0, g, v.grid);
      CascadeStep(g0, g, work);
      FloodCascadeFrom(g0, v.grid, work[..|work| - 1] + v.matching);
      FloodFillPop(g, work);
    }
  }

  /**
   * The cascade: when the fill is over, every mine-free zero it opened has
   * all of its neighbours open, so the whole zero region is open together
   * with its border.
   */
  lemma FloodCascade(g: Grid, work: seq<(int, int)>)
    ensures Cascaded(g, FloodFill(g, work))
  {
    FloodCascadeFrom(g, g, work);
  }

  // ---------------------------------------------------------------------
  // The reach of the fill

  /** (a, b) was closed in `g0` and is open in `g`. */
  ghost predicate NewlyOpen(g0: Grid, g: Grid, a: int, b: int)
  {
    InBounds(g0, a, b) && g0[a][b].state != Visible && InBounds(g, a, b) && g[a][b].state == Visible
  }

  /** (a, b) touches one of the listed cells. */
  ghost predicate NearWork(work: seq<(int, int)>, a: int, b: int)
  {
    exists i :: 0 <= i < |work| && Adjacent(work[i].0, work[i].1, a, b)
  }

  /** (a, b) touches a mine-free zero opened since `g0`. */
  ghost predicate NearOwed(g0: Grid, g: Grid, a: int, b: int)
  {
    exists c, d :: Owed(g0, g, c, d) && Adjacent(c, d, a, b)
  }

  /** Every cell opened since `g0` touches a seed or a mine-free zero opened since `g0`. */
  ghost predicate Confined(g0: Grid, g: Grid, seeds: seq<(int, int)>)
  {
    forall a, b :: NewlyOpen(g0, g, a, b) ==> NearWork(seeds, a, b) || NearOwed(g0, g, a, b)
  }

  /** Every work entry is a seed or a mine-free zero opened since `g0`. */
  ghost predicate Sourced(g0: Grid, g: Grid, seeds: seq<(int, int)>, work: seq<(int, int)>)
  {
    forall i :: 0 <= i < |work| ==> work[i] in seeds || Owed(g0, g, work[i].0, work[i].1)
  }

  lemma OwedStays(g0: Grid, g: Grid, h: Grid, a: int, b: int)
    requires RevealsOnly(g, h) && Owed(g0, g, a, b)
    ensures Owed(g0, h, a, b)
  {
  }

  /** `path` starts at a seed and then steps through adjacent mine-free zeros opened since `g0`. */
  ghost predicate OwedPath(g0: Grid, g: Grid, seeds: seq<(int, int)>, path: seq<(int, int)>)
  {
    && |path| > 0 && path[0] in seeds
    && forall i :: 1 <= i < |path| ==>
         Owed(g0, g, path[i].0, path[i].1) && Adjacent(path[i - 1].0, path[i - 1].1, path[i].0, path[i].1)
  }

  /** (a, b) is reached from a seed through a chain of adjacent mine-free zeros opened since `g0`. */
  ghost predicate Linked(g0: Grid, g: Grid, seeds: seq<(int, int)>, a: int, b: int)
  {
    exists path :: OwedPath(g0, g, seeds, path) && path[|path| - 1] == (a, b)
  }

  /** Every mine-free zero opened since `g0` is linked to a seed: the opened zeros form regions around the seeds. */
  ghost predicate AllLinked(g0: Grid, g: Grid, seeds: seq<(int, int)>)
  {
    forall a, b :: Owed(g0, g, a, b) ==> Linked(g0, g, seeds, a, b)
  }

  lemma PathStays(g0: Grid, g: Grid, h: Grid, seeds: seq<(int, int)>, path: seq<(int, int)>)
    requires RevealsOnly(g, h) && OwedPath(g0, g, seeds, path)
    ensures OwedPath(g0, h, seeds, path)
  {
    forall i | 1 <= i < |path|
      ensures Owed(g0, h, path[i].0, path[i].1)
    {
      OwedStays(g0, g, h, path[i].0, path[i].1);
    }
  }

  lemma LinkedStays(g0: Grid, g: Grid, h: Grid, seeds: seq<(int, int)>, a: int, b: int)
    requires RevealsOnly(g, h) && Linked(g0, g, seeds, a, b)
    ensures Linked(g0, h, seeds, a, b)
  {
    var path :| OwedPath(g0, g, seeds, path) && path[|path| - 1] == (a, b);
    PathStays(g0, g, h, seeds, path);
  }

  /** A chain stays a chain when measured from an earlier grid that had every zero of it closed too. */
  lemma PathRebase(g: Grid, h: Grid, r: Grid, seeds: seq<(int, int)>, path: seq<(int, int)>)
    requires OwedPath(h, r, seeds, path)
    requires forall a, b :: Owed(h, r, a, b) ==> Owed(g, r, a, b)
    ensures OwedPath(g, r, seeds, path)
  {
    forall i | 1 <= i < |path|
      ensures Owed(g, r, path[i].0, path[i].1)
    {
      assert Owed(h, r, path[i].0, path[i].1);
    }
  }

  /** An opened zero next to a seed or to a linked cell is linked. */
  lemma LinkedStep(g0: Grid, g: Grid, seeds: seq<(int, int)>, p: (int, int), a: int, b: int)
    requires p in seeds || Linked(g0, g, seeds, p.0, p.1)
    requires Owed(g0, g, a, b) && Adjacent(p.0, p.1, a, b)
    ensures Linked(g0, g, seeds, a, b)
  {
    if p in seeds {
      var path := [p, (a, b)];
      assert OwedPath(g0, g, seeds, path);
    } else {
      var path :| OwedPath(g0, g, seeds, path) && path[|path| - 1] == p;
      var longer := path + [(a, b)];
      forall i | 1 <= i < |longer|
        ensures Owed(g0, g, longer[i].0, longer[i].1)
                && Adjacent(longer[i - 1].0, longer[i - 1].1, longer[i].0, longer[i].1)
      {
        if i < |path| {
          assert longer[i] == path[i] && longer[i - 1] == path[i - 1];
        } else {
          assert longer[i - 1] == p;
        }
      }
      assert OwedPath(g0, g, seeds, longer);
    }
  }

  /** A pop keeps every opened zero linked: the zeros it opens touch the popped seed or linked zero. */
  lemma LinkedPop(g0: Grid, g: Grid, seeds: seq<(int, int)>, p: (int, int))
    requires RevealsOnly(g0, g) && AllLinked(g0, g, seeds)
    requires p in seeds || Owed(g0, g, p.0, p.1)
    ensures AllLinked(g0, DoAround(p.0, p.1, g, FloodVisit).grid, seeds)
  {
    var h := DoAround(p.0, p.1, g, FloodVisit).grid;
    FloodPopReveals(g, p.0, p.1);
    forall a, b | Owed(g0, h, a, b)
      ensures Linked(g0, h, seeds, a, b)
    {
      assert InBounds(g, a, b);
      if g[a][b].state == Visible {
        assert Owed(g0, g, a, b);
        LinkedStays(g0, g, h, seeds, a, b);
      } else {
        assert Adjacent(p.0, p.1, a, b);
        if p !in seeds {
          LinkedStays(g0, g, h, seeds, p.0, p.1);
        }
        LinkedStep(g0, h, seeds, p, a, b);
      }
    }
  }

  /** A pop opens only neighbours of the popped cell, so the opened cells stay near a seed or an owed zero. */
  lemma ConfinedPop(g0: Grid, g: Grid, seeds: seq<(int, int)>, p: (int, int))
    requires RevealsOnly(g0, g) && Confined(g0, g, seeds)
    requires p in seeds || Owed(g0, g, p.0, p.1)
    ensures Confined(g0, DoAround(p.0, p.1, g, FloodVisit).grid, seeds)
  {
    var h := DoAround(p.0, p.1, g, FloodVisit).grid;
    FloodPopReveals(g, p.0, p.1);
    forall a, b | NewlyOpen(g0, h, a, b)
      ensures NearWork(seeds, a, b) || NearOwed(g0, h, a, b)
    {
      assert InBounds(g, a, b);
      if g[a][b].state == Visible {
        assert NewlyOpen(g0, g, a, b);
        if !NearWork(seeds, a, b) {
          var c, d :| Owed(g0, g, c, d) && Adjacent(c, d, a, b);
          OwedStays(g0, g, h, c, d);
        }
      } else {
        assert Adjacent(p.0, p.1, a, b);
        if p in seeds {
          var i :| 0 <= i < |seeds| && seeds[i] == p;
          assert Adjacent(seeds[i].0, seeds[i].1, a, b);
        } else {
          OwedStays(g0, g, h, p.0, p.1);
        }
      }
    }
  }

  /** After a pop, every work entry is still a seed or an owed zero: the pushed cells are owed ones. */
  lemma SourcedPop(g0: Grid, g: Grid, seeds: seq<(int, int)>, work: seq<(int, int)>)
    requires RevealsOnly(g0, g) && Sourced(g0, g, seeds, work) && |work| > 0
    ensures var p := work[|work| - 1];
      var v := DoAround(p.0, p.1, g, FloodVisit);
      Sourced(g0, v.grid, seeds, work[..|work| - 1] + v.matching)
  {
    var n := |work| - 1;
    var p := work[n];
    var v := DoAround(p.0, p.1, g, FloodVisit);
    var next := work[..n] + v.matching;
    FloodPopReveals(g, p.0, p.1);
    forall i | 0 <= i < |next|
      ensures next[i] in seeds || Owed(g0, v.grid, next[i].0, next[i].1)
    {
      if i < n {
        assert next[i] == work[i];
        if work[i] !in seeds {
          OwedStays(g0, g, v.grid, work[i].0, work[i].1);
        }
      } else {
        var q := v.matching[i - n];
        assert next[i] == q;
        assert FloodVisit(g[q.0][q.1]).0;
      }
    }
  }

  lemma {:induction false} FloodRegionFrom(g0: Grid, g: Grid, seeds: seq<(int, int)>, work: seq<(int, int)>)
    requires RevealsOnly(g0, g) && Confined(g0, g, seeds) && Sourced(g0, g, seeds, work)
    requires AllLinked(g0, g, seeds)
    ensures Confined(g0, FloodFill(g, work), seeds) && AllLinked(g0, FloodFill(g, work), seeds)
    decreases Unrevealed(g), |work|
  {
    if |work| > 0 {
      var p := work[|work| - 1];
      var v := DoAround(p.0, p.1, g, FloodVisit);
      FloodStep(g, p.0, p.1);
      FloodPopReveals(g, p.0, p.1);
      RevealsOnlyTransitive(g0, g, v.grid);
      ConfinedPop(g0, g, seeds, p);
      LinkedPop(g0, g, seeds, p);
      SourcedPop(g0, g, seeds, work);
      FloodRegionFrom(g0, v.grid, seeds, work[..|work| - 1] + v.matching);
      FloodFillPop(g, work);
    }
  }

  /**
   * The reach of the fill: every cell it opens touches a work entry or a
   * mine-free zero it opened, and every such zero is joined to a work
   * entry by a chain of adjacent opened zeros. Together with the cascade
   * this pins down the opened region: the zero regions around the work
   * entries and their borders.
   */
  lemma FloodOnlyRegion(g: Grid, work: seq<(int, int)>)
    ensures Confined(g, FloodFill(g, work), work) && AllLinked(g, FloodFill(g, work), work)
  {
    FloodRegionFrom(g, g, work, work);
  }
}

=== FILE: game.dfy ===
/**
 * The board and the moves a player makes on it: left click (reveal),
 * right click (flag), middle click (question mark), control click (chord)
 * and resizing before the first move.
 *
 * Timestamps of the program become booleans: `firstMove` stands for "the
 * first-move time is set" and `gameOver` for "the game-over time is set".
 */
module Game {
  import opened Options
  import opened Tiles
  import opened Around
  import opened Presets
  import opened Generate
  import opened Flood

  datatype Board = Board(
    difficulty: Difficulty,
    tiles: Grid,
    gameOver: bool,
    firstMove: bool,
    gameOverPos: (nat, nat),
    renderSize: (U16, U16))

  /**
   * What holds of every board the program builds: every count is exact,
   * the preset's number of mines is down, and until the first move the
   * grid is exactly as generation left it for the current drawing area.
   */
  ghost predicate Valid(b: Board)
  {
    && WellCounted(b.tiles)
    && |MineSet(b.tiles)| == MineCount(b.difficulty)
    && (!b.firstMove ==>
          && !b.gameOver
          && Fits(b.renderSize, b.difficulty)
          && Fresh(b.tiles, b.difficulty, PresetSize(b.renderSize, b.difficulty)))
  }

  /** `Board::new`: None stands for the panic when the preset does not fit the drawing area. */
  function NewBoard(d: Difficulty, render: (U16, U16), regen: Grid): (r: Option<Board>)
    requires Fits(render, d) ==> Fresh(regen, d, PresetSize(render, d))
    ensures r.None? <==> !Fits(render, d)
    ensures r.Some? ==> Valid(r.value) && !r.value.firstMove && r.value.tiles == regen
  {
    if !Fits(render, d) then None
    else Some(Board(d, regen, false, false, (0, 0), render))
  }

  // ---------------------------------------------------------------------
  // Left click

  /** A first click on a mine or next to one: the program regenerates the grid. */
  predicate Unsafe(t: Tile)
  {
    t.isMine || t.bombsNear > 0
  }

  predicate NeedsReroll(b: Board, x: int, y: int)
  {
    !b.gameOver && !b.firstMove && InBounds(b.tiles, x, y) && Unsafe(b.tiles[x][y])
  }

  /**
   * The regenerate-until-safe loop, as the grid it stops at: a freshly
   * generated grid for the current drawing area on which (x, y) is safe or
   * outside. Only needed when the loop runs at all.
   */
  ghost predicate RerollOk(b: Board, x: int, y: int, reroll: Grid)
  {
    NeedsReroll(b, x, y) ==>
      && Fits(b.renderSize, b.difficulty)
      && Fresh(reroll, b.difficulty, PresetSize(b.renderSize, b.difficulty))
      && !(InBounds(reroll, x, y) && Unsafe(reroll[x][y]))
  }

  /** The grid the click acts on once the regeneration loop is over. */
  function Rolled(b: Board, x: int, y: int, reroll: Grid): Grid
  {
    if NeedsReroll(b, x, y) then reroll else b.tiles
  }

  datatype Revealed = Revealed(grid: Grid, boom: bool)

  /**
   * The part of `left_click` after the regeneration loop: a Marked cell is
   * left alone, a mine is opened and ends the game, any other closed cell
   * is opened and, when it has no mine around, flooded from.
   */
  function Reveal(g: Grid, x: int, y: int): (r: Revealed)
    ensures RevealsOnly(g, r.grid)
    ensures r.boom <==> InBounds(g, x, y) && g[x][y].isMine && g[x][y].state != Marked
    ensures InBounds(g, x, y) && g[x][y].state != Marked ==> r.grid[x][y].state == Visible
    ensures !InBounds(g, x, y) || g[x][y].state == Marked ==> r.grid == g
    ensures InBounds(g, x, y) && g[x][y].state != Marked
            && (g[x][y].isMine || g[x][y].bombsNear != 0 || g[x][y].state == Visible) ==>
              r.grid == SetTile(g, x, y, g[x][y].(state := Visible))
    ensures WellCounted(g) ==>
              forall a, b :: InBounds(g, a, b) && g[a][b].isMine && (a != x || b != y) ==> r.grid[a][b] == g[a][b]
    ensures (InBounds(g, x, y) && !g[x][y].isMine && g[x][y].bombsNear == 0
             && g[x][y].state != Marked && g[x][y].state != Visible) ==> OpenAround(r.grid, x, y)
    ensures InBounds(g, x, y) && g[x][y].state != Marked && g[x][y].state != Visible ==>
              Unrevealed(r.grid) < Unrevealed(g)
    ensures Cascaded(g, r.grid)
  {
    if !InBounds(g, x, y) then Revealed(g, false)
    else
      var t := g[x][y];
      if t.state == Marked then Revealed(g, false)
      else if t.isMine then
        var h := SetTile(g, x, y, t.(state := Visible));
        OpenOneCascaded(g, x, y);
        if t.state != Visible then
          RevealOneShrinks(g, x, y);
          Revealed(h, true)
        else
          Revealed(h, true)
      else if t.state != Visible then
        var h := SetTile(g, x, y, t.(state := Visible));
        RevealOneShrinks(g, x, y);
        if t.bombsNear == 0 then
          FloodFromClick(g, x, y);
          Revealed(FloodFill(h, [(x, y)]), false)
        else
          OpenOneCascaded(g, x, y);
          Revealed(h, false)
      else
        assert SetTile(g, x, y, t.(state := Visible)) == g by {
          assert g[x][y := t] == g[x];
        }
        Revealed(g, false)
  }

  /** Opening one closed cell takes exactly that cell out of the closed ones. */
  lemma RevealOneShrinks(g: Grid, x: int, y: int)
    requires InBounds(g, x, y) && g[x][y].state != Visible
    ensures var h := SetTile(g, x, y, g[x][y].(state := Visible));
      RevealsOnly(g, h) && Unrevealed(h) < Unrevealed(g)
  {
    var h := SetTile(g, x, y, g[x][y].(state := Visible));
    RevealsOnlyShrinks(g, h);
    assert (x, y) in Unrevealed(g);
    assert (x, y) !in Unrevealed(h);
  }

  /** Opening a single cell that is a mine or has a mine around owes no cascade. */
  lemma OpenOneCascaded(g: Grid, x: int, y: int)
    requires InBounds(g, x, y) && (g[x][y].isMine || g[x][y].bombsNear > 0)
    ensures Cascaded(g, SetTile(g, x, y, g[x][y].(state := Visible)))
  {
    var h := SetTile(g, x, y, g[x][y].(state := Visible));
    forall a, b
      ensures !Owed(g, h, a, b)
    {
      if InBounds(g, a, b) && (a != x || b != y) {
        assert h[a][b] == g[a][b];
      }
    }
  }

  /** What the flood started by a click on a mine-free zero promises. */
  lemma FloodFromClick(g: Grid, x: int, y: int)
    requires InBounds(g, x, y) && !g[x][y].isMine && g[x][y].bombsNear == 0 && g[x][y].state != Visible
    ensures var h := SetTile(g, x, y, g[x][y].(state := Visible));
      var r := FloodFill(h, [(x, y)]);
      && RevealsOnly(g, r)
      && Unrevealed(r) < Unrevealed(g)
      && r[x][y].state == Visible
      && OpenAround(r, x, y)
      && Cascaded(g, r)
      && (WellCounted(g) ==> forall a, b :: InBounds(g, a, b) && g[a][b].isMine ==> r[a][b] == g[a][b])
  {
    var h := SetTile(g, x, y, g[x][y].(state := Visible));
    var r := FloodFill(h, [(x, y)]);
    assert RevealsOnly(g, r) && Unrevealed(r) < Unrevealed(g) && r[x][y].state == Visible by {
      RevealOneShrinks(g, x, y);
      RevealsOnlyTransitive(g, h, r);
      RevealsOnlyShrinks(h, r);
    }
    assert OpenAround(r, x, y) by {
      FloodOpensAround(h, [(x, y)]);
    }
    assert Cascaded(g, r) by {
      FloodCascadeFromClick(g, x, y);
    }
    if WellCounted(g) {
      FloodFromClickSpares(g, x, y);
    }
  }

  /** The click's own cell is settled by the first pop, every other owed cell by the flood's cascade. */
  lemma FloodCascadeFromClick(g: Grid, x: int, y: int)
    requires InBounds(g, x, y) && !g[x][y].isMine && g[x][y].bombsNear == 0 && g[x][y].state != Visible
    ensures var h := SetTile(g, x, y, g[x][y].(state := Visible));
      Cascaded(g, FloodFill(h, [(x, y)]))
  {
    var h := SetTile(g, x, y, g[x][y].(state := Visible));
    var r := FloodFill(h, [(x, y)]);
    FloodCascade(h, [(x, y)]);
    FloodOpensAround(h, [(x, y)]);
    forall a, b | Owed(g, r, a, b)
      ensures OpenAround(r, a, b)
    {
      if a != x || b != y {
        assert Owed(h, r, a, b);
      }
    }
  }

  /**
   * The reach of a click: every cell it opens, other than the clicked one,
   * touches a mine-free zero the click opened (the clicked cell when that
   * is a zero), and
   * every such zero is joined to the clicked cell by a chain of adjacent
   * opened zeros. So the click opens its cell, the zero region around it
   * and the border of that region, and nothing else.
   */
  lemma RevealReach(g: Grid, x: int, y: int)
    ensures var r := Reveal(g, x, y).grid;
      && (forall a, b :: NewlyOpen(g, r, a, b) && (a != x || b != y) ==> NearOwed(g, r, a, b))
      && AllLinked(g, r, [(x, y)])
  {
    if !InBounds(g, x, y) || g[x][y].state == Marked {
      OpenNoneReach(g);
    } else if g[x][y].isMine || g[x][y].bombsNear != 0 || g[x][y].state == Visible {
      OpenOneReach(g, x, y);
    } else {
      FloodReachFromClick(g, x, y);
    }
  }

  lemma OpenNoneReach(g: Grid)
    ensures forall a, b :: !NewlyOpen(g, g, a, b) && !Owed(g, g, a, b)
  {
  }

  lemma OpenOneReach(g: Grid, x: int, y: int)
    requires InBounds(g, x, y) && (g[x][y].isMine || g[x][y].bombsNear != 0 || g[x][y].state == Visible)
    ensures var h := SetTile(g, x, y, g[x][y].(state := Visible));
      forall a, b :: (NewlyOpen(g, h, a, b) ==> a == x && b == y) && !Owed(g, h, a, b)
  {
  }

  lemma FloodReachFromClick(g: Grid, x: int, y: int)
    requires InBounds(g, x, y) && g[x][y].state != Visible && !g[x][y].isMine && g[x][y].bombsNear == 0
    ensures var h := SetTile(g, x, y, g[x][y].(state := Visible));
      var r := FloodFill(h, [(x, y)]);
      && (forall a, b :: NewlyOpen(g, r, a, b) && (a != x || b != y) ==> NearOwed(g, r, a, b))
      && AllLinked(g, r, [(x, y)])
  {
    var h := SetTile(g, x, y, g[x][y].(state := Visible));
    var r := FloodFill(h, [(x, y)]);
    assert Owed(g, r, x, y);
    FloodOnlyRegion(h, [(x, y)]);
    ConfinedFromClick(g, h, r, x, y);
    LinkedFromClick(g, h, r, x, y);
  }

  /** The cells the fill from the clicked zero opens touch an opened zero that was closed before the click, the clicked one included. */
  lemma ConfinedFromClick(g: Grid, h: Grid, r: Grid, x: int, y: int)
    requires InBounds(g, x, y) && h == SetTile(g, x, y, g[x][y].(state := Visible))
    requires Confined(h, r, [(x, y)]) && Owed(g, r, x, y)
    ensures forall a, b :: NewlyOpen(g, r, a, b) && (a != x || b != y) ==> NearOwed(g, r, a, b)
  {
    forall a, b | NewlyOpen(g, r, a, b) && (a != x || b != y)
      ensures NearOwed(g, r, a, b)
    {
      assert NewlyOpen(h, r, a, b);
      if NearWork([(x, y)], a, b) {
        assert Adjacent(x, y, a, b);
      } else {
        var c, d :| Owed(h, r, c, d) && Adjacent(c, d, a, b);
        assert Owed(g, r, c, d);
      }
    }
  }

  /** The chains the fill builds from the clicked cell are chains of cells that were closed before the click. */
  lemma LinkedFromClick(g: Grid, h: Grid, r: Grid, x: int, y: int)
    requires InBounds(g, x, y) && h == SetTile(g, x, y, g[x][y].(state := Visible))
    requires AllLinked(h, r, [(x, y)])
    ensures AllLinked(g, r, [(x, y)])
  {
    forall a, b | Owed(g, r, a, b)
      ensures Linked(g, r, [(x, y)], a, b)
    {
      if a == x && b == y {
        assert OwedPath(g, r, [(x, y)], [(x, y)]);
      } else {
        assert Owed(h, r, a, b);
        var path :| OwedPath(h, r, [(x, y)], path) && path[|path| - 1] == (a, b);
        PathRebase(g, h, r, [(x, y)], path);
      }
    }
  }

  lemma FloodFromClickSpares(g: Grid, x: int, y: int)
    requires InBounds(g, x, y) && !g[x][y].isMine && g[x][y].bombsNear == 0 && g[x][y].state != Visible
    requires WellCounted(g)
    ensures var h := SetTile(g, x, y, g[x][y].(state := Visible));
      var r := FloodFill(h, [(x, y)]);
      forall a, b :: InBounds(g, a, b) && g[a][b].isMine ==> r[a][b] == g[a][b]
  {
    var h := SetTile(g, x, y, g[x][y].(state := Visible));
    assert WellCounted(h) by {
      assert SameField(g, h);
      SameFieldKeepsCounts(g, h);
    }
    assert SafeWork(h, [(x, y)]);
    FloodSparesMines(h, [(x, y)]);
  }

  /** The termination measure of moves: the first-move flag, then the closed cells. */
  function Flag(b: Board): nat
  {
    if b.firstMove then 0 else 1
  }

  /** `b` is no further from the end of the game than (f, h). */
  predicate Le(b: Board, f: nat, h: set<(int, int)>)
  {
    Flag(b) < f || (Flag(b) == f && Unrevealed(b.tiles) <= h)
  }

  /** `b` is strictly closer to the end of the game than (f, h). */
  predicate Lt(b: Board, f: nat, h: set<(int, int)>)
  {
    Flag(b) < f || (Flag(b) == f && Unrevealed(b.tiles) < h)
  }

  /** A cell a left click is bound to change: the game is on, and the cell is inside, unflagged and closed. */
  predicate Clickable(b: Board, x: int, y: int)
  {
    !b.gameOver && InBounds(b.tiles, x, y) && b.tiles[x][y].state != Marked && b.tiles[x][y].state != Visible
  }

  /** The game was lost on the recorded cell: it is inside the grid, open, and holds a mine. */
  predicate LostOnMine(b: Board)
  {
    var (x, y) := b.gameOverPos;
    InBounds(b.tiles, x, y) && b.tiles[x][y].state == Visible && b.tiles[x][y].isMine
  }

  /** `left_click`. */
  function LeftClick(b: Board, x: nat, y: nat, reroll: Grid): (r: Board)
    requires RerollOk(b, x, y, reroll)
    ensures b.gameOver ==> r == b
    ensures !b.gameOver ==> r.firstMove && r.difficulty == b.difficulty && r.renderSize == b.renderSize
    ensures !b.gameOver ==> RevealsOnly(Rolled(b, x, y, reroll), r.tiles)
    ensures !b.gameOver ==>
              var g := Rolled(b, x, y, reroll);
              (r.gameOver <==> InBounds(g, x, y) && g[x][y].isMine && g[x][y].state != Marked)
    ensures !r.gameOver ==> r.gameOverPos == b.gameOverPos
    ensures b.firstMove ==> Rolled(b, x, y, reroll) == b.tiles
    ensures Le(r, Flag(b), Unrevealed(b.tiles))
    ensures Clickable(b, x, y) ==> Lt(r, Flag(b), Unrevealed(b.tiles))
  {
    if b.gameOver then b
    else
      var g := Rolled(b, x, y, reroll);
      var v := Reveal(g, x, y);
      RevealsOnlyShrinks(g, v.grid);
      b.(tiles := v.grid, firstMove := true, gameOver := v.boom,
         gameOverPos := if v.boom then (x, y) else b.gameOverPos)
  }

  /** The cells a left click promises to open, and the ones it promises to leave alone. */
  lemma LeftClickCells(b: Board, x: nat, y: nat, reroll: Grid)
    requires RerollOk(b, x, y, reroll) && !b.gameOver
    ensures var g := Rolled(b, x, y, reroll);
      var r := LeftClick(b, x, y, reroll);
      && (InBounds(g, x, y) && g[x][y].state != Marked ==> r.tiles[x][y].state == Visible)
      && (!InBounds(g, x, y) || g[x][y].state == Marked ==> r.tiles == g)
      && ((InBounds(g, x, y) && !g[x][y].isMine && g[x][y].bombsNear == 0
           && g[x][y].state != Marked && g[x][y].state != Visible) ==> OpenAround(r.tiles, x, y))
      && Cascaded(g, r.tiles)
      && (InBounds(g, x, y) && g[x][y].state != Marked
          && (g[x][y].isMine || g[x][y].bombsNear != 0 || g[x][y].state == Visible) ==>
            r.tiles == SetTile(g, x, y, g[x][y].(state := Visible)))
      && (forall a, b :: NewlyOpen(g, r.tiles, a, b) && (a != x || b != y) ==>
            NearOwed(g, r.tiles, a, b))
      && AllLinked(g, r.tiles, [(x, y)])
  {
    RevealReach(Rolled(b, x, y, reroll), x, y);
  }

  /** A left click on a grid with exact counts opens no mine except, possibly, the clicked cell. */
  lemma LeftClickSparesMines(b: Board, x: nat, y: nat, reroll: Grid)
    requires RerollOk(b, x, y, reroll) && !b.gameOver && WellCounted(Rolled(b, x, y, reroll))
    ensures var g := Rolled(b, x, y, reroll);
      var r := LeftClick(b, x, y, reroll);
      forall a, c :: InBounds(g, a, c) && g[a][c].isMine && (a != x || c != y) ==> r.tiles[a][c] == g[a][c]
  {
  }

  /** Left clicks keep a board valid. */
  lemma LeftClickValid(b: Board, x: nat, y: nat, reroll: Grid)
    requires Valid(b) && RerollOk(b, x, y, reroll)
    ensures Valid(LeftClick(b, x, y, reroll))
  {
    if !b.gameOver {
      var g := Rolled(b, x, y, reroll);
      var r := LeftClick(b, x, y, reroll);
      RevealsOnlyIsSameField(g, r.tiles);
      SameFieldKeepsCounts(g, r.tiles);
    }
  }

  /**
   * The first move is safe: on a valid board, the first left click inside
   * the grid opens a cell that is neither a mine nor next to one, so the
   * game goes on.
   */
  lemma FirstClickSafe(b: Board, x: nat, y: nat, reroll: Grid)
    requires Valid(b) && !b.firstMove && InBounds(b.tiles, x, y) && RerollOk(b, x, y, reroll)
    ensures var r := LeftClick(b, x, y, reroll);
      && r.firstMove && !r.gameOver
      && r.tiles[x][y].state == Visible && !r.tiles[x][y].isMine && r.tiles[x][y].bombsNear == 0
  {
    var g := Rolled(b, x, y, reroll);
    RolledSafe(b, x, y, reroll);
    var v := Reveal(g, x, y);
    assert !v.boom && v.grid[x][y].state == Visible;
    assert SameField(g, v.grid) by {
      RevealsOnlyIsSameField(g, v.grid);
    }
  }

  /** Before the first move the grid the click acts on is fresh, and the clicked cell is closed and safe. */
  lemma RolledSafe(b: Board, x: nat, y: nat, reroll: Grid)
    requires Valid(b) && !b.firstMove && InBounds(b.tiles, x, y) && RerollOk(b, x, y, reroll)
    ensures var g := Rolled(b, x, y, reroll);
      InBounds(g, x, y) && g[x][y].state == Hidden && !g[x][y].isMine && g[x][y].bombsNear == 0
  {
    var size := PresetSize(b.renderSize, b.difficulty);
    if NeedsReroll(b, x, y) {
      assert Rect(reroll, size.0, size.1) && Rect(b.tiles, size.0, size.1);
    }
  }

  // ---------------------------------------------------------------------
  // Control click (chord)

  /** The walker callbacks of the chord: count flagged cells, collect closed ones. Neither changes a cell. */
  function MarkedProbe(t: Tile): (bool, Tile)
  {
    (t.state == Marked, t)
  }

  function ClosedProbe(t: Tile): (bool, Tile)
  {
    (t.state != Marked && t.state != Visible, t)
  }

  /** The flagged in-grid neighbours of (x, y). */
  function MarkedAround(g: Grid, x: int, y: int): set<(int, int)>
  {
    set a, b | x - 1 <= a <= x + 1 && y - 1 <= b <= y + 1 && Adjacent(x, y, a, b)
                 && InBounds(g, a, b) && g[a][b].state == Marked :: (a, b)
  }

  /**
   * The cells a chord on (x, y) left-clicks, in walking order: the closed,
   * unflagged neighbours, provided the number of flagged neighbours equals
   * the cell's count. The clicked cell itself may be in any state.
   */
  function ChordTargets(b: Board, x: int, y: int): (r: seq<(int, int)>)
    ensures forall i :: 0 <= i < |r| ==> Clickable(b, r[i].0, r[i].1) && Adjacent(x, y, r[i].0, r[i].1)
    ensures r != [] ==> InBounds(b.tiles, x, y) && b.tiles[x][y].bombsNear == |MarkedAround(b.tiles, x, y)|
    ensures !b.gameOver && InBounds(b.tiles, x, y) && b.tiles[x][y].bombsNear == |MarkedAround(b.tiles, x, y)| ==>
              forall a, c :: Adjacent(x, y, a, c) && Clickable(b, a, c) ==> (a, c) in r
    ensures Distinct(r) && |r| <= 8
    ensures b.gameOver ==> r == []
  {
    if b.gameOver || !InBounds(b.tiles, x, y) then []
    else
      var marked := DoAround(x, y, b.tiles, MarkedProbe).matching;
      MarkedCount(b.tiles, x, y);
      if |marked| == b.tiles[x][y].bombsNear then DoAround(x, y, b.tiles, ClosedProbe).matching
      else []
  }

  /** The walker's count of flagged neighbours is the number of flagged in-grid neighbours. */
  lemma MarkedCount(g: Grid, x: int, y: int)
    ensures |DoAround(x, y, g, MarkedProbe).matching| == |MarkedAround(g, x, y)|
  {
    var f: Visitor := MarkedProbe;
    MatchingCount(x, y, g, f);
    var s := set a, b | x - 1 <= a <= x + 1 && y - 1 <= b <= y + 1 && Adjacent(x, y, a, b)
                        && InBounds(g, a, b) && f(g[a][b]).0 :: (a, b);
    forall p | p in s
      ensures p in MarkedAround(g, x, y)
    {
      assert f(g[p.0][p.1]).0;
    }
    forall p | p in MarkedAround(g, x, y)
      ensures p in s
    {
      assert f(g[p.0][p.1]) == MarkedProbe(g[p.0][p.1]);
    }
    assert s == MarkedAround(g, x, y);
  }

  /** The chord requires of the regeneration only what its next left click needs. */
  ghost predicate ChordRerollOk(b: Board, todo: seq<(int, int)>, k: nat, reroll: Grid)
  {
    k < |todo| ==> RerollOk(b, todo[k].0, todo[k].1, reroll)
  }

  /**
   * `do_control_click`: left-click every chord target and chord again from
   * it. Recursion ends because each round either makes the first move,
   * opens a cell, or runs out of targets.
   */
  function ControlClick(b: Board, x: int, y: int, reroll: Grid): (r: Board)
    requires ChordRerollOk(b, ChordTargets(b, x, y), 0, reroll)
    ensures ChordTargets(b, x, y) == [] ==> r == b
    ensures Follows(b, r)
    ensures Valid(b) ==> Valid(r)
    decreases Flag(b), Unrevealed(b.tiles), 1, 0
  {
    var todo := ChordTargets(b, x, y);
    if todo == [] then b
    else
      ChordStart(b, todo);
      ChordEach(b, todo, 0, reroll, Flag(b), Unrevealed(b.tiles))
  }

  /** A chord left-clicks every target: each ends open unless the game is lost on the way. */
  lemma ControlClickOpens(b: Board, x: int, y: int, reroll: Grid)
    requires ChordRerollOk(b, ChordTargets(b, x, y), 0, reroll)
    ensures var r := ControlClick(b, x, y, reroll);
      var todo := ChordTargets(b, x, y);
      b.firstMove || Valid(b) ==> forall i :: 0 <= i < |todo| ==> r.gameOver || Opened(r, todo[i])
  {
    var todo := ChordTargets(b, x, y);
    if todo != [] {
      ChordStart(b, todo);
    }
  }

  /** What the loop over the targets needs at its start: targets inside the grid, the first one clickable. */
  lemma ChordStart(b: Board, todo: seq<(int, int)>)
    requires todo != [] && forall i :: 0 <= i < |todo| ==> Clickable(b, todo[i].0, todo[i].1)
    ensures forall i :: 0 <= i < |todo| ==> todo[i].0 >= 0 && todo[i].1 >= 0
    ensures Le(b, Flag(b), Unrevealed(b.tiles)) && Clickable(b, todo[0].0, todo[0].1)
    ensures Pending(b, todo, 0)
  {
  }

  /**
   * The loop over the chord targets from index `k` on, bounded by the
   * measure (f0, h0) of the board the chord started on.
   */
  function ChordEach(b: Board, todo: seq<(int, int)>, k: nat, reroll: Grid, ghost f0: nat, ghost h0: set<(int, int)>): (r: Board)
    requires k <= |todo|
    requires forall i :: 0 <= i < |todo| ==> todo[i].0 >= 0 && todo[i].1 >= 0
    requires ChordRerollOk(b, todo, k, reroll)
    requires Le(b, f0, h0)
    requires k < |todo| && Flag(b) == f0 && Unrevealed(b.tiles) == h0 ==> Clickable(b, todo[k].0, todo[k].1)
    ensures k == |todo| ==> r == b
    ensures Follows(b, r)
    ensures Valid(b) ==> Valid(r)
    ensures Pending(b, todo, k) && (b.firstMove || Valid(b)) ==>
              forall i :: k <= i < |todo| ==> r.gameOver || Opened(r, todo[i])
    decreases f0, h0, 0, |todo| - k
  {
    if k == |todo| then b
    else
      var b2 := ChordRound(b, todo, k, reroll, f0, h0);
      SettledChordOk(b2, todo, k + 1, reroll);
      var r := ChordEach(b2, todo, k + 1, reroll, f0, h0);
      FollowsPair(b, b2, r);
      ChordStepOpens(b, b2, r, todo, k);
      r
  }

  /**
   * Round `k` of the chord loop: left-click target `k`, then chord from
   * it. The board it leaves is strictly below the bound (f0, h0).
   */
  function ChordRound(b: Board, todo: seq<(int, int)>, k: nat, reroll: Grid, ghost f0: nat, ghost h0: set<(int, int)>): (r: Board)
    requires k < |todo| && todo[k].0 >= 0 && todo[k].1 >= 0
    requires RerollOk(b, todo[k].0, todo[k].1, reroll)
    requires Le(b, f0, h0)
    requires Flag(b) == f0 && Unrevealed(b.tiles) == h0 ==> Clickable(b, todo[k].0, todo[k].1)
    ensures Follows(b, r)
    ensures Valid(b) ==> Valid(r)
    ensures r.firstMove || r.gameOver
    ensures Le(r, f0, h0) && !(Flag(r) == f0 && Unrevealed(r.tiles) == h0)
    ensures !b.gameOver && Pending(b, todo, k) && (b.firstMove || Valid(b)) ==>
              r.firstMove && (r.gameOver || (Opened(r, todo[k]) && Pending(r, todo, k + 1)))
    decreases f0, h0, 0, 0
  {
    var p := todo[k];
    var b1 := LeftClick(b, p.0, p.1, reroll);
    LeftClickValidIf(b, p.0, p.1, reroll);
    MeasureFirst(b, b1, f0, h0);
    SettledChordOk(b1, ChordTargets(b1, p.0, p.1), 0, reroll);
    var r := ControlClick(b1, p.0, p.1, reroll);
    MeasureNext(b1, r, f0, h0);
    LeftClickFollows(b, p.0, p.1, reroll);
    FollowsPair(b, b1, r);
    LeftClickOpensTarget(b, todo, k, reroll);
    RoundOpens(b, b1, r, todo, k);
    r
  }

  /** The cell `p` is inside the grid and open. */
  predicate Opened(b: Board, p: (int, int))
  {
    InBounds(b.tiles, p.0, p.1) && b.tiles[p.0][p.1].state == Visible
  }

  /** The targets from index `k` on are inside the grid and unflagged, so a left click opens each of them. */
  predicate Pending(b: Board, todo: seq<(int, int)>, k: nat)
  {
    forall i :: k <= i < |todo| ==> InBounds(b.tiles, todo[i].0, todo[i].1) && b.tiles[todo[i].0][todo[i].1].state != Marked
  }

  /** Opening cells keeps the pending targets pending and the open ones open. */
  lemma RevealsKeepsTargets(b: Board, c: Board, todo: seq<(int, int)>, k: nat, p: (int, int))
    requires RevealsOnly(b.tiles, c.tiles)
    ensures Pending(b, todo, k) ==> Pending(c, todo, k)
    ensures Opened(b, p) ==> Opened(c, p)
  {
  }

  /**
   * The left click on target `k` opens it, unless it ends the game, and
   * leaves the later targets pending, even when it is the first move and
   * the grid is regenerated.
   */
  lemma LeftClickOpensTarget(b: Board, todo: seq<(int, int)>, k: nat, reroll: Grid)
    requires k < |todo| && todo[k].0 >= 0 && todo[k].1 >= 0
    requires RerollOk(b, todo[k].0, todo[k].1, reroll)
    ensures !b.gameOver && Pending(b, todo, k) && (b.firstMove || Valid(b)) ==>
      var b1 := LeftClick(b, todo[k].0, todo[k].1, reroll);
      b1.firstMove && (b1.gameOver || (Opened(b1, todo[k]) && Pending(b1, todo, k + 1)))
  {
    if !b.gameOver && Pending(b, todo, k) && (b.firstMove || Valid(b)) {
      RolledPending(b, todo, k, reroll);
      LeftClickOpensPending(b, todo, k, reroll);
    }
  }

  /** The click itself: on a grid where the targets are pending, it opens target `k` and keeps the later ones pending. */
  lemma LeftClickOpensPending(b: Board, todo: seq<(int, int)>, k: nat, reroll: Grid)
    requires k < |todo| && todo[k].0 >= 0 && todo[k].1 >= 0
    requires RerollOk(b, todo[k].0, todo[k].1, reroll) && !b.gameOver
    requires Pending(b.(tiles := Rolled(b, todo[k].0, todo[k].1, reroll)), todo, k)
    ensures var b1 := LeftClick(b, todo[k].0, todo[k].1, reroll);
      b1.firstMove && (b1.gameOver || (Opened(b1, todo[k]) && Pending(b1, todo, k + 1)))
  {
    var p := todo[k];
    var g := Rolled(b, p.0, p.1, reroll);
    var b1 := LeftClick(b, p.0, p.1, reroll);
    assert InBounds(g, p.0, p.1) && g[p.0][p.1].state != Marked;
    assert b1.tiles == Reveal(g, p.0, p.1).grid;
    RevealsKeepsTargets(b.(tiles := g), b1, todo, k + 1, p);
  }

  /** A regenerated grid has the size of the valid board's grid and no flags, so the targets stay pending on it. */
  lemma RolledPending(b: Board, todo: seq<(int, int)>, k: nat, reroll: Grid)
    requires k < |todo| && RerollOk(b, todo[k].0, todo[k].1, reroll)
    requires Pending(b, todo, k) && (b.firstMove || Valid(b))
    ensures Pending(b.(tiles := Rolled(b, todo[k].0, todo[k].1, reroll)), todo, k)
  {
    if NeedsReroll(b, todo[k].0, todo[k].1) {
      var size := PresetSize(b.renderSize, b.difficulty);
      assert Rect(reroll, size.0, size.1) && Rect(b.tiles, size.0, size.1);
    }
  }

  /** After the round's left click, the nested chord only opens more cells, so the target stays open and the later ones pending. */
  lemma RoundOpens(b: Board, b1: Board, r: Board, todo: seq<(int, int)>, k: nat)
    requires k < |todo|
    requires !b.gameOver && Pending(b, todo, k) && (b.firstMove || Valid(b)) ==>
               b1.firstMove && (b1.gameOver || (Opened(b1, todo[k]) && Pending(b1, todo, k + 1)))
    requires Follows(b1, r)
    ensures !b.gameOver && Pending(b, todo, k) && (b.firstMove || Valid(b)) ==>
              r.firstMove && (r.gameOver || (Opened(r, todo[k]) && Pending(r, todo, k + 1)))
  {
    if !b.gameOver && Pending(b, todo, k) && (b.firstMove || Valid(b)) && !r.gameOver {
      RevealsKeepsTargets(b1, r, todo, k + 1, todo[k]);
    }
  }

  /** One round of the chord loop: the target is opened by its round and stays open; the later ones are the recursion's. */
  lemma ChordStepOpens(b: Board, b2: Board, r: Board, todo: seq<(int, int)>, k: nat)
    requires k < |todo|
    requires b.gameOver ==> b2.gameOver
    requires !b.gameOver && Pending(b, todo, k) && (b.firstMove || Valid(b)) ==>
               b2.firstMove && (b2.gameOver || (Opened(b2, todo[k]) && Pending(b2, todo, k + 1)))
    requires Follows(b2, r)
    requires Pending(b2, todo, k + 1) && (b2.firstMove || Valid(b2)) ==>
               forall i :: k + 1 <= i < |todo| ==> r.gameOver || Opened(r, todo[i])
    ensures Pending(b, todo, k) && (b.firstMove || Valid(b)) ==>
              forall i :: k <= i < |todo| ==> r.gameOver || Opened(r, todo[i])
  {
    if Pending(b, todo, k) && (b.firstMove || Valid(b)) && !b.gameOver && !b2.gameOver {
      RevealsKeepsTargets(b2, r, todo, k + 1, todo[k]);
    }
  }

  /**
   * The nested chord of round `k`: every cell the chord from target `k`
   * left-clicks ends open, unless the game is lost on the way.
   */
  lemma ChordNestedOpens(b: Board, todo: seq<(int, int)>, k: nat, reroll: Grid, f0: nat, h0: set<(int, int)>)
    requires k < |todo|
    requires forall i :: 0 <= i < |todo| ==> todo[i].0 >= 0 && todo[i].1 >= 0
    requires ChordRerollOk(b, todo, k, reroll)
    requires Le(b, f0, h0)
    requires Flag(b) == f0 && Unrevealed(b.tiles) == h0 ==> Clickable(b, todo[k].0, todo[k].1)
    ensures var r := ChordEach(b, todo, k, reroll, f0, h0);
      var ts := ChordTargets(LeftClick(b, todo[k].0, todo[k].1, reroll), todo[k].0, todo[k].1);
      forall j :: 0 <= j < |ts| ==> r.gameOver || Opened(r, ts[j])
  {
    if !b.gameOver {
      var p := todo[k];
      var b1 := LeftClick(b, p.0, p.1, reroll);
      ChordRoundTail(b, todo, k, reroll, f0, h0);
      ControlClickOpens(b1, p.0, p.1, reroll);
      NestedStaysOpen(b1, ControlClick(b1, p.0, p.1, reroll), ChordEach(b, todo, k, reroll, f0, h0),
                      ChordTargets(b1, p.0, p.1));
    }
  }

  /** Round `k` of the chord loop is its left click followed by the chord from it, and the rest of the loop follows on from it. */
  lemma ChordRoundTail(b: Board, todo: seq<(int, int)>, k: nat, reroll: Grid, f0: nat, h0: set<(int, int)>)
    requires k < |todo| && !b.gameOver
    requires forall i :: 0 <= i < |todo| ==> todo[i].0 >= 0 && todo[i].1 >= 0
    requires ChordRerollOk(b, todo, k, reroll)
    requires Le(b, f0, h0)
    requires Flag(b) == f0 && Unrevealed(b.tiles) == h0 ==> Clickable(b, todo[k].0, todo[k].1)
    ensures var b1 := LeftClick(b, todo[k].0, todo[k].1, reroll);
      var b2 := ChordRound(b, todo, k, reroll, f0, h0);
      && b1.firstMove && b2 == ControlClick(b1, todo[k].0, todo[k].1, reroll)
      && Follows(b2, ChordEach(b, todo, k, reroll, f0, h0))
  {
    ChordEachUnfold(b, todo, k, reroll, f0, h0);
  }

  /** Round `k` of the chord loop, then the rest of the loop. */
  lemma ChordEachUnfold(b: Board, todo: seq<(int, int)>, k: nat, reroll: Grid, f0: nat, h0: set<(int, int)>)
    requires k < |todo|
    requires forall i :: 0 <= i < |todo| ==> todo[i].0 >= 0 && todo[i].1 >= 0
    requires ChordRerollOk(b, todo, k, reroll)
    requires Le(b, f0, h0)
    requires Flag(b) == f0 && Unrevealed(b.tiles) == h0 ==> Clickable(b, todo[k].0, todo[k].1)
    ensures var b2 := ChordRound(b, todo, k, reroll, f0, h0);
      ChordRerollOk(b2, todo, k + 1, reroll)
      && ChordEach(b, todo, k, reroll, f0, h0) == ChordEach(b2, todo, k + 1, reroll, f0, h0)
  {
    var b2 := ChordRound(b, todo, k, reroll, f0, h0);
    SettledChordOk(b2, todo, k + 1, reroll);
  }

  /**
   * The nested chord of a round: the cells the chord from board `b1`
   * opens on `b2` stay open on any later board `r` of the same game.
   */
  lemma NestedStaysOpen(b1: Board, b2: Board, r: Board, ts: seq<(int, int)>)
    requires b1.firstMove || ts == []
    requires b1.firstMove ==> b2.firstMove
    requires b1.firstMove || Valid(b1) ==> forall i :: 0 <= i < |ts| ==> b2.gameOver || Opened(b2, ts[i])
    requires b2.firstMove ==> RevealsOnly(b2.tiles, r.tiles)
    requires b2.gameOver ==> r.gameOver
    ensures forall j :: 0 <= j < |ts| ==> r.gameOver || Opened(r, ts[j])
  {
  }

  /**
   * What every step of a chord keeps from board `b` to board `r`: the
   * settings, the first move once made, a lost game, the opened cells,
   * a loss on a mine at the recorded position, the recorded position
   * while the game goes on, and a measure that never grows.
   */
  ghost predicate Follows(b: Board, r: Board)
  {
    && r.difficulty == b.difficulty && r.renderSize == b.renderSize
    && (b.firstMove ==> r.firstMove)
    && (b.gameOver ==> r.gameOver)
    && (b.firstMove ==> RevealsOnly(b.tiles, r.tiles))
    && (r.gameOver && (!b.gameOver || LostOnMine(b)) ==> LostOnMine(r))
    && (!r.gameOver ==> r.gameOverPos == b.gameOverPos)
    && Le(r, Flag(b), Unrevealed(b.tiles))
  }

  /** The left click of a chord round is such a step. */
  lemma LeftClickFollows(b: Board, x: nat, y: nat, reroll: Grid)
    requires RerollOk(b, x, y, reroll)
    ensures Follows(b, LeftClick(b, x, y, reroll))
  {
    LeftClickLoses(b, x, y, reroll);
  }

  /** A left click that ends the game records its own cell, and that cell is an open mine. */
  lemma LeftClickLoses(b: Board, x: nat, y: nat, reroll: Grid)
    requires RerollOk(b, x, y, reroll)
    ensures var r := LeftClick(b, x, y, reroll);
      r.gameOver && !b.gameOver ==> r.gameOverPos == (x, y) && LostOnMine(r)
  {
    if !b.gameOver {
      var v := Reveal(Rolled(b, x, y, reroll), x, y);
      assert v.boom ==> v.grid[x][y].isMine;
    }
  }

  /** Two such steps in a row make one. */
  lemma FollowsPair(b: Board, b1: Board, r: Board)
    requires Follows(b, b1) && Follows(b1, r)
    ensures Follows(b, r)
  {
    if b.firstMove {
      RevealsOnlyTransitive(b.tiles, b1.tiles, r.tiles);
    }
  }

  /** Once the first move is made, or the game is over, no click regenerates the grid. */
  lemma SettledChordOk(b: Board, todo: seq<(int, int)>, k: nat, reroll: Grid)
    requires b.firstMove || b.gameOver
    ensures ChordRerollOk(b, todo, k, reroll)
  {
  }

  /** The first left click of a chord round lands strictly below the bound of the round. */
  lemma MeasureFirst(b: Board, b1: Board, f0: nat, h0: set<(int, int)>)
    requires Le(b, f0, h0) && Le(b1, Flag(b), Unrevealed(b.tiles))
    requires Flag(b) == f0 && Unrevealed(b.tiles) == h0 ==> Lt(b1, Flag(b), Unrevealed(b.tiles))
    ensures Lt(b1, f0, h0)
  {
  }

  /** A board strictly below (f, h) is strictly below it in flag count, then closed-cell count. */
  lemma LtCount(b: Board, f: nat, h: set<(int, int)>)
    requires Lt(b, f, h)
    ensures Flag(b) < f || (Flag(b) == f && |Unrevealed(b.tiles)| < |h|)
  {
    if Flag(b) == f {
      var e :| e in h && e !in Unrevealed(b.tiles);
      SubsetSize(Unrevealed(b.tiles), h - {e});
    }
  }

  lemma MeasureNext(b1: Board, b2: Board, f0: nat, h0: set<(int, int)>)
    requires Lt(b1, f0, h0) && Le(b2, Flag(b1), Unrevealed(b1.tiles))
    ensures Lt(b2, f0, h0) && Le(b2, f0, h0) && !(Flag(b2) == f0 && Unrevealed(b2.tiles) == h0)
  {
  }

  lemma LeftClickValidIf(b: Board, x: nat, y: nat, reroll: Grid)
    requires RerollOk(b, x, y, reroll)
    ensures Valid(b) ==> Valid(LeftClick(b, x, y, reroll))
  {
    if Valid(b) {
      LeftClickValid(b, x, y, reroll);
    }
  }

  // ---------------------------------------------------------------------
  // A chord around correct flags never loses

  /** Every flag stands on a mine. */
  ghost predicate FlagsOnMines(g: Grid)
  {
    forall a, c :: InBounds(g, a, c) && g[a][c].state == Marked ==> g[a][c].isMine
  }

  /** A game in progress after the first move, with every count correct and every flag on a mine. */
  ghost predicate Honest(b: Board)
  {
    b.firstMove && !b.gameOver && WellCounted(b.tiles) && FlagsOnMines(b.tiles)
  }

  /** The chord targets from index `k` on are no mines. */
  ghost predicate SafeTargets(b: Board, todo: seq<(int, int)>, k: nat)
  {
    forall i :: k <= i < |todo| && InBounds(b.tiles, todo[i].0, todo[i].1) ==> !b.tiles[todo[i].0][todo[i].1].isMine
  }

  /** A finite set inside another of the same size is that set. */
  lemma SubsetSameSize<T>(s: set<T>, t: set<T>)
    requires s <= t && |s| == |t|
    ensures s == t
  {
    if s != t {
      var e :| e in t && e !in s;
      SubsetSize(s, t - {e});
    }
  }

  lemma {:induction false} SubsetSize<T>(s: set<T>, t: set<T>)
    requires s <= t
    ensures |s| <= |t|
  {
    if s != {} {
      var e :| e in s;
      SubsetSize(s - {e}, t - {e});
    }
  }

  /**
   * When every flag stands on a mine, a chord's targets are no mines: the
   * flags around the centre are as many as the mines around it, so they
   * are those mines, and every target is an unflagged neighbour.
   */
  lemma ChordTargetsSafe(b: Board, x: int, y: int)
    requires WellCounted(b.tiles) && FlagsOnMines(b.tiles)
    ensures SafeTargets(b, ChordTargets(b, x, y), 0)
  {
    var todo := ChordTargets(b, x, y);
    if todo != [] {
      var marked := MarkedAround(b.tiles, x, y);
      var mines := MinesAround(b.tiles, x, y);
      assert marked <= mines;
      assert |marked| == |mines|;
      SubsetSameSize(marked, mines);
      forall i | 0 <= i < |todo|
        ensures !b.tiles[todo[i].0][todo[i].1].isMine
      {
        var t := todo[i];
        assert t !in mines;
      }
    }
  }

  /** Opening cells keeps every flag and every mine where they were. */
  lemma RevealsKeepsHonest(b: Board, c: Board, todo: seq<(int, int)>, k: nat)
    requires RevealsOnly(b.tiles, c.tiles)
    ensures WellCounted(b.tiles) ==> WellCounted(c.tiles)
    ensures FlagsOnMines(b.tiles) ==> FlagsOnMines(c.tiles)
    ensures SafeTargets(b, todo, k) ==> SafeTargets(c, todo, k)
  {
    RevealsOnlyIsSameField(b.tiles, c.tiles);
    SameFieldKeepsCounts(b.tiles, c.tiles);
  }

  /** On an honest board a left click on a cell that is no mine keeps the board honest. */
  lemma LeftClickSafe(b: Board, x: nat, y: nat, reroll: Grid)
    requires RerollOk(b, x, y, reroll) && Honest(b)
    requires InBounds(b.tiles, x, y) ==> !b.tiles[x][y].isMine
    ensures Honest(LeftClick(b, x, y, reroll))
  {
    RevealsKeepsHonest(b, LeftClick(b, x, y, reroll), [], 0);
  }

  /**
   * A chord on an honest board never loses, and leaves the board honest:
   * every cell it left-clicks is a target of some chord on an honest board.
   */
  lemma ChordSafe(b: Board, x: int, y: int, reroll: Grid)
    requires ChordRerollOk(b, ChordTargets(b, x, y), 0, reroll)
    requires b.firstMove && !b.gameOver && WellCounted(b.tiles) && FlagsOnMines(b.tiles)
    ensures var r := ControlClick(b, x, y, reroll);
      !r.gameOver && Honest(r)
    decreases Flag(b), Unrevealed(b.tiles), 1, 0
  {
    var todo := ChordTargets(b, x, y);
    if todo != [] {
      ChordStart(b, todo);
      ChordTargetsSafe(b, x, y);
      ChordEachSafe(b, todo, 0, reroll, Flag(b), Unrevealed(b.tiles));
    }
  }

  lemma ChordEachSafe(b: Board, todo: seq<(int, int)>, k: nat, reroll: Grid, f0: nat, h0: set<(int, int)>)
    requires k <= |todo|
    requires forall i :: 0 <= i < |todo| ==> todo[i].0 >= 0 && todo[i].1 >= 0
    requires ChordRerollOk(b, todo, k, reroll)
    requires Le(b, f0, h0)
    requires k < |todo| && Flag(b) == f0 && Unrevealed(b.tiles) == h0 ==> Clickable(b, todo[k].0, todo[k].1)
    requires Honest(b) && SafeTargets(b, todo, k)
    ensures Honest(ChordEach(b, todo, k, reroll, f0, h0))
    decreases f0, h0, 0, |todo| - k
  {
    if k < |todo| {
      ChordRoundSafe(b, todo, k, reroll, f0, h0);
      var b2 := ChordRound(b, todo, k, reroll, f0, h0);
      RevealsKeepsHonest(b, b2, todo, k + 1);
      SettledChordOk(b2, todo, k + 1, reroll);
      ChordEachSafe(b2, todo, k + 1, reroll, f0, h0);
      ChordEachUnfold(b, todo, k, reroll, f0, h0);
    }
  }

  lemma ChordRoundSafe(b: Board, todo: seq<(int, int)>, k: nat, reroll: Grid, f0: nat, h0: set<(int, int)>)
    requires k < |todo| && todo[k].0 >= 0 && todo[k].1 >= 0
    requires RerollOk(b, todo[k].0, todo[k].1, reroll)
    requires Le(b, f0, h0)
    requires Flag(b) == f0 && Unrevealed(b.tiles) == h0 ==> Clickable(b, todo[k].0, todo[k].1)
    requires Honest(b) && SafeTargets(b, todo, k)
    ensures Honest(ChordRound(b, todo, k, reroll, f0, h0))
    decreases f0, h0, 0, 0
  {
    var p := todo[k];
    var b1 := LeftClick(b, p.0, p.1, reroll);
    LeftClickSafe(b, p.0, p.1, reroll);
    MeasureFirst(b, b1, f0, h0);
    SettledChordOk(b1, ChordTargets(b1, p.0, p.1), 0, reroll);
    ChordSafe(b1, p.0, p.1, reroll);
    assert ChordRound(b, todo, k, reroll, f0, h0) == ControlClick(b1, p.0, p.1, reroll);
  }

  // ---------------------------------------------------------------------
  // How far a chord reaches

  /**
   * A cell a chord started on `b0` may spread from: closed on `b0`, open
   * on `r`, no mine, and with no more mines around it than flags around it
   * on `b0`. Every mine-free zero the chord opens is one.
   */
  ghost predicate Centre(b0: Board, r: Board, d: int, e: int)
  {
    && NewlyOpen(b0.tiles, r.tiles, d, e) && !b0.tiles[d][e].isMine
    && b0.tiles[d][e].bombsNear <= |MarkedAround(b0.tiles, d, e)|
  }

  /** (a, c) touches a centre of the chord started on `b0`: one of its eight neighbours is one. */
  ghost predicate NearCentre(b0: Board, r: Board, a: int, c: int)
  {
    || Centre(b0, r, a - 1, c - 1) || Centre(b0, r, a - 1, c) || Centre(b0, r, a - 1, c + 1)
    || Centre(b0, r, a, c - 1) || Centre(b0, r, a, c + 1)
    || Centre(b0, r, a + 1, c - 1) || Centre(b0, r, a + 1, c) || Centre(b0, r, a + 1, c + 1)
  }

  lemma CentreAt(b0: Board, r: Board, d: int, e: int, a: int, c: int)
    requires Centre(b0, r, d, e) && Adjacent(d, e, a, c)
    ensures NearCentre(b0, r, a, c)
  {
  }

  /** Every cell opened between `b` and `r` touches (x, y) or a centre of the chord started on `b0`. */
  ghost predicate ReachFrom(b0: Board, b: Board, r: Board, x: int, y: int)
  {
    forall a, c :: NewlyOpen(b.tiles, r.tiles, a, c) ==> Adjacent(x, y, a, c) || NearCentre(b0, r, a, c)
  }

  /**
   * The reach of a chord on (x, y), once the first move is made: every
   * cell it opens touches (x, y), or touches a cell it opened that is no
   * mine and has no more mines around it than flags around it before the
   * chord. So the chord spreads only through cells whose own chord fires
   * and through the zero regions its clicks open.
   */
  lemma ChordReach(b: Board, x: int, y: int, reroll: Grid)
    requires ChordRerollOk(b, ChordTargets(b, x, y), 0, reroll)
    requires b.firstMove
    ensures ReachFrom(b, b, ControlClick(b, x, y, reroll), x, y)
    decreases Flag(b), |Unrevealed(b.tiles)|, 1, 0
  {
    var todo := ChordTargets(b, x, y);
    if todo != [] {
      ReachStart(b, x, y, reroll);
      ChordEachReach(b, b, todo, 0, reroll, Flag(b), Unrevealed(b.tiles), x, y);
    }
  }

  /** The chord's own targets meet what the reach of its loop needs. */
  lemma ReachStart(b: Board, x: int, y: int, reroll: Grid)
    requires ChordRerollOk(b, ChordTargets(b, x, y), 0, reroll)
    requires b.firstMove && ChordTargets(b, x, y) != []
    ensures EachReachPre(b, b, ChordTargets(b, x, y), 0, reroll, Flag(b), Unrevealed(b.tiles), x, y)
  {
    var todo := ChordTargets(b, x, y);
    ChordStart(b, todo);
    assert RevealsOnly(b.tiles, b.tiles);
    assert FreshTargets(b, todo, 0, x, y) by {
      forall i | 0 <= i < |todo|
        ensures Adjacent(x, y, todo[i].0, todo[i].1) && Clickable(b, todo[i].0, todo[i].1)
      {
      }
    }
  }

  /** The targets from index `k` on touch (x, y) and were closed and unflagged on `b0`. */
  ghost predicate FreshTargets(b0: Board, todo: seq<(int, int)>, k: nat, x: int, y: int)
  {
    forall i :: k <= i < |todo| ==>
      && Adjacent(x, y, todo[i].0, todo[i].1) && InBounds(b0.tiles, todo[i].0, todo[i].1)
      && b0.tiles[todo[i].0][todo[i].1].state != Visible && b0.tiles[todo[i].0][todo[i].1].state != Marked
  }

  /** What the reach of the chord loop from index `k` needs. */
  ghost predicate EachReachPre(b0: Board, b: Board, todo: seq<(int, int)>, k: nat, reroll: Grid, f0: nat, h0: set<(int, int)>,
                               x: int, y: int)
  {
    && k <= |todo|
    && (forall i :: 0 <= i < |todo| ==> todo[i].0 >= 0 && todo[i].1 >= 0)
    && ChordRerollOk(b, todo, k, reroll)
    && Le(b, f0, h0)
    && (k < |todo| && Flag(b) == f0 && Unrevealed(b.tiles) == h0 ==> Clickable(b, todo[k].0, todo[k].1))
    && b.firstMove && RevealsOnly(b0.tiles, b.tiles) && FreshTargets(b0, todo, k, x, y)
  }

  lemma ChordEachReach(b0: Board, b: Board, todo: seq<(int, int)>, k: nat, reroll: Grid, f0: nat, h0: set<(int, int)>,
                       x: int, y: int)
    requires EachReachPre(b0, b, todo, k, reroll, f0, h0, x, y)
    ensures ReachFrom(b0, b, ChordEach(b, todo, k, reroll, f0, h0), x, y)
    decreases f0, |h0|, 0, |todo| - k
  {
    if k < |todo| {
      var b2 := ChordRound(b, todo, k, reroll, f0, h0);
      NextReachSetup(b0, b, todo, k, reroll, f0, h0, x, y);
      ChordEachReach(b0, b2, todo, k + 1, reroll, f0, h0, x, y);
      ChordRoundReach(b0, b, todo, k, reroll, f0, h0, x, y, b2);
      EachReachStep(b0, b, b2, ChordEach(b2, todo, k + 1, reroll, f0, h0), todo, k, reroll, f0, h0, x, y);
    }
  }

  /** After round `k` the loop from `k + 1` meets what the reach of the loop needs. */
  lemma NextReachSetup(b0: Board, b: Board, todo: seq<(int, int)>, k: nat, reroll: Grid, f0: nat, h0: set<(int, int)>,
                       x: int, y: int)
    requires k < |todo|
    requires forall i :: 0 <= i < |todo| ==> todo[i].0 >= 0 && todo[i].1 >= 0
    requires ChordRerollOk(b, todo, k, reroll)
    requires Le(b, f0, h0)
    requires Flag(b) == f0 && Unrevealed(b.tiles) == h0 ==> Clickable(b, todo[k].0, todo[k].1)
    requires b.firstMove && RevealsOnly(b0.tiles, b.tiles) && FreshTargets(b0, todo, k, x, y)
    ensures EachReachPre(b0, ChordRound(b, todo, k, reroll, f0, h0), todo, k + 1, reroll, f0, h0, x, y)
  {
    var b2 := ChordRound(b, todo, k, reroll, f0, h0);
    RevealsOnlyTransitive(b0.tiles, b.tiles, b2.tiles);
    SettledChordOk(b2, todo, k + 1, reroll);
  }

  /** Round `k`'s reach and the reach of the rest of the loop make the reach of the loop from `k`. */
  lemma EachReachStep(b0: Board, b: Board, b2: Board, r: Board, todo: seq<(int, int)>, k: nat, reroll: Grid,
                      f0: nat, h0: set<(int, int)>, x: int, y: int)
    requires k < |todo|
    requires forall i :: 0 <= i < |todo| ==> todo[i].0 >= 0 && todo[i].1 >= 0
    requires ChordRerollOk(b, todo, k, reroll)
    requires Le(b, f0, h0)
    requires Flag(b) == f0 && Unrevealed(b.tiles) == h0 ==> Clickable(b, todo[k].0, todo[k].1)
    requires b.firstMove && b2 == ChordRound(b, todo, k, reroll, f0, h0)
    requires ChordRerollOk(b2, todo, k + 1, reroll) && r == ChordEach(b2, todo, k + 1, reroll, f0, h0)
    requires ReachFrom(b0, b, b2, x, y) && ReachFrom(b0, b2, r, x, y)
    ensures ReachFrom(b0, b, ChordEach(b, todo, k, reroll, f0, h0), x, y)
  {
    ChordEachUnfold(b, todo, k, reroll, f0, h0);
    ReachChain(b0, b, b2, r, x, y);
  }

  lemma ChordRoundReach(b0: Board, b: Board, todo: seq<(int, int)>, k: nat, reroll: Grid, f0: nat, h0: set<(int, int)>,
                        x: int, y: int, r: Board)
    requires k < |todo| && todo[k].0 >= 0 && todo[k].1 >= 0
    requires RerollOk(b, todo[k].0, todo[k].1, reroll)
    requires Le(b, f0, h0)
    requires Flag(b) == f0 && Unrevealed(b.tiles) == h0 ==> Clickable(b, todo[k].0, todo[k].1)
    requires b.firstMove && RevealsOnly(b0.tiles, b.tiles) && FreshTargets(b0, todo, k, x, y)
    requires r == ChordRound(b, todo, k, reroll, f0, h0)
    ensures ReachFrom(b0, b, r, x, y)
    decreases f0, |h0|, 0, 0
  {
    var p := todo[k];
    var b1 := LeftClick(b, p.0, p.1, reroll);
    MeasureFirst(b, b1, f0, h0);
    LtCount(b1, f0, h0);
    SettledChordOk(b1, ChordTargets(b1, p.0, p.1), 0, reroll);
    var b2 := ControlClick(b1, p.0, p.1, reroll);
    assert r == b2;
    if !b.gameOver {
      LeftClickNear(b, p.0, p.1, reroll);
      ChordReach(b1, p.0, p.1, reroll);
      LeftClickFollows(b1, p.0, p.1, reroll);
      LeftReach(b0, b, b1, p, x, y);
      NestedReach(b0, b, b1, b2, p, x, y);
      ReachChain(b0, b, b1, b2, x, y);
    }
  }

  /** A left click after the first move opens its cell and, if that is a mine-free zero, the cells touching the zeros it opens. */
  lemma LeftClickNear(b: Board, x: nat, y: nat, reroll: Grid)
    requires RerollOk(b, x, y, reroll) && b.firstMove && !b.gameOver
    ensures var r := LeftClick(b, x, y, reroll);
      && r.firstMove && RevealsOnly(b.tiles, r.tiles)
      && (InBounds(b.tiles, x, y) && b.tiles[x][y].state != Marked ==>
            r.tiles[x][y].state == Visible && (r.gameOver <==> b.tiles[x][y].isMine))
      && forall a, c :: NewlyOpen(b.tiles, r.tiles, a, c) && (a != x || c != y) ==> NearOwed(b.tiles, r.tiles, a, c)
  {
    RevealReach(b.tiles, x, y);
  }

  /** The round's left click opens the target, which touches (x, y), and cells touching the zeros it opens, which are centres. */
  lemma LeftReach(b0: Board, b: Board, b1: Board, p: (int, int), x: int, y: int)
    requires RevealsOnly(b0.tiles, b.tiles) && RevealsOnly(b.tiles, b1.tiles)
    requires Adjacent(x, y, p.0, p.1)
    requires forall a, c :: NewlyOpen(b.tiles, b1.tiles, a, c) && (a != p.0 || c != p.1) ==> NearOwed(b.tiles, b1.tiles, a, c)
    ensures ReachFrom(b0, b, b1, x, y)
  {
    forall a, c | NewlyOpen(b.tiles, b1.tiles, a, c) && (a != p.0 || c != p.1)
      ensures NearCentre(b0, b1, a, c)
    {
      var d, e :| Owed(b.tiles, b1.tiles, d, e) && Adjacent(d, e, a, c);
      assert Centre(b0, b1, d, e);
      CentreAt(b0, b1, d, e, a, c);
    }
  }

  /**
   * The round's nested chord from target `p`: what it opens touches `p`,
   * which is then a centre, or a centre of the nested chord, which is one
   * of the outer chord too.
   */
  lemma NestedReach(b0: Board, b: Board, b1: Board, b2: Board, p: (int, int), x: int, y: int)
    requires RevealsOnly(b0.tiles, b.tiles) && RevealsOnly(b.tiles, b1.tiles) && RevealsOnly(b1.tiles, b2.tiles)
    requires InBounds(b0.tiles, p.0, p.1) && b0.tiles[p.0][p.1].state != Visible && b0.tiles[p.0][p.1].state != Marked
    requires b1.tiles[p.0][p.1].state == Visible && (b1.gameOver <==> b.tiles[p.0][p.1].isMine)
    requires ChordTargets(b1, p.0, p.1) == [] ==> b2 == b1
    requires ReachFrom(b1, b1, b2, p.0, p.1)
    ensures ReachFrom(b0, b1, b2, x, y)
  {
    RevealsOnlyTransitive(b0.tiles, b.tiles, b1.tiles);
    CentreRebase(b0, b1, b2);
    if ChordTargets(b1, p.0, p.1) != [] {
      TargetCentre(b0, b, b1, b2, p);
      forall a, c | NewlyOpen(b1.tiles, b2.tiles, a, c)
        ensures NearCentre(b0, b2, a, c)
      {
        if Adjacent(p.0, p.1, a, c) {
          CentreAt(b0, b2, p.0, p.1, a, c);
        }
      }
    }
  }

  /** A target whose own chord fires is a centre of the outer chord. */
  lemma TargetCentre(b0: Board, b: Board, b1: Board, b2: Board, p: (int, int))
    requires RevealsOnly(b0.tiles, b.tiles) && RevealsOnly(b0.tiles, b1.tiles) && RevealsOnly(b1.tiles, b2.tiles)
    requires InBounds(b0.tiles, p.0, p.1) && b0.tiles[p.0][p.1].state != Visible
    requires b1.tiles[p.0][p.1].state == Visible && (b1.gameOver <==> b.tiles[p.0][p.1].isMine)
    requires ChordTargets(b1, p.0, p.1) != []
    ensures Centre(b0, b2, p.0, p.1)
  {
    MarkedAroundShrinks(b0.tiles, b1.tiles, p.0, p.1);
  }

  /** Opening cells only removes flags, so a cell has no more flagged neighbours than before. */
  lemma MarkedAroundShrinks(g: Grid, h: Grid, d: int, e: int)
    requires RevealsOnly(g, h)
    ensures MarkedAround(h, d, e) <= MarkedAround(g, d, e)
    ensures |MarkedAround(h, d, e)| <= |MarkedAround(g, d, e)|
  {
    SubsetSize(MarkedAround(h, d, e), MarkedAround(g, d, e));
  }

  /** A centre of a chord started on a later board of the same game is a centre of the earlier chord. */
  lemma CentreRebase(b0: Board, b1: Board, r: Board)
    requires RevealsOnly(b0.tiles, b1.tiles) && RevealsOnly(b1.tiles, r.tiles)
    ensures forall a, c :: NearCentre(b1, r, a, c) ==> NearCentre(b0, r, a, c)
  {
    forall d, e | Centre(b1, r, d, e)
      ensures Centre(b0, r, d, e)
    {
      MarkedAroundShrinks(b0.tiles, b1.tiles, d, e);
    }
  }

  /** Opening more cells keeps every centre a centre. */
  lemma CentreStays(b0: Board, r: Board, s: Board)
    requires RevealsOnly(r.tiles, s.tiles)
    ensures forall a, c :: NearCentre(b0, r, a, c) ==> NearCentre(b0, s, a, c)
  {
    forall d, e | Centre(b0, r, d, e)
      ensures Centre(b0, s, d, e)
    {
    }
  }

  /** Two stretches of the same chord make one. */
  lemma ReachChain(b0: Board, b: Board, b2: Board, r: Board, x: int, y: int)
    requires RevealsOnly(b.tiles, b2.tiles) && RevealsOnly(b2.tiles, r.tiles)
    requires ReachFrom(b0, b, b2, x, y) && ReachFrom(b0, b2, r, x, y)
    ensures ReachFrom(b0, b, r, x, y)
  {
    CentreStays(b0, b2, r);
    forall a, c | NewlyOpen(b.tiles, r.tiles, a, c)
      ensures Adjacent(x, y, a, c) || NearCentre(b0, r, a, c)
    {
      if !NewlyOpen(b2.tiles, r.tiles, a, c) {
        assert NewlyOpen(b.tiles, b2.tiles, a, c);
      }
    }
  }

  // ---------------------------------------------------------------------
  // Right click, the win check, middle click

  /** The flag cycle of a right click: Marked goes back to Hidden, any other closed cell is Marked. */
  function FlagStep(s: TileState): TileState
  {
    match s
    case Visible => Visible
    case Marked => Hidden
    case _ => Marked
  }

  /** The question-mark cycle of a middle click: Question goes back to Hidden, any other closed cell gets one. */
  function QuestionStep(s: TileState): TileState
  {
    match s
    case Visible => Visible
    case Question => Hidden
    case _ => Question
  }

  /** `check_all_mine_state`, column by column. */
  function AllMinesInState(g: Grid, s: TileState): (r: bool)
    ensures r <==> AllMinesIn(g, s)
    decreases |g|
  {
    if |g| == 0 then true
    else
      var n := |g| - 1;
      ColumnSplit(g, s);
      AllMinesInState(g[..n], s) && ColumnMinesIn(g[n], s)
  }

  /** One column of `check_all_mine_state`. */
  function ColumnMinesIn(col: seq<Tile>, s: TileState): bool
  {
    forall j | 0 <= j < |col| :: col[j].isMine ==> col[j].state == s
  }

  lemma ColumnSplit(g: Grid, s: TileState)
    requires |g| > 0
    ensures AllMinesIn(g, s) <==> AllMinesIn(g[..|g| - 1], s) && ColumnMinesIn(g[|g| - 1], s)
  {
    var n := |g| - 1;
    if AllMinesIn(g[..n], s) && ColumnMinesIn(g[n], s) {
      forall a, b | InBounds(g, a, b) && g[a][b].isMine
        ensures g[a][b].state == s
      {
        if a < n {
          assert g[a] == g[..n][a];
          assert InBounds(g[..n], a, b);
        }
      }
    }
    if AllMinesIn(g, s) {
      forall a, b | InBounds(g[..n], a, b) && g[..n][a][b].isMine
        ensures g[..n][a][b].state == s
      {
        assert g[..n][a] == g[a];
        assert InBounds(g, a, b);
      }
      forall j | 0 <= j < |g[n]| && g[n][j].isMine
        ensures g[n][j].state == s
      {
        assert InBounds(g, n, j);
      }
    }
  }

  /** The win: every cell that is not a mine is opened. */
  function RevealSafe(g: Grid): (r: Grid)
    ensures SameShape(r, g)
    ensures forall a, b :: InBounds(g, a, b) ==>
              r[a][b] == (if g[a][b].isMine then g[a][b] else g[a][b].(state := Visible))
  {
    seq(|g|, i requires 0 <= i < |g| =>
      seq(|g[i]|, j requires 0 <= j < |g[i]| =>
        if g[i][j].isMine then g[i][j] else g[i][j].(state := Visible)))
  }

  /** The grid after the flag step of a right click, before the win check. */
  function Flagged(b: Board, x: int, y: int): Grid
  {
    if InBounds(b.tiles, x, y) then SetTile(b.tiles, x, y, b.tiles[x][y].(state := FlagStep(b.tiles[x][y].state)))
    else b.tiles
  }

  /**
   * `right_click`: cycle the flag of (x, y), then end the game as won when
   * every mine is flagged, opening every other cell. Flags on cells
   * without a mine do not prevent the win.
   */
  function RightClick(b: Board, x: nat, y: nat): (r: Board)
    ensures SameField(b.tiles, r.tiles)
    ensures forall a, c :: InBounds(b.tiles, a, c) ==> r.tiles[a][c].fire == b.tiles[a][c].fire
    ensures b.gameOver ==> r == b
    ensures !b.gameOver ==> (r.gameOver <==> AllMinesIn(Flagged(b, x, y), Marked))
    ensures !b.gameOver && InBounds(b.tiles, x, y) && !r.gameOver ==>
              r.tiles[x][y].state == FlagStep(b.tiles[x][y].state)
    ensures !r.gameOver ==>
              forall a, c :: InBounds(b.tiles, a, c) && (a != x || c != y) ==> r.tiles[a][c] == b.tiles[a][c]
    ensures r.gameOver && !b.gameOver ==>
              forall a, c :: InBounds(r.tiles, a, c) ==>
                if r.tiles[a][c].isMine then r.tiles[a][c].state == Marked else r.tiles[a][c].state == Visible
    ensures r.firstMove == (b.firstMove || (!b.gameOver && InBounds(b.tiles, x, y)))
    ensures r.difficulty == b.difficulty && r.renderSize == b.renderSize && r.gameOverPos == b.gameOverPos
  {
    if b.gameOver then b
    else
      var g := Flagged(b, x, y);
      var b1 := b.(tiles := g, firstMove := b.firstMove || InBounds(b.tiles, x, y));
      if AllMinesInState(g, Marked) then b1.(gameOver := true, tiles := RevealSafe(g))
      else b1
  }

  /** Right-clicking a hidden cell twice gives the cell back its state, unless the first click won. */
  lemma RightClickTwice(b: Board, x: nat, y: nat)
    requires !b.gameOver && InBounds(b.tiles, x, y) && b.tiles[x][y].state == Hidden
    requires !AllMinesIn(Flagged(b, x, y), Marked) && !AllMinesIn(b.tiles, Marked)
    ensures RightClick(RightClick(b, x, y), x, y).tiles == b.tiles
  {
    var b1 := RightClick(b, x, y);
    var t := b.tiles[x][y];
    SetTileTwice(b.tiles, x, y, t.(state := Marked), t);
    assert Flagged(b1, x, y) == b.tiles;
  }

  /** Right clicks keep a board valid. */
  lemma RightClickValid(b: Board, x: nat, y: nat)
    requires Valid(b)
    ensures Valid(RightClick(b, x, y))
  {
    var r := RightClick(b, x, y);
    SameFieldKeepsCounts(b.tiles, r.tiles);
    if !r.firstMove {
      assert r == b;
    }
  }

  /** Writing a cell twice keeps the second write; writing a cell back leaves the grid as it was. */
  lemma SetTileTwice(g: Grid, x: int, y: int, t: Tile, u: Tile)
    requires InBounds(g, x, y) && u == g[x][y]
    ensures SetTile(SetTile(g, x, y, t), x, y, u) == g
  {
    var h := SetTile(SetTile(g, x, y, t), x, y, u);
    assert h[x] == g[x];
  }

  /** `middle_click`: cycle the question mark of (x, y); nothing else changes. */
  function MiddleClick(b: Board, x: nat, y: nat): (r: Board)
    ensures SameShape(r.tiles, b.tiles)
    ensures b.gameOver || !InBounds(b.tiles, x, y) ==> r == b
    ensures !b.gameOver && InBounds(b.tiles, x, y) ==>
              && r.firstMove
              && r.tiles[x][y] == b.tiles[x][y].(state := QuestionStep(b.tiles[x][y].state))
    ensures forall a, c :: InBounds(b.tiles, a, c) && (a != x || c != y) ==> r.tiles[a][c] == b.tiles[a][c]
    ensures forall a, c :: InBounds(b.tiles, a, c) && b.tiles[a][c].state == Visible ==> r.tiles[a][c] == b.tiles[a][c]
    ensures r.gameOver == b.gameOver && r.difficulty == b.difficulty && r.renderSize == b.renderSize
  {
    if b.gameOver || !InBounds(b.tiles, x, y) then b
    else
      var t := b.tiles[x][y];
      b.(tiles := SetTile(b.tiles, x, y, t.(state := QuestionStep(t.state))), firstMove := true)
  }

  /** Middle-clicking a hidden cell twice gives the board its cells back. */
  lemma MiddleClickTwice(b: Board, x: nat, y: nat)
    requires !b.gameOver && InBounds(b.tiles, x, y) && b.tiles[x][y].state == Hidden
    ensures MiddleClick(MiddleClick(b, x, y), x, y).tiles == b.tiles
  {
    var t := b.tiles[x][y];
    SetTileTwice(b.tiles, x, y, t.(state := Question), t);
  }

  /** Middle clicks keep a board valid. */
  lemma MiddleClickValid(b: Board, x: nat, y: nat)
    requires Valid(b)
    ensures Valid(MiddleClick(b, x, y))
  {
    var r := MiddleClick(b, x, y);
    assert SameField(b.tiles, r.tiles);
    SameFieldKeepsCounts(b.tiles, r.tiles);
  }

  // ---------------------------------------------------------------------
  // Resizing

  /**
   * `set_max_board_size`: record the new drawing area and, before the first
   * move only, replace the grid with `regen`, a grid generated for it.
   * None stands for the panic when the preset does not fit the new area.
   */
  function SetMaxBoardSize(b: Board, render: (U16, U16), regen: Grid): (r: Option<Board>)
    requires !b.firstMove && Fits(render, b.difficulty) ==> Fresh(regen, b.difficulty, PresetSize(render, b.difficulty))
    ensures r.None? <==> !b.firstMove && !Fits(render, b.difficulty)
    ensures r.Some? ==> r.value.renderSize == render && r.value.firstMove == b.firstMove
    ensures r.Some? ==> r.value.tiles == if b.firstMove then b.tiles else regen
    ensures r.Some? && Valid(b) ==> Valid(r.value)
  {
    if b.firstMove then Some(b.(renderSize := render))
    else if !Fits(render, b.difficulty) then None
    else Some(b.(renderSize := render, tiles := regen))
  }
}

=== FILE: generate.dfy ===
/**
 * `gen_tiles`: mines are placed by rejection sampling and every placement
 * bumps the count of each neighbouring cell. The random number generator
 * is replaced by the sequence of coordinates it would have drawn.
 */
module Generate {
  import opened Options
  import opened Tiles
  import opened Around
  import opened Presets

  /** A `w` by `h` grid of default cells. */
  function Blank(w: nat, h: nat): (g: Grid)
    ensures Rect(g, w, h)
    ensures forall a, b :: InBounds(g, a, b) ==> g[a][b] == DefaultTile
  {
    seq(w, _ => seq(h, _ => DefaultTile))
  }

  /**
   * What generation promises: a `size` rectangle, every cell hidden and
   * unlit, every count exact, and the preset's number of mines.
   */
  ghost predicate Fresh(g: Grid, d: Difficulty, size: Size)
  {
    && size.0 > 0 && size.1 > 0
    && Rect(g, size.0, size.1)
    && (forall a, b :: InBounds(g, a, b) ==> g[a][b].state == Hidden && !g[a][b].fire)
    && WellCounted(g)
    && |MineSet(g)| == MineCount(d)
  }

  /** The callback of the placement loop: count one more mine nearby, match nothing. */
  function CountUp(t: Tile): (bool, Tile)
  {
    (false, t.(bombsNear := t.bombsNear + 1))
  }

  /** One placement: turn (x, y) into a mine and bump every neighbour's count. */
  function PlaceMine(g: Grid, x: int, y: int): (r: Grid)
    requires InBounds(g, x, y)
    ensures SameShape(r, g)
  {
    DoAround(x, y, SetTile(g, x, y, g[x][y].(isMine := true)), CountUp).grid
  }

  lemma BlankCounted(w: nat, h: nat)
    ensures WellCounted(Blank(w, h)) && MineSet(Blank(w, h)) == {}
  {
    var g := Blank(w, h);
    forall x, y | InBounds(g, x, y)
      ensures MinesAround(g, x, y) == {}
    {
    }
  }

  /** Cell by cell, what one placement does. */
  lemma PlaceMineCells(g: Grid, x: int, y: int)
    requires InBounds(g, x, y)
    ensures forall a, b :: InBounds(g, a, b) ==>
              PlaceMine(g, x, y)[a][b]
              == g[a][b].(isMine := (a == x && b == y) || g[a][b].isMine,
                          bombsNear := g[a][b].bombsNear + (if Adjacent(x, y, a, b) then 1 else 0))
  {
  }

  /** Adding one mine at (x, y) adds it to the mines around each of its neighbours and nowhere else. */
  lemma MinesAroundAfterPlacing(g: Grid, g2: Grid, x: int, y: int, a: int, b: int)
    requires SameShape(g, g2) && InBounds(g, x, y) && !g[x][y].isMine
    requires forall i, j :: InBounds(g, i, j) ==> g2[i][j].isMine == ((i == x && j == y) || g[i][j].isMine)
    ensures (x, y) !in MinesAround(g, a, b)
    ensures MinesAround(g2, a, b) == MinesAround(g, a, b) + (if Adjacent(a, b, x, y) then {(x, y)} else {})
  {
    var before := MinesAround(g, a, b);
    var after := MinesAround(g2, a, b);
    forall p | p in after
      ensures p in before || (p == (x, y) && Adjacent(a, b, x, y))
    {
      assert InBounds(g, p.0, p.1);
    }
    forall p | p in before
      ensures p in after
    {
      assert InBounds(g, p.0, p.1);
    }
    if Adjacent(a, b, x, y) {
      assert (x, y) in after;
    }
  }

  lemma PlaceMineCountsCell(g: Grid, g2: Grid, x: int, y: int, a: int, b: int)
    requires InBounds(g, x, y) && !g[x][y].isMine && InBounds(g, a, b)
    requires g[a][b].bombsNear == |MinesAround(g, a, b)|
    requires SameShape(g, g2)
    requires forall i, j :: InBounds(g, i, j) ==> g2[i][j].isMine == ((i == x && j == y) || g[i][j].isMine)
    requires g2[a][b].bombsNear == g[a][b].bombsNear + (if Adjacent(x, y, a, b) then 1 else 0)
    ensures g2[a][b].bombsNear == |MinesAround(g2, a, b)|
  {
    AdjacentSymmetric(x, y, a, b);
    MinesAroundAfterPlacing(g, g2, x, y, a, b);
  }

  /** Placing a mine on a cell that has none keeps every count exact. */
  lemma PlaceMineKeepsCounts(g: Grid, x: int, y: int)
    requires InBounds(g, x, y) && !g[x][y].isMine && WellCounted(g)
    ensures WellCounted(PlaceMine(g, x, y))
  {
    var g2: Grid := PlaceMine(g, x, y);
    PlaceMineCells(g, x, y);
    forall a: int, b: int | InBounds(g2, a, b)
      ensures g2[a][b].bombsNear == |MinesAround(g2, a, b)|
    {
      PlaceMineCountsCell(g, g2, x, y, a, b);
    }
  }

  /** Placing a mine adds exactly that cell to the mines and touches no state or highlight. */
  lemma PlaceMineAddsOne(g: Grid, x: int, y: int)
    requires InBounds(g, x, y)
    ensures MineSet(PlaceMine(g, x, y)) == MineSet(g) + {(x, y)}
    ensures forall a, b :: InBounds(g, a, b) ==>
              PlaceMine(g, x, y)[a][b].state == g[a][b].state && PlaceMine(g, x, y)[a][b].fire == g[a][b].fire
  {
    var g2: Grid := PlaceMine(g, x, y);
    PlaceMineCells(g, x, y);
    MineSetGrows(g, g2, x, y);
  }

  lemma MineSetGrows(g: Grid, g2: Grid, x: int, y: int)
    requires SameShape(g, g2) && InBounds(g, x, y)
    requires forall i, j :: InBounds(g, i, j) ==> g2[i][j].isMine == ((i == x && j == y) || g[i][j].isMine)
    ensures MineSet(g2) == MineSet(g) + {(x, y)}
  {
    forall p | p in MineSet(g2)
      ensures p in MineSet(g) + {(x, y)}
    {
      assert InBounds(g, p.0, p.1);
    }
    forall p | p in MineSet(g) + {(x, y)}
      ensures p in MineSet(g2)
    {
      assert InBounds(g, p.0, p.1);
    }
  }

  /** The distinct coordinates among the first `n` draws. */
  function Drawn(rolls: seq<(int, int)>, n: nat): set<(int, int)>
    requires n <= |rolls|
  {
    set i | 0 <= i < n :: rolls[i]
  }

  /** A grid part-way through generation: rectangle, untouched states, exact counts. */
  ghost predicate Partial(g: Grid, w: nat, h: nat)
  {
    && Rect(g, w, h)
    && (forall a, b :: InBounds(g, a, b) ==> g[a][b].state == Hidden && !g[a][b].fire)
    && WellCounted(g)
  }

  lemma PlaceMineStep(g: Grid, w: nat, h: nat, x: int, y: int)
    requires Partial(g, w, h) && InBounds(g, x, y) && !g[x][y].isMine
    ensures Partial(PlaceMine(g, x, y), w, h)
    ensures MineSet(PlaceMine(g, x, y)) == MineSet(g) + {(x, y)}
  {
    var g2 := PlaceMine(g, x, y);
    assert Rect(g2, w, h);
    PlaceMineKeepsCounts(g, x, y);
    PlaceMineAddsOne(g, x, y);
  }

  /**
   * `gen_tiles`. `rolls` are the coordinates the random source would draw,
   * each inside the board. The result is None when the draws run out
   * before every mine is placed; `used` is how many draws were consumed.
   */
  method GenTiles(d: Difficulty, sizes: Sizes, rolls: seq<(int, int)>) returns (r: Option<Grid>, used: nat)
    requires SizeFor(sizes, d).0 > 0 && SizeFor(sizes, d).1 > 0
    requires forall i :: 0 <= i < |rolls| ==>
               0 <= rolls[i].0 < SizeFor(sizes, d).0 && 0 <= rolls[i].1 < SizeFor(sizes, d).1
    ensures used <= |rolls|
    ensures r.Some? ==> Fresh(r.value, d, SizeFor(sizes, d)) && MineSet(r.value) == Drawn(rolls, used)
    ensures r.None? <==> |Drawn(rolls, |rolls|)| < MineCount(d)
  {
    var size := SizeFor(sizes, d);
    var g := Blank(size.0, size.1);
    BlankCounted(size.0, size.1);
    var mines := MineCount(d);
    var i := 0;
    while mines > 0 && i < |rolls|
      invariant i <= |rolls|
      invariant Partial(g, size.0, size.1)
      invariant MineSet(g) == Drawn(rolls, i)
      invariant |MineSet(g)| + mines == MineCount(d)
    {
      var p := rolls[i];
      DrawStep(g, size.0, size.1, rolls, i);
      i := i + 1;
      if g[p.0][p.1].isMine {
        continue;
      }
      g := PlaceMine(g, p.0, p.1);
      mines := mines - 1;
    }
    used := i;
    if mines > 0 {
      r := None;
    } else {
      r := Some(g);
      DrawnGrows(rolls, i, |rolls|);
    }
  }

  /** One draw: a drawn mine is skipped, a new cell becomes a mine, and the grid stays generated. */
  lemma DrawStep(g: Grid, w: nat, h: nat, rolls: seq<(int, int)>, i: nat)
    requires i < |rolls| && 0 <= rolls[i].0 < w && 0 <= rolls[i].1 < h
    requires Partial(g, w, h) && MineSet(g) == Drawn(rolls, i)
    ensures InBounds(g, rolls[i].0, rolls[i].1)
    ensures var p := rolls[i];
      g[p.0][p.1].isMine ==> MineSet(g) == Drawn(rolls, i + 1)
    ensures var p := rolls[i];
      !g[p.0][p.1].isMine ==>
        && Partial(PlaceMine(g, p.0, p.1), w, h)
        && MineSet(PlaceMine(g, p.0, p.1)) == Drawn(rolls, i + 1)
        && |MineSet(PlaceMine(g, p.0, p.1))| == |MineSet(g)| + 1
  {
    var p := rolls[i];
    assert Drawn(rolls, i + 1) == Drawn(rolls, i) + {p};
    assert InBounds(g, p.0, p.1);
    if g[p.0][p.1].isMine {
      assert p in MineSet(g);
    } else {
      assert p !in MineSet(g);
      PlaceMineStep(g, w, h, p.0, p.1);
    }
  }

  lemma DrawnGrows(rolls: seq<(int, int)>, m: nat, n: nat)
    requires m <= n <= |rolls|
    ensures |Drawn(rolls, m)| <= |Drawn(rolls, n)|
  {
    var small, large := Drawn(rolls, m), Drawn(rolls, n);
    assert large == small + (large - small);
  }
}

=== FILE: keys.dfy ===
/**
 * The keyboard handler of the terminal front end: quitting, the difficulty
 * picker, and starting a new game. Starting a game belongs to the board;
 * here it is only reported, as a flag on the outcome.
 */
module Keys {
  import opened Tiles

  datatype Modifier = Shift | Control | Alt | Super | Hyper | Meta

  datatype KeyCode = Esc | Enter | Up | Down | Char(c: char) | Other

  /** A key press: the key and the set of modifiers held with it. */
  datatype KeyEvent = KeyEvent(code: KeyCode, modifiers: set<Modifier>)

  /** The part of the application the keys act on. */
  datatype AppKeys = AppKeys(shouldQuit: bool, changeDifficulty: bool, difficulty: Difficulty)

  /** The state after a key, and whether the key asked the board for a new game. */
  datatype Outcome = Outcome(state: AppKeys, newGame: bool)

  /** The next difficulty down the picker, wrapping from Hard to Easy. */
  function Next(d: Difficulty): Difficulty
  {
    match d
    case Easy => Medium
    case Medium => Hard
    case Hard => Easy
  }

  /** The next difficulty up the picker, wrapping from Easy to Hard. */
  function Prev(d: Difficulty): Difficulty
  {
    match d
    case Easy => Hard
    case Medium => Easy
    case Hard => Medium
  }

  predicate IsQuitKey(code: KeyCode)
  {
    code == Esc || code == Char('q') || code == Char('Q')
  }

  predicate IsPickerKey(code: KeyCode)
  {
    code == Char('c') || code == Char('C')
  }

  predicate IsNewGameKey(code: KeyCode)
  {
    code == Char('r') || code == Char('R')
  }

  /** Control and nothing else held: what makes c quit. */
  predicate ControlOnly(mods: set<Modifier>)
  {
    mods == {Control}
  }

  /** `handle_keys`: one key press against the application state. */
  function HandleKeys(app: AppKeys, key: KeyEvent): (r: Outcome)
    ensures r.newGame <==> IsNewGameKey(key.code)
    ensures app.shouldQuit ==> r.state.shouldQuit
    ensures r.state.shouldQuit && !app.shouldQuit ==>
              (IsQuitKey(key.code) && !app.changeDifficulty)
              || (IsPickerKey(key.code) && ControlOnly(key.modifiers))
    ensures r.state.difficulty != app.difficulty ==>
              app.changeDifficulty && r.state.changeDifficulty && (key.code == Up || key.code == Down)
    ensures r.state.difficulty in {app.difficulty, Next(app.difficulty), Prev(app.difficulty)}
    ensures app.changeDifficulty && key.code == Down ==> r.state.difficulty == Next(app.difficulty)
    ensures app.changeDifficulty && key.code == Up ==> r.state.difficulty == Prev(app.difficulty)
    ensures r.state.changeDifficulty != app.changeDifficulty ==>
              IsQuitKey(key.code) || IsPickerKey(key.code) || key.code == Enter
    ensures r.state.changeDifficulty && !app.changeDifficulty ==> IsPickerKey(key.code) && !ControlOnly(key.modifiers)
  {
    match key.code
    case Esc => Outcome(Back(app), false)
    case Char(c) =>
      if c == 'q' || c == 'Q' then Outcome(Back(app), false)
      else if c == 'c' || c == 'C' then
        if ControlOnly(key.modifiers) then Outcome(app.(shouldQuit := true), false)
        else Outcome(app.(changeDifficulty := !app.changeDifficulty), false)
      else if c == 'r' || c == 'R' then Outcome(app, true)
      else Outcome(app, false)
    case Enter => Outcome(app.(changeDifficulty := false), false)
    case Up =>
      if app.changeDifficulty then Outcome(app.(difficulty := Prev(app.difficulty)), false)
      else Outcome(app, false)
    case Down =>
      if app.changeDifficulty then Outcome(app.(difficulty := Next(app.difficulty)), false)
      else Outcome(app, false)
    case Other => Outcome(app, false)
  }

  /** Esc and q: close the picker when it is open, quit otherwise. */
  function Back(app: AppKeys): AppKeys
  {
    if app.changeDifficulty then app.(changeDifficulty := false) else app.(shouldQuit := true)
  }

  function Press(code: KeyCode): KeyEvent
  {
    KeyEvent(code, {})
  }

  /**
   * Going down the picker three times comes back to where it started,
   * passing every difficulty in the order Easy, Medium, Hard.
   */
  lemma DownCycles(app: AppKeys)
    requires app.changeDifficulty
    ensures var s1 := HandleKeys(app, Press(Down)).state;
      var s2 := HandleKeys(s1, Press(Down)).state;
      var s3 := HandleKeys(s2, Press(Down)).state;
      && s3 == app && {app.difficulty, s1.difficulty, s2.difficulty} == {Easy, Medium, Hard}
      && (app.difficulty == Easy ==> s1.difficulty == Medium && s2.difficulty == Hard)
  {
  }

  /** Up undoes Down, and Down undoes Up, while the picker is open. */
  lemma UpUndoesDown(app: AppKeys)
    requires app.changeDifficulty
    ensures HandleKeys(HandleKeys(app, Press(Down)).state, Press(Up)).state == app
    ensures HandleKeys(HandleKeys(app, Press(Up)).state, Press(Down)).state == app
  {
  }

  /** With the picker closed, Up and Down do nothing. */
  lemma ArrowsNeedPicker(app: AppKeys, key: KeyEvent)
    requires !app.changeDifficulty && (key.code == Up || key.code == Down)
    ensures HandleKeys(app, key) == Outcome(app, false)
  {
  }

  /** c without Control only toggles the picker: pressing it twice changes nothing. */
  lemma PickerToggleTwice(app: AppKeys, key: KeyEvent)
    requires IsPickerKey(key.code) && !ControlOnly(key.modifiers)
    ensures HandleKeys(app, key).state.changeDifficulty == !app.changeDifficulty
    ensures HandleKeys(HandleKeys(app, key).state, key) == Outcome(app, false)
  {
  }

  /** Control-c quits whatever the picker shows; with any other modifier set it does not. */
  lemma ControlCQuits(app: AppKeys, key: KeyEvent)
    requires IsPickerKey(key.code)
    ensures HandleKeys(app, key).state.shouldQuit <==> app.shouldQuit || key.modifiers == {Control}
  {
  }

  /** Esc and q leave the picker without quitting, and quit when it is closed. */
  lemma QuitKeyBacksOut(app: AppKeys, key: KeyEvent)
    requires IsQuitKey(key.code)
    ensures var r := HandleKeys(app, key).state;
      && !r.changeDifficulty
      && (r.shouldQuit <==> app.shouldQuit || !app.changeDifficulty)
      && r.difficulty == app.difficulty
  {
  }

  /** Enter closes the picker and changes nothing else. */
  lemma EnterClosesPicker(app: AppKeys)
    ensures HandleKeys(app, Press(Enter)) == Outcome(app.(changeDifficulty := false), false)
  {
  }

  /** Keys the handler does not list change nothing. */
  lemma OtherKeysIgnored(app: AppKeys, key: KeyEvent)
    requires !IsQuitKey(key.code) && !IsPickerKey(key.code) && !IsNewGameKey(key.code)
    requires key.code != Enter && key.code != Up && key.code != Down
    ensures HandleKeys(app, key) == Outcome(app, false)
  {
  }
}

=== FILE: ledger.dfy ===
/**
 * The leaderboard file: one score per line, written as "<Difficulty>: <seconds>".
 * Reading keeps the lines that parse; writing merges the old and the new
 * scores, sorts the lines and drops repeats.
 */
module Ledger {
  import opened Options
  import opened Tiles
  import opened Text

  type Nanos = n: int | 0 <= n < 1_000_000_000

  /** A `Duration`: whole seconds and the nanoseconds below one second. */
  datatype Duration = Duration(secs: U64, nanos: Nanos)

  datatype Score = Score(difficulty: Difficulty, time: Duration)

  /** `Difficulty::as_static_str`. */
  function DifficultyName(d: Difficulty): (s: string)
    ensures forall i :: 0 <= i < |s| ==> s[i] != ':'
  {
    match d
    case Easy => "Easy"
    case Medium => "Medium"
    case Hard => "Hard"
  }

  /** The difficulty a name stands for; only the three exact names are recognised. */
  function ParseDifficulty(s: string): (r: Option<Difficulty>)
    ensures r.Some? ==> DifficultyName(r.value) == s
    ensures forall d :: s == DifficultyName(d) ==> r == Some(d)
  {
    if s == "Easy" then Some(Easy)
    else if s == "Medium" then Some(Medium)
    else if s == "Hard" then Some(Hard)
    else None
  }

  /** `Score::as_string`: the difficulty's name, ": ", and the whole seconds; the fraction is dropped. */
  function AsString(sc: Score): (r: string)
    ensures SplitOnce(r) == Some((DifficultyName(sc.difficulty), NatToString(sc.time.secs)))
  {
    SplitOnceJoin(DifficultyName(sc.difficulty), NatToString(sc.time.secs));
    DifficultyName(sc.difficulty) + ": " + NatToString(sc.time.secs)
  }

  /** `parse_line`: split at the first ": ", read a difficulty name before it and whole seconds after it. */
  function ParseLine(line: string): (r: Option<Score>)
    ensures r.Some? ==> r.value.time.nanos == 0
    ensures r.Some? ==> exists tail :: line == DifficultyName(r.value.difficulty) + ": " + tail
                                      && ParseU64(tail) == Some(r.value.time.secs)
  {
    match SplitOnce(line)
    case None => None
    case Some((name, tail)) =>
      match (ParseDifficulty(name), ParseU64(tail))
      case (Some(d), Some(secs)) => Some(Score(d, Duration(secs, 0)))
      case _ => None
  }

  /** Conversely, every line made of a difficulty name, ": " and a number of 64 bits parses. */
  lemma ParseLineComplete(d: Difficulty, tail: string)
    requires ParseU64(tail).Some?
    ensures ParseLine(DifficultyName(d) + ": " + tail) == Some(Score(d, Duration(ParseU64(tail).value, 0)))
  {
    SplitOnceJoin(DifficultyName(d), tail);
  }

  /** A score written out reads back as the same difficulty and the same whole seconds. */
  lemma ParseAsString(sc: Score)
    ensures ParseLine(AsString(sc)) == Some(Score(sc.difficulty, Duration(sc.time.secs, 0)))
  {
    ParseNatToString(sc.time.secs);
    ParseLineComplete(sc.difficulty, NatToString(sc.time.secs));
  }

  // ---------------------------------------------------------------------
  // Reading

  /** The score on one line of the file; None for a line that could not be read as text. */
  function LineScore(line: Option<string>): Option<Score>
  {
    if line.Some? then ParseLine(line.value) else None
  }

  /** The score of every line, in file order. */
  function LineScores(lines: seq<Option<string>>): (r: seq<Option<Score>>)
    ensures |r| == |lines|
    ensures forall i :: 0 <= i < |r| ==> r[i] == LineScore(lines[i])
  {
    seq(|lines|, i requires 0 <= i < |lines| => LineScore(lines[i]))
  }

  /** The values of the entries that are present, in order. */
  function Present(opts: seq<Option<Score>>): (r: seq<Score>)
    ensures |r| <= |opts|
    decreases |opts|
  {
    if |opts| == 0 then []
    else
      var n := |opts| - 1;
      if opts[n].Some? then Present(opts[..n]) + [opts[n].value] else Present(opts[..n])
  }

  /** The scores of the lines that parse, in file order. */
  function Keep(lines: seq<Option<string>>): seq<Score>
  {
    Present(LineScores(lines))
  }

  /** What is kept is exactly what is present: nothing invented, nothing lost. */
  lemma {:induction false} PresentExactly(opts: seq<Option<Score>>)
    ensures forall i :: 0 <= i < |Present(opts)| ==> Some(Present(opts)[i]) in opts
    ensures forall j :: 0 <= j < |opts| && opts[j].Some? ==> opts[j].value in Present(opts)
    decreases |opts|
  {
    if |opts| > 0 {
      var n := |opts| - 1;
      PresentExactly(opts[..n]);
      var front := Present(opts[..n]);
      forall i | 0 <= i < |Present(opts)|
        ensures Some(Present(opts)[i]) in opts
      {
        if i < |front| {
          assert Present(opts)[i] == front[i];
          assert Some(front[i]) in opts[..n];
        }
      }
      forall j | 0 <= j < |opts| && opts[j].Some?
        ensures opts[j].value in Present(opts)
      {
        if j < n {
          assert opts[..n][j] == opts[j];
        }
      }
    }
  }

  /** Reading a file in two parts gives the scores of the parts, one after the other. */
  lemma {:induction false} PresentAppend(a: seq<Option<Score>>, b: seq<Option<Score>>)
    ensures Present(a + b) == Present(a) + Present(b)
    decreases |b|
  {
    if |b| > 0 {
      var n := |b| - 1;
      assert (a + b)[..|a + b| - 1] == a + b[..n];
      PresentAppend(a, b[..n]);
    } else {
      assert a + b == a;
    }
  }

  /** One more entry. */
  lemma PresentStep(opts: seq<Option<Score>>, i: nat)
    requires i < |opts|
    ensures Present(opts[..i + 1]) ==
              if opts[i].Some? then Present(opts[..i]) + [opts[i].value] else Present(opts[..i])
  {
    assert opts[..i + 1][..i] == opts[..i];
  }

  /** When every entry is present, all of them are kept, in order. */
  lemma {:induction false} PresentAll(opts: seq<Option<Score>>)
    requires forall i :: 0 <= i < |opts| ==> opts[i].Some?
    ensures |Present(opts)| == |opts|
    ensures forall i :: 0 <= i < |opts| ==> Present(opts)[i] == opts[i].value
    decreases |opts|
  {
    if |opts| > 0 {
      var n := |opts| - 1;
      PresentAll(opts[..n]);
      forall i | 0 <= i < n
        ensures Present(opts)[i] == opts[i].value
      {
        assert opts[..n][i] == opts[i];
      }
    }
  }

  /** `read_leaderboard` once the file is open: None when no line parses. */
  method ReadLeaderboard(lines: seq<Option<string>>) returns (r: Option<seq<Score>>)
    ensures r.None? <==> Keep(lines) == []
    ensures r.Some? ==> r.value == Keep(lines)
  {
    ghost var opts := LineScores(lines);
    var scores: seq<Score> := [];
    var i := 0;
    while i < |lines|
      invariant i <= |lines|
      invariant scores == Present(opts[..i])
    {
      PresentStep(opts, i);
      var score := LineScore(lines[i]);
      if score.Some? {
        scores := scores + [score.value];
      }
      i := i + 1;
    }
    assert opts[..i] == opts;
    if scores == [] {
      r := None;
    } else {
      r := Some(scores);
    }
  }

  // ---------------------------------------------------------------------
  // Writing

  predicate Sorted(s: seq<string>)
  {
    forall i, j :: 0 <= i < j < |s| ==> LessEq(s[i], s[j])
  }

  predicate StrictlySorted(s: seq<string>)
  {
    forall i, j :: 0 <= i < j < |s| ==> Less(s[i], s[j])
  }

  /** Put `x` into the sorted list `s` in front of the first entry it does not exceed. */
  function Insert(x: string, s: seq<string>): (r: seq<string>)
    ensures multiset(r) == multiset(s) + multiset{x}
    ensures Sorted(s) ==> Sorted(r)
    decreases |s|
  {
    if |s| == 0 then [x]
    else if LessEq(x, s[0]) then
      InsertFront(x, s);
      [x] + s
    else
      var rest := Insert(x, s[1..]);
      assert s == [s[0]] + s[1..];
      InsertBehind(x, s, rest);
      [s[0]] + rest
  }

  lemma InsertFront(x: string, s: seq<string>)
    requires |s| > 0 && LessEq(x, s[0])
    ensures Sorted(s) ==> Sorted([x] + s)
  {
    if Sorted(s) {
      var r := [x] + s;
      forall i, j | 0 <= i < j < |r|
        ensures LessEq(r[i], r[j])
      {
        if i == 0 && j > 1 {
          LessEqTransitive(x, s[0], s[j - 1]);
        }
      }
    }
  }

  lemma InsertBehind(x: string, s: seq<string>, rest: seq<string>)
    requires |s| > 0 && !LessEq(x, s[0])
    requires multiset(rest) == multiset(s[1..]) + multiset{x}
    requires Sorted(s[1..]) ==> Sorted(rest)
    ensures Sorted(s) ==> Sorted([s[0]] + rest)
  {
    if Sorted(s) {
      LessTotal(x, s[0]);
      var r := [s[0]] + rest;
      assert Sorted(s[1..]) by {
        forall i, j | 0 <= i < j < |s[1..]|
          ensures LessEq(s[1..][i], s[1..][j])
        {
          assert s[1..][i] == s[i + 1] && s[1..][j] == s[j + 1];
        }
      }
      forall i, j | 0 <= i < j < |r|
        ensures LessEq(r[i], r[j])
      {
        if i == 0 {
          var y := rest[j - 1];
          assert y in multiset(rest);
          if y != x {
            assert y in multiset(s[1..]);
            var k :| 0 <= k < |s[1..]| && s[1..][k] == y;
            assert s[k + 1] == y;
          }
        }
      }
    }
  }

  /** Insertion sort: the sorted arrangement of `s`. */
  function Sort(s: seq<string>): (r: seq<string>)
    ensures multiset(r) == multiset(s)
    ensures Sorted(r)
    decreases |s|
  {
    if |s| == 0 then []
    else
      assert s == [s[0]] + s[1..];
      Insert(s[0], Sort(s[1..]))
  }

  /** `Vec::dedup`: drop every entry equal to the one before it. */
  function Dedup(s: seq<string>): (r: seq<string>)
    ensures forall x :: x in r <==> x in s
    ensures |r| <= |s|
    ensures |s| > 0 ==> |r| > 0 && r[0] == s[0]
    ensures Sorted(s) ==> StrictlySorted(r)
    decreases |s|
  {
    if |s| <= 1 then s
    else if s[0] == s[1] then
      var r := Dedup(s[1..]);
      assert forall x :: x in s <==> x in s[1..] by {
        assert s == [s[0]] + s[1..];
      }
      SortedTail(s);
      r
    else
      var rest := Dedup(s[1..]);
      assert s == [s[0]] + s[1..];
      SortedTail(s);
      DedupFront(s, rest);
      [s[0]] + rest
  }

  lemma SortedTail(s: seq<string>)
    requires |s| > 0
    ensures Sorted(s) ==> Sorted(s[1..])
  {
    if Sorted(s) {
      forall i, j | 0 <= i < j < |s[1..]|
        ensures LessEq(s[1..][i], s[1..][j])
      {
        assert s[1..][i] == s[i + 1] && s[1..][j] == s[j + 1];
      }
    }
  }

  lemma DedupFront(s: seq<string>, rest: seq<string>)
    requires |s| > 1 && s[0] != s[1]
    requires forall x :: x in rest <==> x in s[1..]
    requires Sorted(s[1..]) ==> StrictlySorted(rest)
    ensures Sorted(s) ==> StrictlySorted([s[0]] + rest)
  {
    if Sorted(s) {
      SortedTail(s);
      var r := [s[0]] + rest;
      forall i, j | 0 <= i < j < |r|
        ensures Less(r[i], r[j])
      {
        if i == 0 {
          var y := rest[j - 1];
          assert y in s[1..];
          var k :| 0 <= k < |s[1..]| && s[1..][k] == y;
          assert s[k + 1] == y;
          assert Less(s[0], s[1]);
          if k > 0 {
            LessEqTransitive(s[0], s[1], y);
          }
        }
      }
    }
  }

  function Strings(scores: seq<Score>): (r: seq<string>)
    ensures |r| == |scores|
    ensures forall i :: 0 <= i < |r| ==> r[i] == AsString(scores[i])
  {
    seq(|scores|, i requires 0 <= i < |scores| => AsString(scores[i]))
  }

  /**
   * The lines `write_leaderboard` writes: the scores read from the file
   * (none when it holds no score) followed by the new ones, as strings,
   * sorted, with repeats dropped.
   */
  function Merge(existing: Option<seq<Score>>, added: seq<Score>): (r: seq<string>)
    ensures StrictlySorted(r)
    ensures forall x :: x in r <==>
              x in Strings((if existing.Some? then existing.value else []) + added)
  {
    var all := (if existing.Some? then existing.value else []) + added;
    var sorted := Sort(Strings(all));
    assert forall x :: x in sorted <==> x in multiset(sorted);
    Dedup(sorted)
  }

  // ---------------------------------------------------------------------
  // Properties of the merge

  /** Two sorted arrangements of the same strings are the same list: which sort runs does not matter. */
  lemma {:induction false} SortedUnique(a: seq<string>, b: seq<string>)
    requires Sorted(a) && Sorted(b) && multiset(a) == multiset(b)
    ensures a == b
    decreases |a|
  {
    if |a| > 0 {
      SortedHeads(a, b);
      SortedTail(a);
      SortedTail(b);
      SortedUnique(a[1..], b[1..]);
      assert a == [a[0]] + a[1..] && b == [b[0]] + b[1..];
    }
  }

  /** Two sorted arrangements of the same strings start alike, and so do the rest of them. */
  lemma SortedHeads(a: seq<string>, b: seq<string>)
    requires Sorted(a) && Sorted(b) && multiset(a) == multiset(b) && |a| > 0
    ensures |b| > 0 && a[0] == b[0] && multiset(a[1..]) == multiset(b[1..])
  {
    SmallestFirst(a, b);
    assert a == [a[0]] + a[1..] && b == [b[0]] + b[1..];
    assert multiset(a[1..]) == multiset(a) - multiset{a[0]};
    assert multiset(b[1..]) == multiset(b) - multiset{b[0]};
  }

  lemma SmallestFirst(a: seq<string>, b: seq<string>)
    requires Sorted(a) && Sorted(b) && multiset(a) == multiset(b) && |a| > 0
    ensures |b| > 0 && a[0] == b[0]
  {
    assert |b| == |multiset(b)| == |a|;
    assert a[0] in multiset(b) && b[0] in multiset(a);
    var i :| 0 <= i < |b| && b[i] == a[0];
    var j :| 0 <= j < |a| && a[j] == b[0];
    assert LessEq(b[0], a[0]) by {
      if i > 0 {
        assert LessEq(b[0], b[i]);
      }
    }
    assert LessEq(a[0], b[0]) by {
      if j > 0 {
        assert LessEq(a[0], a[j]);
      }
    }
    if a[0] != b[0] {
      LessAsymmetric(a[0], b[0]);
    }
  }

  /** Any sorted permutation of `s` is the one `Sort` builds. */
  lemma SortIsTheSortedPermutation(s: seq<string>, t: seq<string>)
    requires Sorted(t) && multiset(t) == multiset(s)
    ensures t == Sort(s)
  {
    SortedUnique(t, Sort(s));
  }

  /** Sorting a sorted list leaves it as it is. */
  lemma SortSorted(s: seq<string>)
    requires Sorted(s)
    ensures Sort(s) == s
  {
    SortIsTheSortedPermutation(s, s);
  }

  /** Dropping repeats from a list without repeats leaves it as it is. */
  lemma {:induction false} DedupStrict(s: seq<string>)
    requires StrictlySorted(s)
    ensures Dedup(s) == s
    decreases |s|
  {
    if |s| > 1 {
      LessAsymmetric(s[0], s[1]);
      assert StrictlySorted(s[1..]) by {
        forall i, j | 0 <= i < j < |s[1..]|
          ensures Less(s[1..][i], s[1..][j])
        {
          assert s[1..][i] == s[i + 1] && s[1..][j] == s[j + 1];
        }
      }
      DedupStrict(s[1..]);
      assert s == [s[0]] + s[1..];
    }
  }

  /** A line written by the merge: it parses, and writes back as itself. */
  predicate Canonical(x: string)
  {
    ParseLine(x).Some? && AsString(ParseLine(x).value) == x
  }

  lemma AsStringCanonical(sc: Score)
    ensures Canonical(AsString(sc))
  {
    ParseAsString(sc);
  }

  /** The lines of a file as it reads back: each line is read as text. */
  function Lines(text: seq<string>): (r: seq<Option<string>>)
    ensures |r| == |text|
    ensures forall i :: 0 <= i < |r| ==> r[i] == Some(text[i])
  {
    seq(|text|, i requires 0 <= i < |text| => Some(text[i]))
  }

  /** Reading back lines that are all canonical gives back scores that write as the same lines. */
  lemma KeepCanonical(text: seq<string>)
    requires forall i :: 0 <= i < |text| ==> Canonical(text[i])
    ensures Strings(Keep(Lines(text))) == text
  {
    var opts := LineScores(Lines(text));
    forall i | 0 <= i < |opts|
      ensures opts[i] == ParseLine(text[i]) && opts[i].Some?
    {
      assert Lines(text)[i] == Some(text[i]);
    }
    PresentAll(opts);
    var back := Strings(Present(opts));
    forall i | 0 <= i < |text|
      ensures back[i] == text[i]
    {
      assert Present(opts)[i] == ParseLine(text[i]).value;
    }
    assert back == text;
  }

  /** Scores with whole seconds, written one per line, read back as themselves, in order. */
  lemma ReadWritten(scores: seq<Score>)
    requires forall i :: 0 <= i < |scores| ==> scores[i].time.nanos == 0
    ensures Keep(Lines(Strings(scores))) == scores
  {
    var opts := LineScores(Lines(Strings(scores)));
    forall i | 0 <= i < |opts|
      ensures opts[i] == Some(scores[i])
    {
      ParseAsString(scores[i]);
    }
    PresentAll(opts);
  }

  /** `read_leaderboard` on the lines of a file, as a function. */
  function ReadBack(text: seq<string>): (r: Option<seq<Score>>)
    ensures r.None? <==> Keep(Lines(text)) == []
  {
    var kept := Keep(Lines(text));
    if kept == [] then None else Some(kept)
  }

  /**
   * Writing is idempotent: reading the written leaderboard back and writing
   * it again with no new scores produces the same lines.
   */
  lemma MergeIdempotent(existing: Option<seq<Score>>, added: seq<Score>)
    ensures var r := Merge(existing, added);
      Merge(ReadBack(r), []) == r
  {
    var r := Merge(existing, added);
    assert forall i :: 0 <= i < |r| ==> Canonical(r[i]) by {
      forall i | 0 <= i < |r|
        ensures Canonical(r[i])
      {
        MergeLineCanonical(existing, added, i);
      }
    }
    KeepCanonical(r);
    MergeSorted(r);
    MergeOfWritten(r);
  }

  /** Merging the scores read back from already merged lines, with nothing new. */
  lemma MergeOfWritten(r: seq<string>)
    requires Strings(Keep(Lines(r))) == r && StrictlySorted(r) && Sorted(r)
    ensures Merge(ReadBack(r), []) == r
  {
    var back := ReadBack(r);
    assert (if back.Some? then back.value else []) + [] == Keep(Lines(r));
    SortSorted(r);
    DedupStrict(r);
  }

  lemma MergeSorted(r: seq<string>)
    requires StrictlySorted(r)
    ensures Sorted(r)
  {
    forall i, j | 0 <= i < j < |r|
      ensures LessEq(r[i], r[j])
    {
    }
  }

  /** Every merged line is the line of one of the scores merged. */
  lemma MergeLineSource(existing: Option<seq<Score>>, added: seq<Score>, i: nat) returns (sc: Score)
    requires i < |Merge(existing, added)|
    ensures Merge(existing, added)[i] == AsString(sc)
  {
    var all := (if existing.Some? then existing.value else []) + added;
    var r := Merge(existing, added);
    assert r[i] in r;
    assert r[i] in Strings(all);
    var k :| 0 <= k < |Strings(all)| && Strings(all)[k] == r[i];
    sc := all[k];
  }

  lemma MergeLineCanonical(existing: Option<seq<Score>>, added: seq<Score>, i: nat)
    requires i < |Merge(existing, added)|
    ensures Canonical(Merge(existing, added)[i])
  {
    var sc := MergeLineSource(existing, added, i);
    AsStringCanonical(sc);
  }
}

=== FILE: presets.dfy ===
/**
 * Choosing the board dimensions of the three presets from the size of the
 * area the board is drawn in.
 */
module Presets {
  import opened Options
  import opened Tiles

  type U16 = n: int | 0 <= n < 0x1_0000

  /** Board dimensions as (columns, rows). */
  type Size = (nat, nat)

  /** One preset size per difficulty, in enum order; (0, 0) where nothing fitted. */
  datatype Sizes = Sizes(easy: Size, medium: Size, hard: Size)

  function SizeFor(sizes: Sizes, d: Difficulty): Size
  {
    match d
    case Easy => sizes.easy
    case Medium => sizes.medium
    case Hard => sizes.hard
  }

  /** Medium candidates, each of area 252, listed smallest-height first; the search runs from the back. */
  const MediumCandidates: seq<Size> := [(36, 7), (28, 9), (21, 12), (18, 14)]

  /** Hard candidates, each of area 480, listed as in the program; the search runs from the back. */
  const HardCandidates: seq<Size> := [(8, 60), (10, 48), (12, 40), (15, 32), (16, 30), (20, 24)]

  function Swap(s: Size): Size
  {
    (s.1, s.0)
  }

  /** Every cell is three columns wide and three rows high, plus a frame of 12 columns and 2 rows. */
  predicate CheckCompatible(board: Size, render: (U16, U16))
  {
    board.0 * 3 + 12 <= render.0 && board.1 * 3 + 2 <= render.1
  }

  /** A candidate fits when it does in either orientation. */
  predicate EitherFits(c: Size, render: (U16, U16))
  {
    CheckCompatible(c, render) || CheckCompatible(Swap(c), render)
  }

  /** The orientation the search takes for a fitting candidate: as listed if that fits, else swapped. */
  function Orient(c: Size, render: (U16, U16)): Size
  {
    if CheckCompatible(c, render) then c else Swap(c)
  }

  /**
   * The search of `get_compatible_sizes`, scanning `cands[..n]` from the back:
   * the index of the first candidate that fits in either orientation.
   */
  function FirstFit(cands: seq<Size>, render: (U16, U16), n: nat): (r: Option<nat>)
    requires n <= |cands|
    ensures r.None? <==> forall j :: 0 <= j < n ==> !EitherFits(cands[j], render)
    ensures r.Some? ==> r.value < n && EitherFits(cands[r.value], render)
    ensures r.Some? ==> forall j :: r.value < j < n ==> !EitherFits(cands[j], render)
  {
    if n == 0 then None
    else if EitherFits(cands[n - 1], render) then Some(n - 1)
    else FirstFit(cands, render, n - 1)
  }

  /**
   * `r` is the last listed candidate that fits in either orientation, taken
   * as listed when that fits and swapped otherwise.
   */
  ghost predicate LastFit(cands: seq<Size>, render: (U16, U16), r: Size)
  {
    exists i :: 0 <= i < |cands| && EitherFits(cands[i], render) && r == Orient(cands[i], render)
                && forall j :: i < j < |cands| ==> !EitherFits(cands[j], render)
  }

  /** The size the search settles on: the last listed candidate that fits, oriented to fit, or (0, 0) when none fits. */
  function Pick(cands: seq<Size>, render: (U16, U16), ghost area: nat): (r: Size)
    requires forall j :: 0 <= j < |cands| ==> cands[j].0 * cands[j].1 == area && cands[j] != (0, 0)
    ensures r == (0, 0) <==> forall j :: 0 <= j < |cands| ==> !EitherFits(cands[j], render)
    ensures r != (0, 0) ==> CheckCompatible(r, render) && r.0 * r.1 == area
    ensures r != (0, 0) ==> LastFit(cands, render, r)
  {
    match FirstFit(cands, render, |cands|)
    case None => (0, 0)
    case Some(i) =>
      var c := cands[i];
      assert c.1 * c.0 == c.0 * c.1;
      assert Orient(c, render) != (0, 0) by {
        assert c != (0, 0);
      }
      Orient(c, render)
  }

  /**
   * `get_compatible_sizes`. None stands for the panic raised when not even
   * the Easy board fits; Medium and Hard stay (0, 0) when nothing fits.
   */
  function CompatibleSizes(render: (U16, U16)): (r: Option<Sizes>)
    ensures r.None? <==> !CheckCompatible((10, 8), render) && !CheckCompatible((8, 10), render)
    ensures r.Some? ==> r.value.easy == if CheckCompatible((10, 8), render) then (10, 8) else (8, 10)
    ensures r.Some? ==> CheckCompatible(r.value.easy, render) && r.value.easy.0 * r.value.easy.1 == 80
    ensures r.Some? ==> (r.value.medium == (0, 0) <==> forall j :: 0 <= j < |MediumCandidates| ==> !EitherFits(MediumCandidates[j], render))
    ensures r.Some? && r.value.medium != (0, 0) ==>
              CheckCompatible(r.value.medium, render) && r.value.medium.0 * r.value.medium.1 == 252
              && LastFit(MediumCandidates, render, r.value.medium)
    ensures r.Some? ==> (r.value.hard == (0, 0) <==> forall j :: 0 <= j < |HardCandidates| ==> !EitherFits(HardCandidates[j], render))
    ensures r.Some? && r.value.hard != (0, 0) ==>
              CheckCompatible(r.value.hard, render) && r.value.hard.0 * r.value.hard.1 == 480
              && LastFit(HardCandidates, render, r.value.hard)
  {
    if !CheckCompatible((10, 8), render) && !CheckCompatible((8, 10), render) then None
    else
      var easy := if CheckCompatible((10, 8), render) then (10, 8) else (8, 10);
      CandidateAreas();
      Some(Sizes(easy, Pick(MediumCandidates, render, 252), Pick(HardCandidates, render, 480)))
  }

  lemma CandidateAreas()
    ensures forall j :: 0 <= j < |MediumCandidates| ==>
              MediumCandidates[j].0 * MediumCandidates[j].1 == 252 && MediumCandidates[j] != (0, 0)
    ensures forall j :: 0 <= j < |HardCandidates| ==>
              HardCandidates[j].0 * HardCandidates[j].1 == 480 && HardCandidates[j] != (0, 0)
  {
  }

  /** A board of difficulty `d` can be generated: the search did not panic and found a size. */
  predicate Fits(render: (U16, U16), d: Difficulty)
  {
    var s := CompatibleSizes(render);
    s.Some? && SizeFor(s.value, d).0 > 0 && SizeFor(s.value, d).1 > 0
  }

  function PresetSize(render: (U16, U16), d: Difficulty): (r: Size)
    requires Fits(render, d)
    ensures r.0 > 0 && r.1 > 0 && CheckCompatible(r, render)
    ensures r.0 * r.1 == match d case Easy => 80 case Medium => 252 case Hard => 480
  {
    SizeFor(CompatibleSizes(render).value, d)
  }

  /** Every preset leaves room to spare: more cells than mines. */
  lemma PresetRoom(render: (U16, U16), d: Difficulty)
    requires Fits(render, d)
    ensures PresetSize(render, d).0 * PresetSize(render, d).1 > MineCount(d)
  {
  }

  /** A drawing area of at least 84 by 62 fits all three presets. */
  lemma LargeTerminalFitsAll(render: (U16, U16))
    requires render.0 >= 84 && render.1 >= 62
    ensures Fits(render, Easy) && Fits(render, Medium) && Fits(render, Hard)
  {
    assert CheckCompatible((10, 8), render);
    assert EitherFits(MediumCandidates[3], render);
    assert EitherFits(HardCandidates[5], render);
  }
}

=== FILE: storage.dfy ===
/**
 * The leaderboard file as text: how its lines are read, how the merged
 * lines are written, and what opening the file for writing without
 * truncating it does to a longer old content.
 *
 * The file is modelled as a string of characters; the program overwrites
 * bytes, which is the same thing for the ASCII text the program writes.
 */
module Storage {
  import opened Options
  import opened Tiles
  import opened Text
  import opened Ledger

  /** The index of the first line break in `s`, if there is one. */
  function LineBreak(s: string): (r: Option<nat>)
    ensures r.Some? ==> r.value < |s| && s[r.value] == '\n' && forall j :: 0 <= j < r.value ==> s[j] != '\n'
    ensures r.None? ==> forall j :: 0 <= j < |s| ==> s[j] != '\n'
    decreases |s|
  {
    if |s| == 0 then None
    else if s[0] == '\n' then Some(0)
    else
      match LineBreak(s[1..])
      case None => None
      case Some(i) => Some(i + 1)
  }

  /** A line that ended in "\r\n" loses the '\r' as well as the '\n'. */
  function StripReturn(line: string): (r: string)
    ensures r == line || (|line| > 0 && line[|line| - 1] == '\r' && r == line[..|line| - 1])
  {
    if |line| > 0 && line[|line| - 1] == '\r' then line[..|line| - 1] else line
  }

  /**
   * `BufRead::lines`: the text split at every '\n'. A line cut at a '\n'
   * also loses a '\r' just before it; a last line with no '\n' after it is
   * kept exactly as it is, '\r' included. No empty line follows a final '\n'.
   */
  function SplitLines(text: string): (r: seq<string>)
    ensures |r| <= |text|
    decreases |text|
  {
    if |text| == 0 then []
    else
      match LineBreak(text)
      case None => [text]
      case Some(i) => [StripReturn(text[..i])] + SplitLines(text[i + 1..])
  }

  /** No line read from a file holds a '\n'. */
  lemma {:induction false} SplitLinesNoBreak(text: string)
    ensures forall i, j :: 0 <= i < |SplitLines(text)| && 0 <= j < |SplitLines(text)[i]| ==> SplitLines(text)[i][j] != '\n'
    decreases |text|
  {
    if |text| > 0 {
      match LineBreak(text)
      case None =>
      case Some(k) =>
        SplitLinesNoBreak(text[k + 1..]);
        var head := StripReturn(text[..k]);
        assert forall j :: 0 <= j < |head| ==> head[j] == text[j];
    }
  }

  /** A last line with no '\n' after it is read as it is, a final '\r' included. */
  lemma UnterminatedLineKept(line: string)
    requires |line| > 0 && forall j :: 0 <= j < |line| ==> line[j] != '\n'
    ensures SplitLines(line) == [line]
  {
  }

  /** So a file whose only line is a score followed by '\r' and no '\n' holds no score. */
  lemma UnterminatedReturnUnread()
    ensures ReadFile("Easy: 5\r") == None
  {
    UnterminatedLineKept("Easy: 5\r");
    ReturnLineUnparsed();
    var opts := LineScores(Lines(["Easy: 5\r"]));
    assert opts == [None];
    assert opts[..0] == [];
  }

  lemma ReturnLineUnparsed()
    ensures ParseLine("Easy: 5\r") == None
  {
    SplitOnceJoin("Easy", "5\r");
    assert "Easy" + ": " + "5\r" == "Easy: 5\r";
    assert ParseU64("5\r") == None;
  }

  /** The write loop: every line followed by '\n'. */
  function Join(lines: seq<string>): (r: string)
    ensures |r| >= |lines|
  {
    if |lines| == 0 then "" else lines[0] + "\n" + Join(lines[1..])
  }

  /** A line that reads back as itself: no line break in it, no '\r' at its end. */
  predicate Plain(line: string)
  {
    forall i :: 0 <= i < |line| ==> line[i] != '\n' && line[i] != '\r'
  }

  lemma {:induction false} SplitJoin(lines: seq<string>)
    requires forall i :: 0 <= i < |lines| ==> Plain(lines[i])
    ensures SplitLines(Join(lines)) == lines
    decreases |lines|
  {
    if |lines| > 0 {
      var head := lines[0];
      var rest := Join(lines[1..]);
      var text := head + "\n" + rest;
      assert Plain(head);
      assert text[|head|] == '\n';
      assert forall j :: 0 <= j < |head| ==> text[j] == head[j];
      assert LineBreak(text) == Some(|head|);
      assert text[..|head|] == head;
      assert text[|head| + 1..] == rest;
      SplitJoin(lines[1..]);
    }
  }

  lemma NatToStringPlain(n: nat)
    ensures Plain(NatToString(n))
  {
    var s := NatToString(n);
    forall i | 0 <= i < |s|
      ensures s[i] != '\n' && s[i] != '\r'
    {
      assert IsDigit(s[i]);
    }
  }

  /** A score's line is plain. */
  lemma AsStringPlain(sc: Score)
    ensures Plain(AsString(sc))
  {
    NatToStringPlain(sc.time.secs);
    var name := DifficultyName(sc.difficulty);
    assert Plain(name);
    var s := AsString(sc);
    forall i | 0 <= i < |s|
      ensures s[i] != '\n' && s[i] != '\r'
    {
      if i >= |name| + 2 {
        assert s[i] == NatToString(sc.time.secs)[i - |name| - 2];
      }
    }
  }

  /** Every line the merge writes is plain. */
  lemma MergePlain(existing: Option<seq<Score>>, added: seq<Score>)
    ensures forall i :: 0 <= i < |Merge(existing, added)| ==> Plain(Merge(existing, added)[i])
  {
    forall i | 0 <= i < |Merge(existing, added)|
      ensures Plain(Merge(existing, added)[i])
    {
      var k := MergeLineSource(existing, added, i);
      AsStringPlain(k);
    }
  }

  /** The scores a file holds, as `read_leaderboard` reads them. */
  function ReadFile(text: string): Option<seq<Score>>
  {
    ReadBack(SplitLines(text))
  }

  /**
   * Writing `next` over `prior` from the start without truncating: a shorter
   * new content leaves the end of the old one in place.
   */
  function Overwrite(prior: string, next: string): (r: string)
    ensures |r| == if |next| >= |prior| then |next| else |prior|
    ensures r[..|next|] == next
    ensures |next| < |prior| ==> r[|next|..] == prior[|next|..]
  {
    if |next| >= |prior| then next else next + prior[|next|..]
  }

  /** `write_leaderboard` as written: the merged lines are written over the old file without truncating it. */
  function WriteLeaderboardAsWritten(prior: string, added: seq<Score>): (r: string)
    ensures var next := Join(Merge(ReadFile(prior), added));
      |next| <= |r| && r[..|next|] == next
      && (|next| < |prior| ==> r[|next|..] == prior[|next|..])
  {
    Overwrite(prior, Join(Merge(ReadFile(prior), added)))
  }

  /**
   * An old file with one unreadable line: after adding a score, a score
   * that was in neither the old file nor the new scores reads back from
   * the leftover tail.
   */
  lemma StaleTailAddsScore()
    ensures var prior := "########Hard: 7\n";
      var added := [Score(Easy, Duration(1, 0))];
      var phantom := Score(Hard, Duration(7, 0));
      && ReadFile(prior) == None
      && phantom !in added
      && ReadFile(WriteLeaderboardAsWritten(prior, added)) == Some([Score(Easy, Duration(1, 0)), phantom])
  {
    GarbledFileUnread();
    WrittenOverGarbled();
    LeftoverRead();
  }

  lemma WrittenOverGarbled()
    ensures WriteLeaderboardAsWritten("########Hard: 7\n", [Score(Easy, Duration(1, 0))]) == "Easy: 1\nHard: 7\n"
  {
    var prior := "########Hard: 7\n";
    var added := [Score(Easy, Duration(1, 0))];
    assert Merge(ReadFile(prior), added) == ["Easy: 1"] by {
      GarbledFileUnread();
      MergeOneScore();
    }
    LeftoverText();
  }

  lemma OneLine(line: string)
    requires Plain(line)
    ensures SplitLines(line + "\n") == [line]
  {
    SplitJoin([line]);
    assert Join([line]) == line + "\n";
  }

  lemma GarbledFileUnread()
    ensures ReadFile("########Hard: 7\n") == None
  {
    var line := "########Hard: 7";
    GarbledSplit();
    GarbledLine();
    var opts := LineScores(Lines([line]));
    assert opts == [None];
    assert opts[..0] == [];
  }

  lemma GarbledSplit()
    ensures SplitLines("########Hard: 7\n") == ["########Hard: 7"]
  {
    var line := "########Hard: 7";
    assert Plain(line);
    OneLine(line);
    assert line + "\n" == "########Hard: 7\n";
  }

  lemma GarbledLine()
    ensures ParseLine("########Hard: 7") == None
  {
    SplitOnceJoin("########Hard", "7");
    assert "########Hard" + ": " + "7" == "########Hard: 7";
    assert ParseDifficulty("########Hard") == None;
  }

  lemma AsStringSmall(sc: Score, name: string, digit: char)
    requires sc.time.secs < 10 && name == DifficultyName(sc.difficulty) && digit == DigitChar(sc.time.secs)
    ensures AsString(sc) == name + ": " + [digit]
  {
  }

  lemma MergeOneScore()
    ensures Merge(None, [Score(Easy, Duration(1, 0))]) == ["Easy: 1"]
  {
    var sc := Score(Easy, Duration(1, 0));
    AsStringSmall(sc, "Easy", '1');
    assert "Easy" + ": " + ['1'] == "Easy: 1";
    assert Strings([sc]) == ["Easy: 1"];
    assert ["Easy: 1"][1..] == [];
    assert Sort(["Easy: 1"]) == ["Easy: 1"];
  }

  lemma LeftoverText()
    ensures Overwrite("########Hard: 7\n", Join(["Easy: 1"])) == "Easy: 1\nHard: 7\n"
  {
    assert Join(["Easy: 1"]) == "Easy: 1\n" by {
      assert ["Easy: 1"][1..] == [];
    }
    assert "########Hard: 7\n"[8..] == "Hard: 7\n";
  }

  lemma LeftoverRead()
    ensures ReadFile("Easy: 1\nHard: 7\n") == Some([Score(Easy, Duration(1, 0)), Score(Hard, Duration(7, 0))])
  {
    LeftoverLines();
    LeftoverScores();
  }

  lemma LeftoverLines()
    ensures SplitLines("Easy: 1\nHard: 7\n") == ["Easy: 1", "Hard: 7"]
  {
    assert Plain("Easy: 1") && Plain("Hard: 7");
    assert Join(["Easy: 1", "Hard: 7"]) == "Easy: 1\nHard: 7\n" by {
      assert ["Easy: 1", "Hard: 7"][1..] == ["Hard: 7"];
      assert ["Hard: 7"][1..] == [];
    }
    SplitJoin(["Easy: 1", "Hard: 7"]);
  }

  lemma LeftoverScores()
    ensures Keep(Lines(["Easy: 1", "Hard: 7"])) == [Score(Easy, Duration(1, 0)), Score(Hard, Duration(7, 0))]
  {
    var e, h := Score(Easy, Duration(1, 0)), Score(Hard, Duration(7, 0));
    LeftoverStrings();
    ReadWritten([e, h]);
  }

  lemma LeftoverStrings()
    ensures Strings([Score(Easy, Duration(1, 0)), Score(Hard, Duration(7, 0))]) == ["Easy: 1", "Hard: 7"]
  {
    var e, h := Score(Easy, Duration(1, 0)), Score(Hard, Duration(7, 0));
    AsStringSmall(e, "Easy", '1');
    AsStringSmall(h, "Hard", '7');
    assert "Easy" + ": " + ['1'] == "Easy: 1";
    assert "Hard" + ": " + ['7'] == "Hard: 7";
  }

  /** `write_leaderboard` with the file truncated first: the file holds the merged lines and nothing else. */
  function WriteLeaderboard(prior: string, added: seq<Score>): (r: string)
    ensures SplitLines(r) == Merge(ReadFile(prior), added)
  {
    var merged := Merge(ReadFile(prior), added);
    MergePlain(ReadFile(prior), added);
    SplitJoin(merged);
    Join(merged)
  }

  /**
   * With truncation, the file reads back as exactly the merged lines, and
   * writing it again with no new scores leaves it as it is.
   */
  lemma WriteLeaderboardStable(prior: string, added: seq<Score>)
    ensures var text := WriteLeaderboard(prior, added);
      && Strings(Keep(Lines(SplitLines(text)))) == Merge(ReadFile(prior), added)
      && WriteLeaderboard(text, []) == text
  {
    var merged := Merge(ReadFile(prior), added);
    var text := WriteLeaderboard(prior, added);
    forall i | 0 <= i < |merged|
      ensures Canonical(merged[i])
    {
      MergeLineCanonical(ReadFile(prior), added, i);
    }
    KeepCanonical(merged);
    MergeIdempotent(ReadFile(prior), added);
  }
}

=== FILE: text.dfy ===
/**
 * Text helpers the leaderboard needs: decimal numbers in both directions,
 * splitting a line at its first separator, and the order in which strings
 * are sorted.
 */
module Text {
  import opened Options

  /** Unsigned 64-bit values, the type of a duration's whole seconds. */
  const U64Limit: nat := 0x1_0000_0000_0000_0000
  type U64 = n: int | 0 <= n < 0x1_0000_0000_0000_0000

  predicate IsDigit(c: char)
  {
    '0' <= c <= '9'
  }

  function DigitValue(c: char): nat
    requires IsDigit(c)
  {
    (c as int - '0' as int) as nat
  }

  function DigitChar(d: nat): (c: char)
    requires d < 10
    ensures IsDigit(c) && DigitValue(c) == d
  {
    ('0' as int + d) as char
  }

  predicate AllDigits(s: string)
  {
    forall i :: 0 <= i < |s| ==> IsDigit(s[i])
  }

  /** The value of a string of decimal digits, most significant first. */
  function DigitsValue(s: string): nat
    requires AllDigits(s)
  {
    if |s| == 0 then 0
    else DigitsValue(s[..|s| - 1]) * 10 + DigitValue(s[|s| - 1])
  }

  /** Decimal notation without leading zeros, as `{}` formats an integer. */
  function NatToString(n: nat): (s: string)
    ensures |s| > 0 && AllDigits(s) && DigitsValue(s) == n
    ensures |s| > 1 ==> s[0] != '0'
    decreases n
  {
    if n < 10 then [DigitChar(n)]
    else
      var front := NatToString(n / 10);
      var s := front + [DigitChar(n % 10)];
      assert s[..|s| - 1] == front;
      s
  }

  /**
   * `u64::from_str`: an optional leading '+', then at least one decimal
   * digit; None when anything else appears or the value does not fit in
   * 64 bits.
   */
  function ParseU64(s: string): (r: Option<U64>)
    ensures r.Some? <==>
              var body := if |s| > 0 && s[0] == '+' then s[1..] else s;
              |body| > 0 && AllDigits(body) && DigitsValue(body) < U64Limit
    ensures r.Some? ==> r.value == DigitsValue(if s[0] == '+' then s[1..] else s)
  {
    var body := if |s| > 0 && s[0] == '+' then s[1..] else s;
    if |body| == 0 || !AllDigits(body) then None
    else
      var v := DigitsValue(body);
      if v < U64Limit then Some(v) else None
  }

  /** Every value of 64 bits reads back from its decimal form. */
  lemma ParseNatToString(n: U64)
    ensures ParseU64(NatToString(n)) == Some(n)
  {
  }

  /** The index of the first ": " in `s` at or after `from`. */
  function FindSep(s: string, from: nat): (r: Option<nat>)
    requires from <= |s|
    ensures r.Some? ==> from <= r.value && r.value + 2 <= |s| && s[r.value] == ':' && s[r.value + 1] == ' '
    ensures r.Some? ==> forall j :: from <= j < r.value ==> !(s[j] == ':' && s[j + 1] == ' ')
    ensures r.None? ==> forall j :: from <= j && j + 1 < |s| ==> !(s[j] == ':' && s[j + 1] == ' ')
    decreases |s| - from
  {
    if from + 2 > |s| then None
    else if s[from] == ':' && s[from + 1] == ' ' then Some(from)
    else FindSep(s, from + 1)
  }

  /** `str::split_once(": ")`: the text before the first separator and the text after it. */
  function SplitOnce(s: string): (r: Option<(string, string)>)
    ensures r.Some? ==> s == r.value.0 + ": " + r.value.1
    ensures r.Some? ==> forall j :: 0 <= j && j + 1 < |r.value.0| + 1 ==> !(s[j] == ':' && s[j + 1] == ' ')
    ensures r.None? <==> forall j :: 0 <= j && j + 1 < |s| ==> !(s[j] == ':' && s[j + 1] == ' ')
  {
    match FindSep(s, 0)
    case None => None
    case Some(i) =>
      var r := (s[..i], s[i + 2..]);
      assert s == r.0 + ": " + r.1;
      Some(r)
  }

  /** Splitting a line built as head + ": " + tail gives back head and tail when the head holds no ':'. */
  lemma SplitOnceJoin(head: string, tail: string)
    requires forall i :: 0 <= i < |head| ==> head[i] != ':'
    ensures SplitOnce(head + ": " + tail) == Some((head, tail))
  {
    var s := head + ": " + tail;
    assert s[|head|] == ':' && s[|head| + 1] == ' ';
    var r := SplitOnce(s);
    assert r.Some?;
    assert r.value.0 == s[..|head|] == head;
    assert r.value.1 == s[|head| + 2..] == tail;
  }

  // ---------------------------------------------------------------------
  // The order of strings

  /**
   * The order `String` sorts by: lexicographic over code points (which is
   * also the order of the UTF-8 bytes), a proper prefix coming first.
   */
  predicate Less(a: string, b: string)
    decreases |a|
  {
    |b| > 0 && (|a| == 0 || a[0] < b[0] || (a[0] == b[0] && Less(a[1..], b[1..])))
  }

  predicate LessEq(a: string, b: string)
  {
    a == b || Less(a, b)
  }

  lemma {:induction false} LessIrreflexive(a: string)
    ensures !Less(a, a)
    decreases |a|
  {
    if |a| > 0 {
      LessIrreflexive(a[1..]);
    }
  }

  lemma {:induction false} LessTransitive(a: string, b: string, c: string)
    requires Less(a, b) && Less(b, c)
    ensures Less(a, c)
    decreases |a|
  {
    if |a| > 0 && a[0] == b[0] && b[0] == c[0] {
      LessTransitive(a[1..], b[1..], c[1..]);
    }
  }

  lemma {:induction false} LessTotal(a: string, b: string)
    ensures a == b || Less(a, b) || Less(b, a)
    decreases |a|
  {
    if |a| > 0 && |b| > 0 && a[0] == b[0] {
      LessTotal(a[1..], b[1..]);
      if a[1..] == b[1..] {
        assert a == [a[0]] + a[1..] && b == [b[0]] + b[1..];
      }
    }
  }

  lemma LessAsymmetric(a: string, b: string)
    requires Less(a, b)
    ensures !Less(b, a) && a != b
  {
    LessIrreflexive(a);
    if Less(b, a) {
      LessTransitive(a, b, a);
    }
  }

  /** The order is a strict total order: what makes the sorted, de-duplicated list unique. */
  lemma LessEqTransitive(a: string, b: string, c: string)
    requires LessEq(a, b) && LessEq(b, c)
    ensures LessEq(a, c)
    ensures Less(a, b) || Less(b, c) ==> Less(a, c)
  {
    if Less(a, b) && Less(b, c) {
      LessTransitive(a, b, c);
    }
  }
}

=== FILE: tiles.dfy ===
/** Small shared wrapper: an optional value. */
module Options {

  datatype Option<T> = None | Some(value: T)
}

/**
 * The cells of the minefield and the grid that holds them.
 *
 * The grid is a sequence of columns, indexed `[x][y]`. Coordinates are
 * plain integers here: the unsigned `x - 1` of the program wraps to the
 * largest machine word when `x` is 0, which no grid reaches, so "outside
 * the grid" covers both the wrapped and the negative reading.
 */
module Tiles {

  datatype Difficulty = Easy | Medium | Hard

  /** How many mines each preset places. */
  function MineCount(d: Difficulty): nat
  {
    match d
    case Easy => 10
    case Medium => 40
    case Hard => 99
  }

  datatype TileState = Hidden | Question | Marked | Visible

  /** `fire` is the transient highlight used by the loss animation. */
  datatype Tile = Tile(isMine: bool, state: TileState, bombsNear: nat, fire: bool)

  /** A fresh cell: no mine, hidden, no neighbouring mines counted, not lit. */
  const DefaultTile: Tile := Tile(false, Hidden, 0, false)

  type Grid = seq<seq<Tile>>

  predicate InBounds(g: Grid, x: int, y: int)
  {
    0 <= x < |g| && 0 <= y < |g[x]|
  }

  /** `g` and `h` have the same columns of the same heights. */
  predicate SameShape(g: Grid, h: Grid)
  {
    |g| == |h| && forall i :: 0 <= i < |g| ==> |g[i]| == |h[i]|
  }

  /** A `w` by `h` rectangle, as `vec![vec![..; h]; w]` builds it. */
  predicate Rect(g: Grid, w: nat, h: nat)
  {
    |g| == w && forall i :: 0 <= i < w ==> |g[i]| == h
  }

  /** (a, b) is one of the up-to-eight cells touching (x, y), never (x, y) itself. */
  predicate Adjacent(x: int, y: int, a: int, b: int)
  {
    (a != x || b != y) && x - 1 <= a <= x + 1 && y - 1 <= b <= y + 1
  }

  lemma AdjacentSymmetric(x: int, y: int, a: int, b: int)
    ensures Adjacent(x, y, a, b) <==> Adjacent(a, b, x, y)
  {
  }

  function SetTile(g: Grid, x: int, y: int, t: Tile): (r: Grid)
    requires InBounds(g, x, y)
    ensures SameShape(r, g)
    ensures r[x][y] == t
    ensures forall a, b :: InBounds(g, a, b) && (a != x || b != y) ==> r[a][b] == g[a][b]
  {
    g[x := g[x][y := t]]
  }

  /** The in-grid mines touching (x, y). */
  function MinesAround(g: Grid, x: int, y: int): set<(int, int)>
  {
    set a, b | x - 1 <= a <= x + 1 && y - 1 <= b <= y + 1 && Adjacent(x, y, a, b)
                 && InBounds(g, a, b) && g[a][b].isMine :: (a, b)
  }

  /** Every cell, mines included, carries the number of mines among its in-grid neighbours. */
  ghost predicate WellCounted(g: Grid)
  {
    forall x, y {:trigger MinesAround(g, x, y)} :: InBounds(g, x, y) ==> g[x][y].bombsNear == |MinesAround(g, x, y)|
  }

  /** Positions of all mines. */
  function MineSet(g: Grid): set<(int, int)>
  {
    set a, b | 0 <= a < |g| && 0 <= b < |g[a]| && g[a][b].isMine :: (a, b)
  }

  /** Positions of the cells not yet Visible; shrinks as the game is played. */
  function Unrevealed(g: Grid): set<(int, int)>
  {
    set a, b | 0 <= a < |g| && 0 <= b < |g[a]| && g[a][b].state != Visible :: (a, b)
  }

  /** `h` keeps every mine and every count of `g`, and differs at most in states and highlights. */
  ghost predicate SameField(g: Grid, h: Grid)
  {
    SameShape(g, h)
    && forall a, b :: InBounds(g, a, b) ==>
         h[a][b].isMine == g[a][b].isMine && h[a][b].bombsNear == g[a][b].bombsNear
  }

  /** `h` is `g` with some cells turned Visible and nothing else changed. */
  ghost predicate RevealsOnly(g: Grid, h: Grid)
  {
    SameShape(g, h)
    && forall a, b :: InBounds(g, a, b) ==>
         h[a][b] == g[a][b] || h[a][b] == g[a][b].(state := Visible)
  }

  lemma MinesAroundSameField(g: Grid, h: Grid, x: int, y: int)
    requires SameField(g, h)
    ensures MinesAround(g, x, y) == MinesAround(h, x, y)
  {
    forall p | p in MinesAround(h, x, y)
      ensures p in MinesAround(g, x, y)
    {
      assert InBounds(h, p.0, p.1);
    }
  }

  lemma SameFieldKeepsCounts(g: Grid, h: Grid)
    requires SameField(g, h)
    ensures WellCounted(g) ==> WellCounted(h)
    ensures MineSet(g) == MineSet(h)
  {
    forall x, y | InBounds(h, x, y)
      ensures MinesAround(g, x, y) == MinesAround(h, x, y)
    {
      MinesAroundSameField(g, h, x, y);
    }
    forall p | p in MineSet(h)
      ensures p in MineSet(g)
    {
      assert InBounds(h, p.0, p.1);
    }
  }

  lemma RevealsOnlyIsSameField(g: Grid, h: Grid)
    requires RevealsOnly(g, h)
    ensures SameField(g, h)
  {
  }

  lemma RevealsOnlyShrinks(g: Grid, h: Grid)
    requires RevealsOnly(g, h)
    ensures Unrevealed(h) <= Unrevealed(g)
  {
    forall p | p in Unrevealed(h)
      ensures p in Unrevealed(g)
    {
      assert InBounds(h, p.0, p.1);
    }
  }

  lemma RevealsOnlyTransitive(g: Grid, h: Grid, k: Grid)
    requires RevealsOnly(g, h) && RevealsOnly(h, k)
    ensures RevealsOnly(g, k)
  {
  }

  /** Every mine of the grid is in state `s` (vacuously true on a grid without mines). */
  ghost predicate AllMinesIn(g: Grid, s: TileState)
  {
    forall a, b :: InBounds(g, a, b) && g[a][b].isMine ==> g[a][b].state == s
  }
}
